=== FILE: README.md ===
# Task dispatcher core, in Dafny

This project models the pure decision logic of the two task dispatchers. `bt-dispatch` reads its
tasks from a Feishu Bitable; `bm-dispatch` reads them from a Base table. Each dispatcher takes the
next task from a table, builds a prompt for a language model, reads a JSON verdict out of the reply,
and records the outcome on the task. The project also models the parts of the replan test script
that restate that logic.

A task's plan is free text. It carries one declaration line, `子任务：A → B → C`, and ticks subtasks
off by writing `✅` in front of their names. The model covers:

- **The plan codec.** Reading the declared subtasks (`parseSubtasks`), reading the completed ones
  (`parseCompletedSubtasks`), finding the first unfinished one, and deciding what a resumed run
  still executes. It also covers the plan text written after a re-plan.
- **The completion rewrite.** The `markSubtaskDone` rewrite and its all-done test. Both
  dispatchers share it; they differ in the field they write and in the phase they set.
- **Task selection.** The `fetchNextTask` comparator: priority rank, then status rank, then
  sequence number.
- **Reading the verdict.** The `extractResultJSON` cascade:
  - the whole reply;
  - fenced code blocks;
  - balanced brace groups, tried from the last;
  - keyword fallback;
  - default `done`.

  The test copy also coerces `needReplan` to a boolean. The model then covers the normalization in
  `parseResult`.
- **Errors and replanning.** The error counter, which auto-blocks at `MAX_ERROR_RETRIES` (5 by
  default), and the status switch of `parseResult`. It also covers the consecutive-failure counter
  that triggers a re-plan after 3 failures of the same subtask.
- **Prompt assembly.** `buildPrompt` in both variants: the progress list, the subtask
  description, the log lines, the file paths taken from resource logs, and the section order.

Three things the code does are not modelled; the model takes them as parameters:

- `JSON.parse`: the field `Env.parse`, any total function from text to an optional JSON value.
- The fenced-block regular expression: `Env.fenced`, the block bodies in order. Where a lemma needs
  it, it asks only that a text without three backticks has no block (`FencedNeedsFence`).
- The table reads: the caller supplies the records.

Integers are unbounded. `parseInt`'s NaN is `None`. A string is a sequence of Unicode code points.
Where the code's regular expressions work on UTF-16 units, the model says which characters that
affects: the class `[^→✅○📍]` has no `u` flag, so it also refuses every character that shares a
UTF-16 unit with `📍` (`SharesSurrogate`).

Three behaviours of the code, followed as written:

- The dispatchers' `parseSubtasks` strips only a leading `✅`. Only the test copy also strips `📍`
  and `○`. The model has both: `ParseSubtasks` and `ParseSubtasksExtended`.
- Only the test copy of `extractResultJSON` coerces `needReplan` to a boolean. The dispatcher's copy
  returns the parsed object with a default file list.
- `parseResult` cuts the summary with `.slice(0, 200)`. That throws when the first truthy of
  `summary`/`message`/`reason` is neither a string nor an array. `Normalize` returns `None` there.

## Model

| member | source | states |
|---|---|---|
| Fields.Fv | scripts/bt-dispatch.mjs:94-101 | a missing or null cell reads as empty, a text cell as its text, a number cell as a decimal that `parseInt` reads back to the number, a plain object as `[object Object]` |
| Numbers.ParseIntOfString | scripts/bt-dispatch.mjs:270-271 | `parseInt` reads back exactly the integer that `String(n)` wrote, so a stored error count survives a round trip through the table |
| Numbers.ParseIntOfPrefix | scripts/bt-dispatch.mjs:270-271 | `parseInt` stops at the first character after the digits: `String(n)` followed by any text that does not start with a digit still reads as n |
| Numbers.NoLeadingDigit | scripts/bt-dispatch.mjs:270-271 | a text that starts with neither whitespace, a sign nor a digit reads as NaN |
| Text.SplitJoin | scripts/bt-dispatch.mjs:130-131 | splitting on a separator undoes joining with it when no piece contains the separator |
| Text.JoinSplit | scripts/bt-dispatch.mjs:441 | joining the pieces of a split with the same separator gives back the text |
| Text.UnescapeNewlines | scripts/bt-dispatch.mjs:130 | the literal `\n` replacement introduces no character other than a line break |
| PlanCodec.DeclaredFirstLine | scripts/bt-dispatch.mjs:128-139 | only the first trimmed line that starts with `子任务` and holds a colon decides the declared subtasks: lines before it are skipped, lines after it ignored |
| PlanCodec.DeclaredOneLine | scripts/bt-dispatch.mjs:130-136 | no declared subtask name contains a line break |
| PlanCodec.ParseCompletedSubtasks | scripts/test-dispatch-replan.mjs:42-59 | an empty plan, or one without a `✅`, has no completed subtask |
| PlanCodec.RunLengthStops | scripts/test-dispatch-replan.mjs:50 | the text a `✅` opens runs up to the first character the class refuses: `→`, `✅`, `○`, `📍`, or a character sharing a UTF-16 unit with `📍` (U+1F400 to U+1F7FF, or ending in U+DCCD) |
| PlanCodec.CompletionsAvoidStops | scripts/test-dispatch-replan.mjs:50 | a completed name never contains `→`, `✅`, `○`, `📍`, or a character sharing a UTF-16 unit with `📍` |
| PlanCodec.SingleLineCompleted | scripts/test-dispatch-replan.mjs:42-59 | a plan that is one trimmed line without a backslash completes exactly the names its `✅` runs yield |
| PlanCodec.FindFirstIncompleteSubtask | scripts/bt-dispatch.mjs:141-150 | none exactly when every declared subtask occurs `✅`-prefixed in the plan; otherwise a declared subtask without the prefix, with all declared before it prefixed |
| PlanCodec.Remaining | scripts/test-dispatch-replan.mjs:281 | a name remains exactly when it is declared and not completed, and nothing is added |
| PlanWrite.DeclLineDeclared | scripts/test-dispatch-replan.mjs:29-40 | a declaration line written from valid entries parses back to their names, in order, whatever marks they carry |
| PlanWrite.DeclLineCompleted | scripts/test-dispatch-replan.mjs:42-59 | the completed names read from such a line are exactly its `✅` entries, in order, for names free of `→`, the marks, colons, line breaks, backslashes and characters sharing a UTF-16 unit with `📍` |
| PlanWrite.EscapedNewlineDeclares | scripts/test-dispatch-replan.mjs:174-177 | a plan stored with a literal backslash-n declares the same subtasks as with a real line break |
| PlanWrite.DeclaredAfterPreamble | scripts/bt-dispatch.mjs:131-138 | lines in front that declare nothing do not change the declared subtasks |
| PlanWrite.ReplanRoundTrip | scripts/test-dispatch-replan.mjs:346-371 | the plan text written after a re-plan declares the completed subtasks followed by the new ones, and reports the completed ones as done, for names as above |
| PlanWrite.ReplanResumes | scripts/test-dispatch-replan.mjs:346-371 | after a re-plan, a resumed run executes exactly the new subtasks that are neither completed nor marked done by the new plan, for names as above |
| PlanWrite.ResumeRunsPending | scripts/test-dispatch-replan.mjs:272-297 | a plan listing done subtasks with `✅` and then pending ones declares all of them and runs exactly the pending ones, in order, for names as above |
| PlanExamples.ResumeSkipsCompleted | scripts/test-dispatch-replan.mjs:272-283 | `子任务：✅A → B → C` declares A, B, C, completes A and runs B then C |
| PlanExamples.AllDoneRunsNothing | scripts/test-dispatch-replan.mjs:285-291 | a plan whose declaration line ticks every subtask leaves nothing to run |
| PlanExamples.FreshPlanRunsAll | scripts/test-dispatch-replan.mjs:293-297 | a plan with nothing ticked runs every declared subtask |
| PlanExamples.WrenchNameRunsAgain | scripts/test-dispatch-replan.mjs:42-59 | `子任务：✅修复🔧 → B` declares `修复🔧` and B but completes only `修复`, so a resumed run executes `修复🔧` again |
| PlanExamples.LiteralNewlineDeclares | scripts/test-dispatch-replan.mjs:174-177 | `目标\n子任务：A → B` with a literal backslash-n declares A and B |
| PlanMark.MarkRewriteAgrees | scripts/bt-dispatch.mjs:236 | for a subtask name without `$`, the rewrite as the engine runs it equals the literal rewrite |
| PlanMark.DollarNameLost | scripts/bt-dispatch.mjs:236-239 | the plan `子任务：$$` declares the one subtask `$$`; as written, marking it done rewrites the plan to `子任务：✅$`, so 0 of 1 subtasks count as done; the literal rewrite makes it 1 of 1 |
| PlanMark.DollarAsWritten | scripts/bt-dispatch.mjs:236 | the engine expands the template `✅$$` to `✅$`, so `子任务：$$` becomes `子任务：✅$` |
| PlanMark.MarkRewriteMarks | scripts/bt-dispatch.mjs:236 | after the literal rewrite, a name that occurs in the plan and holds no `✅` occurs `✅`-prefixed |
| PlanMark.MarkRewriteIdempotent | scripts/bt-dispatch.mjs:236 | the rewrite changes nothing when the name's first occurrence is already ticked and no `✅✅` precedes it |
| PlanMark.MarkRewriteTwice | scripts/bt-dispatch.mjs:236 | marking the same subtask twice gives the same plan as marking it once |
| PlanMark.CountDone | scripts/bt-dispatch.mjs:238-239 | the done count equals the number of subtasks exactly when every one of them occurs `✅`-prefixed |
| PlanMark.MarkSubtaskDone | scripts/bt-dispatch.mjs:224-262 | nothing without a record; otherwise the plan is rewritten, and for a name without `$` exactly as the engine rewrites it; the total is the number declared before the rewrite; the done count is the number of declared subtasks whose `✅name` the new plan holds; the task is complete (status and summary written) exactly when that count is the total, i.e. each declared subtask is ticked afterwards, and the summary is then `全部 N 个子任务已完成` for the total N |
| PlanMark.AllDoneSummary | scripts/bt-dispatch.mjs:246 | the summary starts with `全部 ` and the text after it is the decimal total followed by ` 个子任务已完成` |
| PlanMark.AllDoneSummaryReadsBack | scripts/bm-dispatch.mjs:251 | `parseInt` of the summary after `全部 ` gives the total back, and the summary ends with ` 个子任务已完成` |
| PlanMark.NextPhase | scripts/bm-dispatch.mjs:230-267 | bm writes no phase; bt writes `✅ 全部完成` when all are done, otherwise `📍` and the first declared subtask still unticked |
| Selector.Rank | scripts/bt-dispatch.mjs:172-176 | a known label gets its table rank, an unknown one 9 |
| Selector.UnknownRanksLast | scripts/bt-dispatch.mjs:37-38 | an unknown priority or status label ranks after every known one |
| Selector.CompareIsLex | scripts/bt-dispatch.mjs:170-184 | on numeric sequence numbers the comparator is negative, zero or positive exactly as the keys are lexicographically smaller, equal or larger |
| Selector.SelectNext | scripts/bt-dispatch.mjs:154-188 | no task exactly when there is no candidate; otherwise, when every sequence number parses, a candidate with a minimal key that comes before every other one with the same key |
| Selector.MissingSequence | scripts/bt-dispatch.mjs:181-182 | a task without a sequence number sorts as number 999 |
| Extract.TryParse | scripts/bt-dispatch.mjs:484-490 | an object comes back exactly when the text parses to an object with a truthy `status` |
| Extract.CandidatesAreGroups | scripts/bt-dispatch.mjs:505-518 | each brace candidate is a balanced group cut from the reply, and the groups appear in order without overlapping |
| Extract.WholeGroup | scripts/bt-dispatch.mjs:505-518 | a reply that is one balanced group is its own and only candidate |
| Extract.NoBraceNoScan | scripts/bt-dispatch.mjs:505-518 | a reply without braces yields no candidate |
| Extract.FirstParsed | scripts/bt-dispatch.mjs:497-502 | the first fenced block that parses wins; none exactly when none parses |
| Extract.LastParsed | scripts/bt-dispatch.mjs:520-523 | the last brace candidate that parses wins; none exactly when none parses |
| Extract.ExtractResult | scripts/bt-dispatch.mjs:479-535 | the result always has a truthy status and a file list; an absent or empty reply is `done`; the keyword and default stages keep the first 200 characters and say blocked, error or done by the keywords found |
| Extract.DirectWins | scripts/bt-dispatch.mjs:493-494 | a reply that parses as a whole is taken as it is, whatever else it contains |
| Extract.LaterCandidateWins | scripts/bt-dispatch.mjs:519-523 | when the brace stage decides, the result is the object of a candidate that parses, with the default file list (or, in the test copy, the coerced `needReplan`), and no later candidate parses |
| Extract.FencedWins | scripts/bt-dispatch.mjs:496-502 | when the whole reply does not parse and some fenced block does, the result comes from the fenced stage and is the first parsing block's object with its default file list (or coerced flag) |
| Extract.FirstBlockIsResult | scripts/bt-dispatch.mjs:498-502 | when block i parses to m and no block before it parses, the result is m, whatever the later blocks hold |
| Extract.LastCandidateIsResult | scripts/bt-dispatch.mjs:519-523 | when candidate j parses to m and none after it parses, the result is m with its default file list (or coerced flag), whatever the earlier candidates hold |
| Extract.WithFiles | scripts/bt-dispatch.mjs:494 | the parsed object gains an empty file list only when it has none, and keeps every other key |
| Extract.NormalizeReplan | scripts/test-dispatch-replan.mjs:76-80 | a present `needReplan` becomes the boolean of its truthiness; an absent one stays absent |
| Extract.ReplanFlagKept | scripts/test-dispatch-replan.mjs:225-258 | in the test copy, `needReplan` survives as a strict boolean exactly when the reply had it, and the file list defaults to empty |
| Extract.SliceSummary | scripts/bt-dispatch.mjs:591 | a string keeps its first 200 characters; an array of at most 200 items is kept whole and a longer one is cut to its first 200; anything else throws |
| Extract.Normalize | scripts/bt-dispatch.mjs:587-594 | the status is the reply's when truthy and `done` otherwise; the file list is the reply's when it is an array, else empty; the summary is the first truthy of `summary`, `message`, `reason` cut to 200, or empty when none is truthy; it fails exactly when the chosen summary is neither string nor array |
| Extract.FallbackNormalizes | scripts/bt-dispatch.mjs:525-535 | a reply the extractor fell back on always normalizes, to its first 200 characters and no files |
| Extract.EmptyReplyIsDone | scripts/test-dispatch-replan.mjs:265-268 | the empty reply is `done` |
| Extract.KeywordError | scripts/bt-dispatch.mjs:530-532 | a reply that parses nowhere, mentions `failed` and not a blockage is an error |
| Extract.FailedInPassing | scripts/test-dispatch-replan.mjs:260-263 | `这个任务 failed 了` is read as an error, whenever the fence finder finds no block in a text without a fence |
| Errors.MaxRetries | scripts/bt-dispatch.mjs:30 | without the environment setting the limit is 5 |
| Errors.NextCount | scripts/bt-dispatch.mjs:270-271 | an empty error count becomes 1, a count that parses as n becomes n + 1, and any other text gives NaN |
| Errors.IncrementErrorCount | scripts/bt-dispatch.mjs:265-304 | the count goes up by one; the task is blocked exactly when the count reaches the limit; the log text is `unknown error` for an empty message, the message itself up to 500 characters, and its first 500 characters beyond that; an unblocked task's phase carries a warning afterwards, and a phase not yet flagged gets the retry note with the new count |
| Errors.RetryNote | scripts/bt-dispatch.mjs:297-300 | the retry note opens with the warning and the old phase, followed by the attempt number |
| Errors.RetryNoteReadsBack | scripts/bt-dispatch.mjs:299 | the attempt number in the retry note reads back as the new count (NaN as NaN), and the note closes with `次失败，需换方法）` |
| Errors.FifthErrorBlocks | scripts/bt-dispatch.mjs:284-292 | with the default limit the fifth error blocks the task |
| Errors.FourthErrorRetries | scripts/bt-dispatch.mjs:284-303 | with the default limit the fourth error does not block |
| Errors.FirstErrorCounts | scripts/bt-dispatch.mjs:270-271 | a task never counted before is counted once |
| Errors.Decide | scripts/bt-dispatch.mjs:597-697 | without a task nothing is written; `blocked` blocks; `error` counts, writes the failure note on the old phase, and blocks at the limit; anything else completes the subtask being run, or the task when none is |
| Errors.FailureNote | scripts/bt-dispatch.mjs:632-636 | the failure note keeps the old phase and the warning in front, followed by the attempt number |
| Errors.FailureNoteReadsBack | scripts/bt-dispatch.mjs:635 | the attempt number in the failure note reads back as the new count (NaN as NaN), and the note closes with `次失败` |
| Errors.CountThen | scripts/bt-dispatch.mjs:271-272 | a count written as text and followed by a non-digit reads back as the same count, NaN included |
| Errors.ErrorWrites | scripts/bt-dispatch.mjs:623-647 | the error branch writes the new count and the phase with its failure note, the lock when blocked, and nothing else |
| Errors.BlockWrites | scripts/bt-dispatch.mjs:662-663 | the blocked branch writes the lock and nothing else |
| Errors.TaskDoneWrites | scripts/bt-dispatch.mjs:211-220 | `markDone` writes the done status, the delivered phase and, when non-empty, the summary cut to 200, and nothing else (time stamps left out) |
| Errors.SubtaskDoneWrites | scripts/bt-dispatch.mjs:224-262 | completing a subtask writes the rewritten plan and whatever status, phase and summary `markSubtaskDone` sets, and nothing else |
| Errors.CountWritten | scripts/bt-dispatch.mjs:626-630 | the count the error branch writes is read back by the next error, which counts one more |
| Errors.CountCell | scripts/bt-dispatch.mjs:81 | a numeric count is stored so that it reads back as itself; a NaN count goes out as `null` and clears the cell |
| Errors.NaNCountRestarts | scripts/bt-dispatch.mjs:626-630 | after an error numbered NaN the cell is cleared, so the next error is numbered 1 again |
| Errors.ErrorsInARow | scripts/bt-dispatch.mjs:623-647 | from a task with no error count, the error replies in a row are numbered 1, 2, 3, and so on, and each blocks the task exactly when its number reaches the limit |
| Errors.FifthInARowBlocks | scripts/bt-dispatch.mjs:645-646 | with the default limit, of five error replies in a row on a fresh task only the fifth blocks it |
| Errors.DoneMarksSubtask | scripts/bt-dispatch.mjs:608-611 | a reply that is neither an error nor a block, while a subtask runs, writes the plan `markSubtaskDone` computes, sets the done status exactly when all subtasks are done, and leaves the error count as it was |
| Errors.ErrorPathsAgree | scripts/bt-dispatch.mjs:623-660 | the error branch of `parseResult` and `incrementErrorCount` agree on the new count and on when the task is blocked |
| Errors.Step | scripts/test-dispatch-replan.mjs:314-337 | a success resets the counter; a failure of the subtask that failed last extends it, any other failure restarts it at 1 |
| Errors.CounterCountsTrailingRun | scripts/test-dispatch-replan.mjs:301-337 | started fresh, the counter always equals the length of the final run of failures of one subtask, and names that subtask |
| Errors.ThreeFailuresReplan | scripts/test-dispatch-replan.mjs:301-312 | three failures of the same subtask in a row trigger a re-plan |
| Errors.OtherSubtaskRestarts | scripts/test-dispatch-replan.mjs:314-329 | a failure of a different subtask restarts the count at 1 |
| Prompt.ProgressLine | scripts/bt-dispatch.mjs:359-365 | a ticked subtask reads `✅ name`, the one being run `📍 name ← 当前`, any other `○ name` |
| Prompt.ProgressText | scripts/bt-dispatch.mjs:357-367 | the progress text is empty exactly when no subtask is declared |
| Prompt.ProgressReadsBack | scripts/bt-dispatch.mjs:356-367 | read back line by line, the progress text gives one line per declared subtask, in order |
| Prompt.DescriptionIn | scripts/bt-dispatch.mjs:433-448 | a subtask description is trimmed and never starts with `✅` or `📍` |
| Prompt.DescriptionOfLine | scripts/bt-dispatch.mjs:436-447 | the first line mentioning the subtask with a colon decides: the text after its first colon, full-width first, trimmed, unless empty or marked |
| Prompt.KeptLogs | scripts/bt-dispatch.mjs:390-395 | only logs with content are kept, in the order read |
| Prompt.KeptLogsOne | scripts/bt-dispatch.mjs:390-395 | one log record is kept exactly when its content is non-empty, as the type and content it reads |
| Prompt.KeptLogsAppend | scripts/bm-dispatch.mjs:394-399 | filtering runs record by record: the logs kept from two runs of records are those of the first, then those of the second |
| Prompt.FilePath | scripts/bt-dispatch.mjs:403 | a path taken from a log is non-empty and holds no whitespace |
| Prompt.FilePathIsLeftmost | scripts/bt-dispatch.mjs:403 | the search gives nothing exactly when no position matches, and otherwise the path of the leftmost matching position |
| Prompt.FilePathAfterLead | scripts/bm-dispatch.mjs:407 | text in front of the keyword that holds no match of its own does not change the path found |
| Prompt.PathAtShift | scripts/bt-dispatch.mjs:403 | whether the expression matches at a position, and what it captures, depend only on the text from that position on |
| Prompt.PathAfterKeyword | scripts/bt-dispatch.mjs:402-404 | `文件` or `file` in any ASCII letter case, then either colon, optional whitespace and a path, names that path |
| Prompt.FilePathsOnlyResources | scripts/bt-dispatch.mjs:400-406 | logs whose type does not mention a resource contribute no path |
| Prompt.FilePathsAppend | scripts/bt-dispatch.mjs:400-406 | paths are collected in log order: the paths of two runs of logs are those of the first, then those of the second |
| Prompt.Sections | scripts/bt-dispatch.mjs:415-466 | the prompt opens with the goal section and closes with the fixed output format |
| Prompt.ScopeOfSections | scripts/bm-dispatch.mjs:421-460 | bm's subtask mode shows neither the raw instruction nor the plan; otherwise each is shown exactly when non-empty; the subtask section appears exactly when a subtask is run |
| Prompt.BuildPrompt | scripts/bt-dispatch.mjs:460-467 | the prompt is the sections joined by blank lines: the goal section `## 任务目标` with the task name opens it and a blank line follows, and a blank line precedes the closing output-format section |
| Prompt.AssembleSplitsAt | scripts/bt-dispatch.mjs:467 | wherever the section list is cut, the prompt is the sections before the cut and those after it, joined by one `\n\n` |
| Prompt.AssembleOne | scripts/bt-dispatch.mjs:467 | a single section is the rendering of that section, with no separator |

## Left out

- HTTP, the Feishu token cache, `callLLM`, the dispatch loop, `sleep`, `main`, notifications, the lock and timestamps are left out. They are I/O. Their outcomes reach the model as parameters: the fetched record, the reply, the log records.
- The table writes are left out. Each operation returns the fields it would write, and the writes themselves are not modelled.
- The milestone log line and its 300-character summary cut are left out.
- The re-plan flow is modelled only as its counter and its plan text. Its language-model call and `extractPlanJSON` are I/O or outside the dispatchers' shared core.
- The replan test's end-to-end and session scenarios are not modelled. They only assert constants or the network.
- `JSON.parse` and the fenced-block regular expression are parameters, so nothing is proved about their own behaviour.
- JSON numbers are integers only. Floating point is left out.
- Extract.SliceSummary: counts code points, where `slice` counts UTF-16 units. Names with characters outside the Basic Multilingual Plane are therefore cut at a different place.
- Text.Take: same as `SliceSummary`: counts code points where the source counts UTF-16 units.
- Text.Lower: maps only ASCII letters and the Kelvin sign. It is exact for every keyword the code looks for, none of which a non-ASCII character lowercases into.
- Selector.SelectNext: the minimality claim assumes every sequence number parses. With a NaN the comparator is inconsistent and `Array.prototype.sort` may return any order, so nothing is claimed then.
- The search filter and page size of `fetchNextTask`, and the ten most recent log records of `buildPrompt`, are left out. The table service applies them, and the model takes the candidates as given.
- The search for log records can fail. That case is the same as an empty list of logs.
- PlanMark.ReplaceFirstAsWritten: expands `$$`, `` $` ``, `$'` and `$&`. The `$n` and `$<name>` patterns do not apply to a string pattern and are taken literally.
- The rewrite targets the first occurrence of the subtask name anywhere in the plan, also inside a longer name or in the free text. That hazard is modelled as written, and no lemma claims otherwise.
- The environment override of the error limit is modelled only as the text `parseInt` reads.
- The brace scanner's depth can go negative after a stray `}`. This is modelled as written.
- PlanCodec.Completions: an astral character outside U+1F400 to U+1F7FF whose low surrogate is U+DCCD is cut in half by the source's match, which keeps its lone high surrogate in the name. Code points cannot represent half a character, so the model ends the run in front of it.
- PlanWrite.DeclLineCompleted: holds only for names without a character sharing a UTF-16 unit with `📍`. The source cuts such a name short, as `PlanExamples.WrenchNameRunsAgain` shows.
- PlanWrite.ReplanRoundTrip: the same restriction on names, for the same reason.
- PlanWrite.ReplanResumes: the same restriction on names, for the same reason.
- PlanWrite.ResumeRunsPending: the same restriction on names, for the same reason.
- PlanCodec.ParseCompletedSubtasks: the same cut applies to completed names read from any plan; the contract states only the empty case, and the cut itself is stated by `PlanCodec.RunLengthStops`.
- PlanMark.MarkSubtaskDone: inserts `✅` literally in front of the name. For a name holding `$` the source expands replacement patterns instead (see Findings), so the contract equates the two rewrites only for names without `$`.
- Errors.CountCell: a `null` in the update is taken to clear the cell, so it reads back as empty. What the table service does with `null` is outside the code.
- Fields.Fv: reads a number cell as its plain decimal digits. JavaScript's `String` switches to exponent notation from 10^21 and cannot hold integers above 2^53 exactly; the model has neither limit.
- Fields.Fv: a `null` element of a list cell makes `i.text` throw a TypeError; the model has no null element, so that throw is not modelled. An object element whose `text` is a truthy non-string, and a list element that is itself a list, are not modelled either.

## Findings

| source | as written | input that shows it | evidently intended | confidence | as-written member | corrected member |
|---|---|---|---|---|---|---|
| scripts/bt-dispatch.mjs:236 | the replacement text `✅${subtaskName}` is a `String.prototype.replace` template, so `$` patterns in the subtask name are expanded | plan `子任务：$$`, subtask `$$`: the plan becomes `子任务：✅$`, which does not contain `✅$$`, so 0 of the 1 declared subtasks count as done and the task is never completed | insert `✅` literally in front of the name | not executed | PlanMark.DollarNameLost | PlanMark.MarkRewriteMarks |

=== FILE: errors.dfy ===
/**
 * Failure bookkeeping: the error count kept on a task and the automatic block once it reaches the
 * retry limit (`incrementErrorCount` and the error branch of `parseResult`), the action
 * `parseResult` takes for each status, and the consecutive-failure counter that triggers a replan.
 */
module Errors {
  import opened Maybe
  import opened Text
  import Numbers
  import Fields
  import Extract
  import PlanMark

  /** The retry limit when the environment does not set one. */
  const DefaultMaxRetries: string := "5"

  /** `parseInt(process.env.BT_MAX_ERROR_RETRIES || '5', 10)`; `None` is NaN. */
  function MaxRetries(setting: string): (r: Option<int>)
    ensures setting == "" ==> r == Some(5)
  {
    Numbers.ParseIntOfString(5);
    assert Numbers.IntToString(5) == DefaultMaxRetries;
    Numbers.ParseInt(if setting == "" then DefaultMaxRetries else setting)
  }

  /** The fields of the record as fetched; a missing record reads as having no fields. */
  function FieldsOf(rec: Option<Fields.Record>): Fields.Fields {
    match rec
    case None => map[]
    case Some(r) => r.fields
  }

  /** `n + 1` on a parsed number; NaN stays NaN. */
  function PlusOne(v: Option<int>): (r: Option<int>)
    ensures v.Some? ==> r == Some(v.value + 1)
    ensures v.None? ==> r.None?
  {
    match v
    case None => None
    case Some(n) => Some(n + 1)
  }

  /** `parseInt(fv(fields, '错误次数') || '0', 10) + 1`; NaN stays NaN. */
  function NextCount(rec: Option<Fields.Record>): (r: Option<int>)
    ensures var t := Fields.Fv(FieldsOf(rec), "错误次数");
            && (t == "" ==> r == Some(1))
            && (t != "" ==> (Numbers.ParseInt(t).Some? ==> r == Some(Numbers.ParseInt(t).value + 1)))
            && (t != "" ==> (Numbers.ParseInt(t).None? ==> r.None?))
  {
    var t := Fields.Fv(FieldsOf(rec), "错误次数");
    if t == "" then Some(0 + 1) else PlusOne(Numbers.ParseInt(t))
  }

  /** `newCount >= MAX_ERROR_RETRIES`; a comparison with NaN is false. */
  predicate ReachesLimit(count: Option<int>, max: Option<int>) {
    count.Some? && max.Some? && count.value >= max.value
  }

  /** `String(newCount)`. */
  function CountText(count: Option<int>): string {
    match count
    case None => "NaN"
    case Some(n) => Numbers.IntToString(n)
  }

  const Warning: string := "\U{26A0}\U{FE0F}"
  const BlockedStatus: string := "\U{1F6A7} 阻塞中"
  const LockedStatus: string := "\U{1F512}阻塞"
  const UnknownError: string := "unknown error"

  /** What `incrementErrorCount` writes: the new count, the log entry, and then either the block or a new phase. */
  datatype ErrorUpdate = ErrorUpdate(
    count: Option<int>,
    logText: string,
    blocked: bool,
    status: Option<string>,
    phase: Option<string>)

  /**
   * `incrementErrorCount(cfg, recordId, errorMsg)` on the record it fetched: the count goes up by
   * one; at the limit the task is blocked and the owner notified, otherwise a phase not already
   * flagged with a warning gets one naming the attempt.
   */
  function IncrementErrorCount(rec: Option<Fields.Record>, msg: string, max: Option<int>): (r: ErrorUpdate)
    ensures r.count == NextCount(rec)
    ensures r.blocked <==> ReachesLimit(r.count, max)
    ensures r.blocked ==> r.status == Some(BlockedStatus) && r.phase.None?
    ensures !r.blocked ==> r.status.None?
    ensures |r.logText| <= 500
    ensures msg != "" ==> r.logText <= msg
    ensures msg == "" ==> r.logText == UnknownError
    ensures |msg| <= 500 && msg != "" ==> r.logText == msg
    ensures |msg| > 500 ==> |r.logText| == 500
    ensures r.phase.Some? ==> Warning <= r.phase.value
    ensures !r.blocked && r.phase.None? ==> Warning <= Fields.Fv(FieldsOf(rec), "当前阶段")
    ensures var phase := Fields.Fv(FieldsOf(rec), PhaseField);
            !r.blocked && !(Warning <= phase) ==> r.phase == Some(RetryNote(phase, r.count))
  {
    var count := NextCount(rec);
    var logText := Take(if msg == "" then UnknownError else msg, 500);
    if ReachesLimit(count, max) then ErrorUpdate(count, logText, true, Some(BlockedStatus), None)
    else
      var phase := Fields.Fv(FieldsOf(rec), "当前阶段");
      if Warning <= phase then ErrorUpdate(count, logText, false, None, None)
      else ErrorUpdate(count, logText, false, None, Some(RetryNote(phase, count)))
  }

  /** With the default limit the fifth error blocks the task and the fourth does not. */
  lemma FifthErrorBlocks(rec: Fields.Record, msg: string)
    requires Numbers.ParseInt(Fields.Fv(rec.fields, "错误次数")) == Some(4)
    ensures IncrementErrorCount(Some(rec), msg, MaxRetries("")).blocked
  {
  }

  lemma FourthErrorRetries(rec: Fields.Record, msg: string)
    requires Numbers.ParseInt(Fields.Fv(rec.fields, "错误次数")) == Some(3)
    ensures !IncrementErrorCount(Some(rec), msg, MaxRetries("")).blocked
  {
  }

  /** A task never counted before is counted once and, with any limit above one, not blocked. */
  lemma FirstErrorCounts(msg: string, max: int)
    requires max > 1
    ensures IncrementErrorCount(None, msg, Some(max)).count == Some(1)
    ensures !IncrementErrorCount(None, msg, Some(max)).blocked
  {
  }

  // ---------------------------------------------------------------------------------------------
  // parseResult's action

  /** A count written with `String` and followed by a non-digit reads back as the count. */
  lemma CountThen(count: Option<int>, tail: string)
    requires |tail| > 0 && !Numbers.IsDigit(tail[0])
    ensures Numbers.ParseInt(CountText(count) + tail) == count
  {
    if count.Some? {
      Numbers.ParseIntOfPrefix(count.value, tail);
    } else {
      Numbers.NoLeadingDigit(CountText(count) + tail);
    }
  }

  /** The text that closes the failure note on the phase. */
  const FailTail: string := "次失败"

  /**
   * The phase `parseResult` writes on an error reply, `${phase} ⚠️ 第${newCount}次失败`: the old
   * phase and the warning stay in front, then the attempt number, and the note closes with `次失败`.
   */
  function FailureNote(phase: string, count: Option<int>): (r: string)
    ensures phase + " " + Warning + " 第" <= r
    ensures r[|phase + " " + Warning + " 第"|..] == CountText(count) + FailTail
  {
    var lead := phase + " " + Warning + " 第";
    assert (lead + CountText(count) + FailTail)[|lead|..] == CountText(count) + FailTail by {}
    lead + CountText(count) + FailTail
  }

  /** The attempt number in the failure note reads back as the count, and the note closes with `次失败`. */
  lemma FailureNoteReadsBack(phase: string, count: Option<int>)
    ensures var r := FailureNote(phase, count);
            && Numbers.ParseInt(r[|phase + " " + Warning + " 第"|..]) == count
            && |r| >= |FailTail| && r[|r| - |FailTail|..] == FailTail
  {
    var num := CountText(count);
    assert (num + FailTail)[|num|..] == FailTail;
    CountThen(count, FailTail);
  }

  /** The text that closes the retry note `incrementErrorCount` puts on the phase. */
  const RetryTail: string := "次失败，需换方法）"

  /**
   * The phase `incrementErrorCount` writes below the limit, `⚠️ ${phase}（第${newCount}次失败，需换方法）`:
   * the warning leads, the old phase follows, then the attempt number, and the note closes with
   * `次失败，需换方法）`.
   */
  function RetryNote(phase: string, count: Option<int>): (r: string)
    ensures Warning + " " + phase + "（第" <= r
    ensures r[|Warning + " " + phase + "（第"|..] == CountText(count) + RetryTail
  {
    var lead := Warning + " " + phase + "（第";
    assert (lead + CountText(count) + RetryTail)[|lead|..] == CountText(count) + RetryTail by {}
    lead + CountText(count) + RetryTail
  }

  /** The attempt number in the retry note reads back as the count, and the note closes as above. */
  lemma RetryNoteReadsBack(phase: string, count: Option<int>)
    ensures var r := RetryNote(phase, count);
            && Numbers.ParseInt(r[|Warning + " " + phase + "（第"|..]) == count
            && |r| >= |RetryTail| && r[|r| - |RetryTail|..] == RetryTail
  {
    var num := CountText(count);
    assert (num + RetryTail)[|num|..] == RetryTail;
    CountThen(count, RetryTail);
  }

  /** The table writes `parseResult` makes once it knows the status. */
  datatype Action =
    | ReturnOnly                  // no task or no configuration: parse only
    | CompleteSubtask(name: string)
    | CompleteTask
    | RecordError(count: Option<int>, phase: string, blocked: bool)
    | Block

  /**
   * The switch in `parseResult`: `done` completes the subtask being run, or the whole task when
   * none is; `error` counts the failure, appends a warning to the phase and blocks at the limit;
   * `blocked` blocks; any other status is treated as `done`.
   */
  function Decide(status: Extract.Json, hasTask: bool, subtask: string, rec: Option<Fields.Record>,
                  max: Option<int>): (a: Action)
    ensures !hasTask ==> a == ReturnOnly
    ensures hasTask && status == Extract.JStr("blocked") ==> a == Block
    ensures hasTask && status == Extract.JStr("error") ==>
      && a.RecordError? && a.count == NextCount(rec) && (a.blocked <==> ReachesLimit(a.count, max))
      && a.phase == FailureNote(Fields.Fv(FieldsOf(rec), PhaseField), a.count)
    ensures hasTask && status != Extract.JStr("blocked") && status != Extract.JStr("error") ==>
      (subtask != "" ==> a == CompleteSubtask(subtask)) && (subtask == "" ==> a == CompleteTask)
  {
    if !hasTask then ReturnOnly
    else if status == Extract.JStr("error") then
      var count := NextCount(rec);
      var phase := Fields.Fv(FieldsOf(rec), "当前阶段");
      RecordError(count, FailureNote(phase, count), ReachesLimit(count, max))
    else if status == Extract.JStr("blocked") then Block
    else if subtask != "" then CompleteSubtask(subtask)
    else CompleteTask
  }

  /** Both error paths agree on the count and on when the task is blocked. */
  lemma ErrorPathsAgree(rec: Option<Fields.Record>, msg: string, subtask: string, max: Option<int>)
    ensures var a := Decide(Extract.JStr("error"), true, subtask, rec, max);
            var u := IncrementErrorCount(rec, msg, max);
            a.count == u.count && a.blocked == u.blocked
  {
  }

  // ---------------------------------------------------------------------------------------------
  // The writes on the task record

  const CountField: string := "错误次数"
  const PhaseField: string := "当前阶段"
  const StatusField: string := "状态"
  const SummaryField: string := "结果摘要"
  const DeliveredPhase: string := "\U{2705} 交付完成"

  /**
   * The cell `{ '错误次数': newCount }` writes. The request body goes through `JSON.stringify`,
   * which turns NaN into `null`, so a NaN count clears the cell.
   */
  function CountCell(count: Option<int>): (c: Fields.Cell)
    ensures count.Some? ==> Numbers.ParseInt(Fields.Fv(map[CountField := c], CountField)) == count
    ensures count.None? ==> Fields.Fv(map[CountField := c], CountField) == ""
  {
    match count
    case None => Fields.NullCell
    case Some(n) => Fields.NumCell(n)
  }

  /** The record holds `c` under `key`. */
  predicate Holds(f: Fields.Fields, key: string, c: Fields.Cell) {
    key in f && f[key] == c
  }

  /** The fields a write leaves as they were: all but `keys`. */
  predicate KeepsOthers(before: Fields.Fields, after: Fields.Fields, keys: set<string>) {
    && (forall k :: k in before && k !in keys ==> k in after && after[k] == before[k])
    && (forall k :: k in after && k !in keys ==> k in before)
  }

  /** The fields `markSubtaskDone` writes: the plan, and the status, phase and summary it sets. */
  function CompletionKeys(c: PlanMark.Completion): (keys: set<string>)
    ensures PlanMark.PlanField(PlanMark.Bt) in keys && CountField !in keys
    ensures StatusField in keys <==> c.status.Some?
    ensures PhaseField in keys <==> c.phase.Some?
    ensures SummaryField in keys <==> c.summary.Some?
  {
    {PlanMark.PlanField(PlanMark.Bt)}
      + (if c.status.Some? then {StatusField} else {})
      + (if c.phase.Some? then {PhaseField} else {})
      + (if c.summary.Some? then {SummaryField} else {})
  }

  /** The error branch: the new count, the phase with its failure note, and the lock at the limit. */
  function ErrorWrites(rec: Fields.Record, count: Option<int>, phase: string, blocked: bool): (r: Fields.Record)
    ensures r.id == rec.id
    ensures Holds(r.fields, CountField, CountCell(count)) && Holds(r.fields, PhaseField, Fields.TextCell(phase))
    ensures blocked ==> Holds(r.fields, StatusField, Fields.TextCell(LockedStatus))
    ensures KeepsOthers(rec.fields, r.fields, if blocked then {CountField, PhaseField, StatusField}
                                              else {CountField, PhaseField})
  {
    var f := rec.fields[CountField := CountCell(count)][PhaseField := Fields.TextCell(phase)];
    Fields.Record(rec.id, if blocked then f[StatusField := Fields.TextCell(LockedStatus)] else f)
  }

  /** The blocked branch: the lock. */
  function BlockWrites(rec: Fields.Record): (r: Fields.Record)
    ensures r.id == rec.id
    ensures Holds(r.fields, StatusField, Fields.TextCell(LockedStatus))
    ensures KeepsOthers(rec.fields, r.fields, {StatusField})
  {
    Fields.Record(rec.id, rec.fields[StatusField := Fields.TextCell(LockedStatus)])
  }

  /** `markDone`: the done status, the delivered phase and, when there is one, the summary cut to 200. */
  function TaskDoneWrites(rec: Fields.Record, summary: string): (r: Fields.Record)
    ensures r.id == rec.id
    ensures Holds(r.fields, StatusField, Fields.TextCell(PlanMark.StatusDone))
    ensures Holds(r.fields, PhaseField, Fields.TextCell(DeliveredPhase))
    ensures summary != "" ==> Holds(r.fields, SummaryField, Fields.TextCell(Take(summary, Extract.SummaryLimit)))
    ensures KeepsOthers(rec.fields, r.fields, if summary != "" then {StatusField, PhaseField, SummaryField}
                                              else {StatusField, PhaseField})
  {
    var f := rec.fields[StatusField := Fields.TextCell(PlanMark.StatusDone)]
                       [PhaseField := Fields.TextCell(DeliveredPhase)];
    Fields.Record(rec.id, if summary != "" then f[SummaryField := Fields.TextCell(Take(summary, Extract.SummaryLimit))]
                          else f)
  }

  /** The cells `markSubtaskDone` writes for completion `c`. */
  function CompletionCells(c: PlanMark.Completion): (w: Fields.Fields)
    ensures w.Keys == CompletionKeys(c)
    ensures Holds(w, PlanMark.PlanField(PlanMark.Bt), Fields.TextCell(c.plan))
    ensures c.status.Some? ==> Holds(w, StatusField, Fields.TextCell(c.status.value))
    ensures c.phase.Some? ==> Holds(w, PhaseField, Fields.TextCell(c.phase.value))
    ensures c.summary.Some? ==> Holds(w, SummaryField, Fields.TextCell(c.summary.value))
  {
    map[PlanMark.PlanField(PlanMark.Bt) := Fields.TextCell(c.plan)]
      + (if c.status.Some? then map[StatusField := Fields.TextCell(c.status.value)] else map[])
      + (if c.phase.Some? then map[PhaseField := Fields.TextCell(c.phase.value)] else map[])
      + (if c.summary.Some? then map[SummaryField := Fields.TextCell(c.summary.value)] else map[])
  }

  /** `markSubtaskDone`'s write: the rewritten plan, and the status, phase and summary it sets. */
  function SubtaskDoneWrites(rec: Fields.Record, name: string): (r: Fields.Record)
    ensures r.id == rec.id
    ensures var c := PlanMark.MarkSubtaskDone(PlanMark.Bt, Some(rec), name).value;
      && Holds(r.fields, PlanMark.PlanField(PlanMark.Bt), Fields.TextCell(c.plan))
      && (c.status.Some? ==> Holds(r.fields, StatusField, Fields.TextCell(c.status.value)))
      && (c.phase.Some? ==> Holds(r.fields, PhaseField, Fields.TextCell(c.phase.value)))
      && (c.summary.Some? ==> Holds(r.fields, SummaryField, Fields.TextCell(c.summary.value)))
      && KeepsOthers(rec.fields, r.fields, CompletionKeys(c))
  {
    var c := PlanMark.MarkSubtaskDone(PlanMark.Bt, Some(rec), name).value;
    Fields.Record(rec.id, rec.fields + CompletionCells(c))
  }

  /**
   * The task record after the writes `parseResult` makes for action `a` (time stamps left out);
   * `summary` is the normalized summary.
   */
  function Apply(rec: Fields.Record, a: Action, summary: string): (r: Fields.Record)
    ensures r.id == rec.id
    ensures a.ReturnOnly? ==> r == rec
  {
    match a
    case ReturnOnly => rec
    case RecordError(count, phase, blocked) => ErrorWrites(rec, count, phase, blocked)
    case Block => BlockWrites(rec)
    case CompleteTask => TaskDoneWrites(rec, summary)
    case CompleteSubtask(name) => SubtaskDoneWrites(rec, name)
  }

  /** The task record after `k` error replies in a row while `subtask` runs. */
  function AfterErrors(rec: Fields.Record, subtask: string, max: Option<int>, k: nat): Fields.Record
    decreases k
  {
    if k == 0 then rec
    else
      var prev := AfterErrors(rec, subtask, max, k - 1);
      Apply(prev, Decide(Extract.JStr("error"), true, subtask, Some(prev), max), "")
  }

  /** A count stored as the number `n` is read back, and the next error makes it `n + 1`. */
  lemma CountReadBack(r: Fields.Record, n: int)
    requires Holds(r.fields, CountField, Fields.NumCell(n))
    ensures NextCount(Some(r)) == Some(n + 1)
  {
    var t := Fields.Fv(r.fields, CountField);
    assert Numbers.ParseInt(t) == Some(n) by {
      assert CountField in r.fields && r.fields[CountField].NumCell?;
    }
    assert t != "" by {
      assert Numbers.ParseInt("").None? by {
        assert Text.TrimStart("") == "";
      }
    }
    assert FieldsOf(Some(r)) == r.fields;
  }

  /** An error action numbered `n` leaves a count that the next error reads as `n`. */
  lemma CountWritten(prev: Fields.Record, a: Action, n: int)
    requires a.RecordError? && a.count == Some(n)
    ensures NextCount(Some(Apply(prev, a, ""))) == Some(n + 1)
  {
    var r := Apply(prev, a, "");
    assert Holds(r.fields, CountField, Fields.NumCell(n)) by {
      assert r == ErrorWrites(prev, a.count, a.phase, a.blocked);
    }
    CountReadBack(r, n);
  }

  /** An error numbered NaN clears the count, so the next error is numbered 1 again. */
  lemma NaNCountRestarts(prev: Fields.Record, a: Action)
    requires a.RecordError? && a.count.None?
    ensures NextCount(Some(Apply(prev, a, ""))) == Some(1)
  {
    var r := Apply(prev, a, "");
    assert Holds(r.fields, CountField, Fields.NullCell) by {
      assert r == ErrorWrites(prev, a.count, a.phase, a.blocked);
    }
    assert FieldsOf(Some(r)) == r.fields;
  }

  /** The error branch takes the count `NextCount` reads, and blocks exactly at the limit. */
  lemma DecideError(rec: Fields.Record, subtask: string, max: Option<int>, n: int)
    requires NextCount(Some(rec)) == Some(n)
    ensures var a := Decide(Extract.JStr("error"), true, subtask, Some(rec), max);
            && a.RecordError? && a.count == Some(n)
            && (a.blocked <==> max.Some? && n >= max.value)
  {
  }

  /**
   * From a task with no error count, the error replies in a row are counted 1, 2, 3, ..., and the
   * one after `k` of them blocks the task exactly when its number reaches the limit.
   */
  lemma {:induction false} ErrorsInARow(rec: Fields.Record, subtask: string, max: Option<int>, k: nat)
    requires Fields.Fv(rec.fields, CountField) == ""
    ensures var a := Decide(Extract.JStr("error"), true, subtask, Some(AfterErrors(rec, subtask, max, k)), max);
            && a.RecordError? && a.count == Some(k + 1)
            && (a.blocked <==> max.Some? && k + 1 >= max.value)
    decreases k
  {
    var cur := AfterErrors(rec, subtask, max, k);
    if k == 0 {
      assert NextCount(Some(cur)) == Some(1) by {
        assert FieldsOf(Some(rec)) == rec.fields;
      }
    } else {
      var prev := AfterErrors(rec, subtask, max, k - 1);
      var last := Decide(Extract.JStr("error"), true, subtask, Some(prev), max);
      assert last.RecordError? && last.count == Some(k) by {
        ErrorsInARow(rec, subtask, max, k - 1);
      }
      assert NextCount(Some(cur)) == Some(k + 1) by {
        assert cur == Apply(prev, last, "");
        CountWritten(prev, last, k);
      }
    }
    DecideError(cur, subtask, max, k + 1);
  }

  /** With the default limit, the fifth error in a row blocks a fresh task and none before it does. */
  lemma FifthInARowBlocks(rec: Fields.Record, subtask: string, k: nat)
    requires Fields.Fv(rec.fields, CountField) == "" && k < 5
    ensures var max := MaxRetries("");
            var a := Decide(Extract.JStr("error"), true, subtask, Some(AfterErrors(rec, subtask, max, k)), max);
            a.blocked <==> k == 4
  {
    ErrorsInARow(rec, subtask, MaxRetries(""), k);
  }

  /** A field `markSubtaskDone` does not write reads as before. */
  lemma SubtaskKeeps(rec: Fields.Record, subtask: string, key: string)
    requires key !in CompletionKeys(PlanMark.MarkSubtaskDone(PlanMark.Bt, Some(rec), subtask).value)
    ensures Fields.Fv(SubtaskDoneWrites(rec, subtask).fields, key) == Fields.Fv(rec.fields, key)
  {
    var r := SubtaskDoneWrites(rec, subtask);
    assert key in r.fields <==> key in rec.fields;
    Fields.FvAgrees(r.fields, rec.fields, key);
  }

  /** Completing a subtask writes its plan and status and leaves the error count alone. */
  lemma SubtaskWrites(rec: Fields.Record, subtask: string)
    ensures var c := PlanMark.MarkSubtaskDone(PlanMark.Bt, Some(rec), subtask).value;
            var r := SubtaskDoneWrites(rec, subtask);
            && Fields.Fv(r.fields, PlanMark.PlanField(PlanMark.Bt)) == c.plan
            && (c.allDone ==> Fields.Fv(r.fields, StatusField) == PlanMark.StatusDone)
            && (!c.allDone ==> Fields.Fv(r.fields, StatusField) == Fields.Fv(rec.fields, StatusField))
            && Fields.Fv(r.fields, CountField) == Fields.Fv(rec.fields, CountField)
  {
    var c := PlanMark.MarkSubtaskDone(PlanMark.Bt, Some(rec), subtask).value;
    if !c.allDone {
      SubtaskKeeps(rec, subtask, StatusField);
    }
    SubtaskKeeps(rec, subtask, CountField);
  }

  /**
   * A reply that is neither an error nor a block, while a subtask runs, writes exactly what
   * `markSubtaskDone` computes and leaves the error count as it was.
   */
  lemma DoneMarksSubtask(rec: Fields.Record, status: Extract.Json, subtask: string, max: Option<int>, summary: string)
    requires subtask != "" && status != Extract.JStr("error") && status != Extract.JStr("blocked")
    ensures var c := PlanMark.MarkSubtaskDone(PlanMark.Bt, Some(rec), subtask).value;
            var r := Apply(rec, Decide(status, true, subtask, Some(rec), max), summary);
            && Fields.Fv(r.fields, PlanMark.PlanField(PlanMark.Bt)) == c.plan
            && (c.allDone <==> c.status == Some(PlanMark.StatusDone))
            && (c.allDone ==> Fields.Fv(r.fields, StatusField) == PlanMark.StatusDone)
            && (!c.allDone ==> Fields.Fv(r.fields, StatusField) == Fields.Fv(rec.fields, StatusField))
            && Fields.Fv(r.fields, CountField) == Fields.Fv(rec.fields, CountField)
  {
    assert Decide(status, true, subtask, Some(rec), max) == CompleteSubtask(subtask);
    SubtaskWrites(rec, subtask);
  }

  // ---------------------------------------------------------------------------------------------
  // Consecutive failures

  /** How many times in a row the subtask `last` has failed. */
  datatype Tracker = Tracker(count: nat, last: string)

  const InitialTracker: Tracker := Tracker(0, "")

  /** Failures of the same subtask in a row that trigger a replan. */
  const ReplanThreshold: nat := 3

  datatype Event = Failed(name: string) | Succeeded

  /** A failure extends the run when the same subtask failed last, and starts a new run otherwise; a success ends it. */
  function Step(t: Tracker, e: Event): (r: Tracker)
    ensures e.Succeeded? ==> r.count == 0
    ensures e.Failed? ==> r.last == e.name && r.count >= 1
    ensures e.Failed? && e.name != t.last ==> r.count == 1
    ensures e.Failed? && e.name == t.last ==> r.count == t.count + 1
  {
    match e
    case Failed(name) => Tracker(if t.last == name then t.count + 1 else 1, name)
    case Succeeded => Tracker(0, t.last)
  }

  function Run(t: Tracker, events: seq<Event>): Tracker
    decreases |events|
  {
    if |events| == 0 then t else Run(Step(t, events[0]), events[1..])
  }

  /** The failures of one and the same subtask at the end of `events`. */
  function TrailingRun(events: seq<Event>): (n: nat)
    ensures n <= |events|
    decreases |events|
  {
    if |events| == 0 then 0
    else
      var e := events[|events| - 1];
      if e.Succeeded? then 0
      else if |events| >= 2 && events[|events| - 2] == e then TrailingRun(events[..|events| - 1]) + 1
      else 1
  }

  lemma {:induction false} RunSnoc(t: Tracker, events: seq<Event>, e: Event)
    ensures Run(t, events + [e]) == Step(Run(t, events), e)
    decreases |events|
  {
    if |events| > 0 {
      assert (events + [e])[1..] == events[1..] + [e];
      RunSnoc(Step(t, events[0]), events[1..], e);
    }
  }

  /**
   * Started fresh, the counter always equals the length of the final run of failures of one
   * subtask, and while that run is non-empty it names that subtask.
   */
  lemma {:induction false} CounterCountsTrailingRun(events: seq<Event>)
    ensures Run(InitialTracker, events).count == TrailingRun(events)
    ensures TrailingRun(events) > 0 ==> events[|events| - 1] == Failed(Run(InitialTracker, events).last)
    decreases |events|
  {
    if |events| > 0 {
      var init := events[..|events| - 1];
      var e := events[|events| - 1];
      assert init + [e] == events;
      CounterCountsTrailingRun(init);
      RunSnoc(InitialTracker, init, e);
    }
  }

  /** A replan is due after `ReplanThreshold` failures of the same subtask in a row, or when asked for. */
  predicate ShouldReplan(t: Tracker, needReplan: bool) {
    needReplan || t.count >= ReplanThreshold
  }

  /** Three failures of one subtask trigger a replan; a failure of another subtask in between restarts the count. */
  lemma ThreeFailuresReplan(t: Tracker, name: string)
    ensures ShouldReplan(Run(t, [Failed(name), Failed(name), Failed(name)]), false)
  {
    var e := Failed(name);
    var t1 := Step(t, e);
    var t2 := Step(t1, e);
    assert [e, e, e][1..] == [e, e] && [e, e][1..] == [e];
    assert Run(t, [e, e, e]) == Run(t2, [e]) == Step(t2, e);
  }

  lemma OtherSubtaskRestarts(t: Tracker, a: string, b: string)
    requires a != b
    ensures Run(t, [Failed(a), Failed(b)]).count == 1
  {
    var t1 := Step(t, Failed(a));
    assert [Failed(a), Failed(b)][1..] == [Failed(b)];
    assert Run(t, [Failed(a), Failed(b)]) == Run(t1, [Failed(b)]);
    assert Run(t1, [Failed(b)]) == Run(Step(t1, Failed(b)), []);
  }
}

=== FILE: extract.dfy ===
/**
 * Reading the model's reply (`extractResultJSON`) and reducing it to the result the dispatcher acts
 * on (`parseResult`). `JSON.parse` and the fenced-code-block regular expression are parameters.
 */
module Extract {
  import opened Maybe
  import opened Text

  /** A JSON value as `JSON.parse` returns it; numbers are kept as integers. */
  datatype Json =
    | JNull
    | JBool(b: bool)
    | JNum(n: int)
    | JStr(s: string)
    | JArr(items: seq<Json>)
    | JObj(props: map<string, Json>)

  type Obj = map<string, Json>

  /** JavaScript truthiness of a parsed value. */
  predicate Truthy(v: Json) {
    match v
    case JNull => false
    case JBool(b) => b
    case JNum(n) => n != 0
    case JStr(s) => s != ""
    case _ => true
  }

  /**
   * What the extractor needs from outside: `parse(s)` is `JSON.parse(s)`, `None` when it throws;
   * `fenced(raw)` lists, in order, the text each match of the fenced-code-block expression captures.
   */
  datatype Env = Env(parse: string -> Option<Json>, fenced: string -> seq<string>)

  /** The fence that opens and closes a code block. */
  const Fence: string := "```"

  /** What every match of the fenced-block expression needs: a text without a fence has no block. */
  ghost predicate FencedNeedsFence(env: Env) {
    forall raw :: !Contains(raw, Fence) ==> env.fenced(raw) == []
  }

  /** `tryParse`: an object whose `status` is truthy, or nothing. */
  function TryParse(env: Env, s: string): (r: Option<Obj>)
    ensures r.Some? ==> env.parse(s) == Some(JObj(r.value)) && "status" in r.value && Truthy(r.value["status"])
    ensures r.None? ==> match env.parse(s)
      case Some(JObj(m)) => "status" !in m || !Truthy(m["status"])
      case _ => true
  {
    match env.parse(s)
    case Some(JObj(m)) => if "status" in m && Truthy(m["status"]) then Some(m) else None
    case _ => None
  }

  // ---------------------------------------------------------------------------------------------
  // The brace scanner

  function Delta(c: char): int {
    if c == '{' then 1 else if c == '}' then -1 else 0
  }

  /** Opening minus closing braces. */
  function Depth(s: string): int
    decreases |s|
  {
    if |s| == 0 then 0 else Depth(s[..|s| - 1]) + Delta(s[|s| - 1])
  }

  /** `raw[lo..hi]` opens with `{`, closes with `}`, and its brace depth is back at zero only at the end. */
  predicate BalancedAt(raw: string, lo: int, hi: int) {
    0 <= lo < hi <= |raw| && raw[lo] == '{' && raw[hi - 1] == '}'
    && Depth(raw[lo..hi]) == 0
    && forall k :: lo < k < hi ==> Depth(raw[lo..k]) > 0
  }

  datatype Span = Span(lo: nat, hi: nat)

  /** The scanner's state before position `i`: a group open since `start`, or none. */
  predicate ScanState(raw: string, i: nat, depth: int, start: int) {
    i <= |raw|
    && (start < 0 ==> depth <= 0)
    && (start >= 0 ==>
          start < i && raw[start] == '{' && depth >= 1 && depth == Depth(raw[start..i])
          && forall k :: start < k <= i ==> Depth(raw[start..k]) > 0)
  }

  lemma DepthSnoc(raw: string, lo: nat, hi: nat)
    requires lo <= hi < |raw|
    ensures Depth(raw[lo..hi + 1]) == Depth(raw[lo..hi]) + Delta(raw[hi])
  {
    assert raw[lo..hi + 1][..hi - lo] == raw[lo..hi];
  }

  lemma DepthOne(raw: string, i: nat)
    requires i < |raw|
    ensures Depth(raw[i..i + 1]) == Delta(raw[i])
  {
    DepthSnoc(raw, i, i);
  }

  /** One step of the scanner keeps its state consistent, and a group it closes is balanced. */
  lemma ScanStep(raw: string, i: nat, depth: int, start: int)
    requires ScanState(raw, i, depth, start) && i < |raw|
    ensures raw[i] == '{' ==> ScanState(raw, i + 1, depth + 1, if depth == 0 then i else start)
    ensures raw[i] == '}' && depth - 1 == 0 && start >= 0 ==>
      BalancedAt(raw, start, i + 1) && ScanState(raw, i + 1, 0, -1)
    ensures raw[i] == '}' && !(depth - 1 == 0 && start >= 0) ==> ScanState(raw, i + 1, depth - 1, start)
    ensures raw[i] != '{' && raw[i] != '}' ==> ScanState(raw, i + 1, depth, start)
  {
    if start >= 0 {
      DepthSnoc(raw, start, i);
    }
    if raw[i] == '{' && depth == 0 {
      DepthOne(raw, i);
    }
  }

  /**
   * The loop over `raw` from position `i`: a `{` at depth zero opens a group, every brace moves the
   * depth, and a `}` that brings it back to zero closes the open group, if any.
   */
  function Scan(raw: string, i: nat, depth: int, start: int): (spans: seq<Span>)
    requires ScanState(raw, i, depth, start)
    ensures forall j :: 0 <= j < |spans| ==> BalancedAt(raw, spans[j].lo, spans[j].hi)
    ensures forall j :: 0 <= j < |spans| ==> (start >= 0 && j == 0 ==> spans[j].lo == start)
    ensures forall j :: 0 <= j < |spans| ==> (start < 0 || j > 0 ==> spans[j].lo >= i)
    ensures forall j :: 0 <= j < |spans| - 1 ==> spans[j].hi <= spans[j + 1].lo
    decreases |raw| - i
  {
    if i == |raw| then []
    else
      ScanStep(raw, i, depth, start);
      if raw[i] == '{' then Scan(raw, i + 1, depth + 1, if depth == 0 then i else start)
      else if raw[i] == '}' then
        if depth - 1 == 0 && start >= 0 then [Span(start, i + 1)] + Scan(raw, i + 1, 0, -1)
        else Scan(raw, i + 1, depth - 1, start)
      else Scan(raw, i + 1, depth, start)
  }

  /** The substrings the brace scanner collects, in order. */
  function Candidates(raw: string): (cands: seq<string>)
    ensures forall j :: 0 <= j < |cands| ==>
      |cands[j]| >= 2 && cands[j][0] == '{' && cands[j][|cands[j]| - 1] == '}' && Depth(cands[j]) == 0
  {
    var spans := Scan(raw, 0, 0, -1);
    seq(|spans|, j requires 0 <= j < |spans| => raw[spans[j].lo..spans[j].hi])
  }

  /** Each candidate is a balanced group taken from the text, and the groups do not overlap. */
  lemma CandidatesAreGroups(raw: string)
    ensures var spans := Scan(raw, 0, 0, -1);
            && |Candidates(raw)| == |spans|
            && (forall j :: 0 <= j < |spans| ==>
                  BalancedAt(raw, spans[j].lo, spans[j].hi) && Candidates(raw)[j] == raw[spans[j].lo..spans[j].hi])
            && (forall j :: 0 <= j < |spans| - 1 ==> spans[j].hi <= spans[j + 1].lo)
  {
  }

  /** Inside one balanced group the scanner runs to the group's end and collects exactly it. */
  lemma {:induction false} ScanInside(raw: string, i: nat)
    requires BalancedAt(raw, 0, |raw|)
    requires 1 <= i < |raw|
    ensures ScanState(raw, i, Depth(raw[0..i]), 0)
    ensures Scan(raw, i, Depth(raw[0..i]), 0) == [Span(0, |raw|)]
    decreases |raw| - i
  {
    DepthSnoc(raw, 0, i);
    if i + 1 < |raw| {
      ScanInside(raw, i + 1);
    } else {
      assert raw[0..i + 1] == raw;
    }
  }

  /** A reply that is one balanced group is its own and only candidate. */
  lemma {:induction false} WholeGroup(raw: string)
    requires BalancedAt(raw, 0, |raw|)
    ensures Candidates(raw) == [raw]
  {
    DepthOne(raw, 0);
    assert |raw| > 1;
    assert raw[0..1] == raw[..1];
    ScanInside(raw, 1);
    assert raw[0..|raw|] == raw;
  }

  /** The scanner finds no group in a text without braces. */
  lemma {:induction false} NoBraceNoScan(raw: string, i: nat)
    requires i <= |raw|
    requires forall k :: i <= k < |raw| ==> raw[k] != '{' && raw[k] != '}'
    ensures Scan(raw, i, 0, -1) == []
    decreases |raw| - i
  {
    if i < |raw| {
      NoBraceNoScan(raw, i + 1);
    }
  }

  // ---------------------------------------------------------------------------------------------
  // The cascade

  /** The first of `texts` that parses, each trimmed first. */
  function FirstParsed(env: Env, texts: seq<string>): (r: Option<Obj>)
    ensures r.None? <==> forall j :: 0 <= j < |texts| ==> TryParse(env, Trim(texts[j])).None?
    ensures r.Some? ==>
      exists j :: 0 <= j < |texts| && TryParse(env, Trim(texts[j])) == r
        && forall k :: 0 <= k < j ==> TryParse(env, Trim(texts[k])).None?
    decreases |texts|
  {
    if |texts| == 0 then None
    else match TryParse(env, Trim(texts[0]))
      case Some(m) => Some(m)
      case None =>
        var r := FirstParsed(env, texts[1..]);
        assert forall j :: 1 <= j < |texts| ==> texts[j] == texts[1..][j - 1];
        r
  }

  /** The last of `texts` that parses: candidates are tried from the back. */
  function LastParsed(env: Env, texts: seq<string>): (r: Option<Obj>)
    ensures r.None? <==> forall j :: 0 <= j < |texts| ==> TryParse(env, texts[j]).None?
    ensures r.Some? ==>
      exists j :: 0 <= j < |texts| && TryParse(env, texts[j]) == r
        && forall k :: j < k < |texts| ==> TryParse(env, texts[k]).None?
    decreases |texts|
  {
    if |texts| == 0 then None
    else match TryParse(env, texts[|texts| - 1])
      case Some(m) => Some(m)
      case None => LastParsed(env, texts[..|texts| - 1])
  }

  /** Which stage produced the result. */
  datatype Stage = NoText | Direct | Fenced | Braces | Keyword | Default

  datatype Extraction = Extraction(obj: Obj, stage: Stage)

  predicate HasBlockedWord(raw: string) {
    Contains(Lower(raw), "blocked") || Contains(Lower(raw), "阻塞")
  }

  predicate HasErrorWord(raw: string) {
    Contains(Lower(raw), "error") || Contains(Lower(raw), "failed") || Contains(Lower(raw), "失败")
  }

  const SummaryLimit: nat := 200

  /** A result the extractor makes up itself: a status, a summary and no files. */
  function Fallback(status: string, summary: string): (r: Obj)
    ensures r.Keys == {"status", "summary", "files"}
  {
    map["status" := JStr(status), "summary" := JStr(summary), "files" := JArr([])]
  }

  /** `{ files: [], ...obj }`: the parsed object, with an empty file list where it has none. */
  function WithFiles(m: Obj): (r: Obj)
    ensures r.Keys == m.Keys + {"files"}
    ensures forall k :: k in m ==> r[k] == m[k]
    ensures "files" !in m ==> r["files"] == JArr([])
  {
    map["files" := JArr([])] + m
  }

  /**
   * The test copy's `normalize`: after `WithFiles`, a `needReplan` key that is present becomes the
   * boolean of its truthiness; an absent one stays absent.
   */
  function NormalizeReplan(m: Obj): (r: Obj)
    ensures r.Keys == m.Keys + {"files"}
    ensures "needReplan" in m ==> r["needReplan"] == JBool(Truthy(m["needReplan"]))
    ensures forall k :: k in m && k != "needReplan" ==> r[k] == m[k]
    ensures "files" !in m ==> r["files"] == JArr([])
  {
    var r := WithFiles(m);
    if "needReplan" in m then r["needReplan" := JBool(Truthy(m["needReplan"]))] else r
  }

  /**
   * `extractResultJSON(raw)`; `raw` is `None` when it is not a string. `replan` selects the test
   * copy, which runs every parsed object through `NormalizeReplan`.
   */
  function ExtractResult(env: Env, raw: Option<string>, replan: bool): (r: Extraction)
    ensures "status" in r.obj && Truthy(r.obj["status"]) && "files" in r.obj
    ensures r.stage == NoText <==> raw.None? || raw.value == ""
    ensures r.stage == NoText ==> r.obj == Fallback("done", "")
    ensures r.stage in {Keyword, Default} ==>
      && raw.Some? && "summary" in r.obj
      && r.obj["summary"] == JStr(Take(raw.value, SummaryLimit))
      && r.obj["files"] == JArr([])
      && (r.obj["status"] == JStr("blocked") <==> HasBlockedWord(raw.value))
      && (r.obj["status"] == JStr("error") <==> !HasBlockedWord(raw.value) && HasErrorWord(raw.value))
      && (r.obj["status"] == JStr("done") <==> !HasBlockedWord(raw.value) && !HasErrorWord(raw.value))
  {
    var finish := (m: Obj) => if replan then NormalizeReplan(m) else WithFiles(m);
    if raw.None? || raw.value == "" then Extraction(Fallback("done", ""), NoText)
    else
      var text := raw.value;
      match TryParse(env, Trim(text))
      case Some(m) => Extraction(finish(m), Direct)
      case None =>
        match FirstParsed(env, env.fenced(text))
        case Some(m) => Extraction(finish(m), Fenced)
        case None =>
          match LastParsed(env, Candidates(text))
          case Some(m) => Extraction(finish(m), Braces)
          case None =>
            var summary := Take(text, SummaryLimit);
            if HasBlockedWord(text) then Extraction(Fallback("blocked", summary), Keyword)
            else if HasErrorWord(text) then Extraction(Fallback("error", summary), Keyword)
            else Extraction(Fallback("done", summary), Default)
  }

  /** An object the whole reply parses to wins over everything later in the cascade. */
  lemma DirectWins(env: Env, raw: string, m: Obj, replan: bool)
    requires raw != "" && TryParse(env, Trim(raw)) == Some(m)
    ensures ExtractResult(env, Some(raw), replan).stage == Direct
    ensures forall k :: k in m && k != "needReplan" ==> ExtractResult(env, Some(raw), replan).obj[k] == m[k]
  {
  }

  /**
   * When the whole reply does not parse, the first fenced block that parses is taken, with its file
   * list, before any brace group is looked at.
   */
  lemma FencedWins(env: Env, raw: string, m: Obj, replan: bool)
    requires raw != "" && TryParse(env, Trim(raw)).None? && FirstParsed(env, env.fenced(raw)) == Some(m)
    ensures var r := ExtractResult(env, Some(raw), replan);
            r.stage == Fenced && r.obj == (if replan then NormalizeReplan(m) else WithFiles(m))
  {
  }

  /**
   * The same from the block's side: when block `i` parses to `m` and none before it parses, the
   * result is `m`, whatever the blocks after `i` hold.
   */
  lemma FirstBlockIsResult(env: Env, raw: string, i: nat, m: Obj, replan: bool)
    requires raw != "" && TryParse(env, Trim(raw)).None?
    requires i < |env.fenced(raw)| && TryParse(env, Trim(env.fenced(raw)[i])) == Some(m)
    requires forall k :: 0 <= k < i ==> TryParse(env, Trim(env.fenced(raw)[k])).None?
    ensures var r := ExtractResult(env, Some(raw), replan);
            r.stage == Fenced && r.obj == (if replan then NormalizeReplan(m) else WithFiles(m))
  {
    var blocks := env.fenced(raw);
    var found := FirstParsed(env, blocks);
    assert found.Some?;
    var j :| 0 <= j < |blocks| && TryParse(env, Trim(blocks[j])) == found
               && forall k :: 0 <= k < j ==> TryParse(env, Trim(blocks[k])).None?;
    assert j == i;
    FencedWins(env, raw, m, replan);
  }

  /**
   * When two brace groups both parse to an object with a status, the later one is taken: the
   * result is the object of a candidate that parses, and no later candidate parses.
   */
  lemma LaterCandidateWins(env: Env, raw: string, replan: bool)
    requires raw != "" && TryParse(env, Trim(raw)).None?
    requires FirstParsed(env, env.fenced(raw)).None?
    requires LastParsed(env, Candidates(raw)).Some?
    ensures var r := ExtractResult(env, Some(raw), replan);
            var cands := Candidates(raw);
            && r.stage == Braces
            && exists j :: 0 <= j < |cands| && TryParse(env, cands[j]).Some?
                 && r.obj == (if replan then NormalizeReplan(TryParse(env, cands[j]).value)
                              else WithFiles(TryParse(env, cands[j]).value))
                 && forall k :: j < k < |cands| ==> TryParse(env, cands[k]).None?
  {
  }

  /**
   * The same from the candidate's side: when candidate `j` parses to `m` and none after it parses,
   * the result is `m` with its file list, whatever the candidates before `j` hold.
   */
  lemma LastCandidateIsResult(env: Env, raw: string, j: nat, m: Obj, replan: bool)
    requires raw != "" && TryParse(env, Trim(raw)).None?
    requires FirstParsed(env, env.fenced(raw)).None?
    requires j < |Candidates(raw)| && TryParse(env, Candidates(raw)[j]) == Some(m)
    requires forall k :: j < k < |Candidates(raw)| ==> TryParse(env, Candidates(raw)[k]).None?
    ensures var r := ExtractResult(env, Some(raw), replan);
            r.stage == Braces && r.obj == (if replan then NormalizeReplan(m) else WithFiles(m))
  {
    var cands := Candidates(raw);
    var found := LastParsed(env, cands);
    assert found.Some?;
    var i :| 0 <= i < |cands| && TryParse(env, cands[i]) == found
               && forall k :: i < k < |cands| ==> TryParse(env, cands[k]).None?;
    assert i == j;
  }

  /**
   * In the test copy a parsed `needReplan` survives as a strict boolean, and a reply without the key
   * gets none; the file list defaults to empty.
   */
  lemma ReplanFlagKept(env: Env, raw: string, m: Obj)
    requires raw != "" && TryParse(env, Trim(raw)) == Some(m)
    ensures var r := ExtractResult(env, Some(raw), true).obj;
            && ("needReplan" in r <==> "needReplan" in m)
            && ("needReplan" in m ==> r["needReplan"] == JBool(Truthy(m["needReplan"])))
            && ("files" !in m ==> r["files"] == JArr([]))
  {
  }

  // ---------------------------------------------------------------------------------------------
  // parseResult's normalization

  /** The result the dispatcher acts on. */
  datatype Outcome = Outcome(status: Json, summary: Json, files: seq<Json>)

  /** `obj[key]`, with `undefined` read as null (both are falsy). */
  function Get(m: Obj, key: string): Json {
    if key in m then m[key] else JNull
  }

  /** `a || b`. */
  function Or(a: Json, b: Json): (r: Json)
    ensures Truthy(a) ==> r == a
    ensures !Truthy(a) ==> r == b
  {
    if Truthy(a) then a else b
  }

  /**
   * `summary.slice(0, 200)`: a string or an array keeps its first 200 elements; any other value
   * has no `slice` method and the call throws, which is `None`.
   */
  function SliceSummary(v: Json): (r: Option<Json>)
    ensures v.JStr? ==> r == Some(JStr(Take(v.s, SummaryLimit)))
    ensures v.JArr? ==> r.Some? && r.value.JArr? && |r.value.items| <= SummaryLimit && r.value.items <= v.items
    ensures v.JArr? && |v.items| <= SummaryLimit ==> r == Some(v)
    ensures v.JArr? && |v.items| > SummaryLimit ==> |r.value.items| == SummaryLimit
    ensures !v.JStr? && !v.JArr? ==> r.None?
  {
    match v
    case JStr(s) => Some(JStr(Take(s, SummaryLimit)))
    case JArr(xs) => Some(JArr(if |xs| <= SummaryLimit then xs else xs[..SummaryLimit]))
    case _ => None
  }

  /**
   * The normalization in `parseResult`: the status, `done` when falsy; the first truthy of
   * `summary`, `message`, `reason`, else the empty string, cut to 200; the file list when it is an
   * array, else empty. `None` when cutting the summary throws.
   */
  function Normalize(m: Obj): (r: Option<Outcome>)
    ensures r.Some? ==> Truthy(r.value.status)
    ensures r.Some? ==> (Truthy(Get(m, "status")) ==> r.value.status == m["status"])
    ensures r.Some? ==> (Get(m, "files").JArr? ==> r.value.files == m["files"].items)
    ensures r.Some? ==> (!Get(m, "files").JArr? ==> r.value.files == [])
    ensures r.Some? && !Truthy(Get(m, "status")) ==> r.value.status == JStr("done")
    ensures r.Some? && r.value.summary.JStr? ==> |r.value.summary.s| <= SummaryLimit
    ensures r.Some? && Truthy(Get(m, "summary")) ==> Some(r.value.summary) == SliceSummary(m["summary"])
    ensures r.Some? && !Truthy(Get(m, "summary")) && Truthy(Get(m, "message")) ==>
      Some(r.value.summary) == SliceSummary(m["message"])
    ensures r.Some? && !Truthy(Get(m, "summary")) && !Truthy(Get(m, "message")) && Truthy(Get(m, "reason")) ==>
      Some(r.value.summary) == SliceSummary(m["reason"])
    ensures !Truthy(Get(m, "summary")) && !Truthy(Get(m, "message")) && !Truthy(Get(m, "reason")) ==>
      r.Some? && r.value.summary == JStr("")
    ensures r.None? <==>
      var p := Or(Get(m, "summary"), Or(Get(m, "message"), Or(Get(m, "reason"), JStr(""))));
                         !p.JStr? && !p.JArr?
  {
    var picked := Or(Get(m, "summary"), Or(Get(m, "message"), Or(Get(m, "reason"), JStr(""))));
    match SliceSummary(picked)
    case None => None
    case Some(summary) =>
      var files := match Get(m, "files") case JArr(xs) => xs case _ => [];
      Some(Outcome(Or(Get(m, "status"), JStr("done")), summary, files))
  }

  /** `parseResult(raw)` without the table writes. */
  function ParseResult(env: Env, raw: Option<string>): Option<Outcome> {
    Normalize(ExtractResult(env, raw, false).obj)
  }

  /** A reply the extractor had to fall back on always normalizes, to its first 200 characters. */
  lemma FallbackNormalizes(env: Env, raw: Option<string>)
    requires ExtractResult(env, raw, false).stage in {NoText, Keyword, Default}
    ensures var r := ParseResult(env, raw);
            && r.Some?
            && r.value.status == ExtractResult(env, raw, false).obj["status"]
            && r.value.files == []
            && r.value.summary == JStr(if raw.Some? then Take(raw.value, SummaryLimit) else "")
  {
    var m := ExtractResult(env, raw, false).obj;
    if raw.Some? && Take(raw.value, SummaryLimit) == "" {
      assert Get(m, "summary") == JStr("");
    }
  }

  /** Examples: the empty reply, and a reply that names a failure in passing. */
  lemma EmptyReplyIsDone(env: Env, replan: bool)
    ensures ExtractResult(env, Some(""), replan).obj["status"] == JStr("done")
  {
  }

  /** A reply that parses nowhere and names a failure, but no blockage, is an error. */
  lemma KeywordError(env: Env, raw: string, replan: bool)
    requires raw != "" && TryParse(env, Trim(raw)).None? && env.fenced(raw) == []
    requires forall k :: 0 <= k < |raw| ==> raw[k] != '{' && raw[k] != '}'
    requires !HasBlockedWord(raw) && Contains(Lower(raw), "failed")
    ensures ExtractResult(env, Some(raw), replan).obj["status"] == JStr("error")
  {
    NoBraceNoScan(raw, 0);
  }

  const FailedReply: string := "这个任务 failed 了"

  lemma FailedReplyShape()
    ensures Trimmed(FailedReply) && Lower(FailedReply) == FailedReply
    ensures forall k :: 0 <= k < |FailedReply| ==> FailedReply[k] != '{' && FailedReply[k] != '}'
  {
  }

  lemma FailedReplyWords()
    ensures Contains(FailedReply, "failed")
    ensures !Contains(FailedReply, "blocked") && !Contains(FailedReply, "阻塞")
  {
    assert FailedReply[5..11] == "failed";
    ContainsAt(FailedReply, "failed", 5);
    NotContainsFirst(FailedReply, "blocked");
    NotContainsFirst(FailedReply, "阻塞");
  }

  /** `这个任务 failed 了` is read as an error. */
  lemma FailedInPassing(env: Env, replan: bool)
    requires TryParse(env, FailedReply).None?
    requires FencedNeedsFence(env)
    ensures ExtractResult(env, Some(FailedReply), replan).obj["status"] == JStr("error")
  {
    NotContainsFirst(FailedReply, Fence);
    FailedReplyShape();
    FailedReplyWords();
    TrimOfTrimmed(FailedReply);
    KeywordError(env, FailedReply, replan);
  }
}

=== FILE: fields.dfy ===
/**
 * Table records and `fv`, the helper both dispatchers use to read any cell of a record as text.
 */
module Fields {
  import Numbers
  import opened Maybe

  /**
   * One element of a list-valued cell: an object (its `text` property, empty when missing or
   * empty), a string, a number or a boolean.
   */
  datatype Item = TextObject(text: string) | Str(s: string) | Num(n: int) | BoolItem(b: bool)

  /**
   * A cell value as the table returns it; `NullCell` is an explicit null and `ObjectCell` any plain
   * object that is not a list.
   */
  datatype Cell =
    | NullCell | TextCell(s: string) | NumCell(n: int) | BoolCell(b: bool) | ListCell(items: seq<Item>)
    | ObjectCell

  type Fields = map<string, Cell>

  /** A row of the task table or of the log table. */
  datatype Record = Record(id: string, fields: Fields)

  function ItemText(i: Item): string {
    match i
    case TextObject(t) => t
    case Str(s) => s
    case Num(n) => Numbers.IntToString(n)
    case BoolItem(b) => if b then "true" else "false"
  }

  /** The items' texts concatenated in order (`map(...).join('')`). */
  function ItemsText(items: seq<Item>): string
    decreases |items|
  {
    if |items| == 0 then "" else ItemText(items[0]) + ItemsText(items[1..])
  }

  /**
   * `fv(fields, key)`: a missing or null cell reads as the empty string, a list as its items'
   * texts run together, a boolean as a tick or an empty box, a number in decimal.
   */
  function Fv(fields: Fields, key: string): (r: string)
    ensures key !in fields || fields[key] == NullCell ==> r == ""
    ensures key in fields && fields[key].TextCell? ==> r == fields[key].s
    ensures key in fields && fields[key].NumCell? ==> Numbers.ParseInt(r) == Some(fields[key].n)
    ensures key in fields && fields[key].ObjectCell? ==> r == ObjectText
  {
    if key !in fields then ""
    else match fields[key]
      case NullCell => ""
      case TextCell(s) => s
      case NumCell(n) => Numbers.ParseIntOfString(n); Numbers.IntToString(n)
      case BoolCell(b) => if b then "\U{2705}" else "\U{2610}"
      case ListCell(items) => ItemsText(items)
      case ObjectCell => ObjectText
  }

  /** What `String` makes of a plain object. */
  const ObjectText: string := "[object Object]"

  /** Two records that hold the same cell under `key`, or both none, read the same there. */
  lemma FvAgrees(f: Fields, g: Fields, key: string)
    requires (key in f <==> key in g) && (key in f ==> f[key] == g[key])
    ensures Fv(f, key) == Fv(g, key)
  {
  }

  /** Reading a list cell distributes over splitting the list. */
  lemma {:induction false} ItemsTextAppend(xs: seq<Item>, ys: seq<Item>)
    ensures ItemsText(xs + ys) == ItemsText(xs) + ItemsText(ys)
    decreases |xs|
  {
    if |xs| > 0 {
      assert (xs + ys)[1..] == xs[1..] + ys;
      ItemsTextAppend(xs[1..], ys);
    } else {
      assert xs + ys == ys;
    }
  }
}

=== FILE: maybe.dfy ===
/** Absent values. JavaScript's `null`/`undefined`, and NaN where a number is expected, become `None`. */
module Maybe {

  datatype Option<+T> = None | Some(value: T) {

    /** The value, or `default` when absent (JavaScript's `x ?? default`). */
    function GetOr(default: T): T {
      match this
      case Some(v) => v
      case None => default
    }
  }
}

=== FILE: numbers.dfy ===
/**
 * Integers as the dispatcher writes and reads them: `String(n)` for an integer-valued number and
 * `parseInt(text, 10)`, whose NaN is `None`.
 */
module Numbers {
  import opened Maybe
  import Text

  predicate IsDigit(c: char) {
    '0' <= c <= '9'
  }

  function DigitChar(d: nat): (c: char)
    requires d < 10
    ensures IsDigit(c) && c as int - '0' as int == d
  {
    ('0' as int + d) as char
  }

  function NatToString(n: nat): (r: string)
    ensures |r| > 0 && forall i :: 0 <= i < |r| ==> IsDigit(r[i])
    decreases n
  {
    if n < 10 then [DigitChar(n)] else NatToString(n / 10) + [DigitChar(n % 10)]
  }

  /** `String(n)` for an integer `n`. */
  function IntToString(n: int): (r: string)
    ensures |r| > 0
  {
    if n < 0 then "-" + NatToString(-n) else NatToString(n)
  }

  /** Number of leading decimal digits of `s`. */
  function DigitRun(s: string): (n: nat)
    ensures n <= |s|
    ensures forall i :: 0 <= i < n ==> IsDigit(s[i])
    ensures n < |s| ==> !IsDigit(s[n])
    decreases |s|
  {
    if |s| > 0 && IsDigit(s[0]) then 1 + DigitRun(s[1..]) else 0
  }

  function DigitsValue(ds: string): nat
    requires forall i :: 0 <= i < |ds| ==> IsDigit(ds[i])
    decreases |ds|
  {
    if |ds| == 0 then 0
    else
      var last := ds[|ds| - 1];
      assert IsDigit(last);
      DigitsValue(ds[..|ds| - 1]) * 10 + (last as int - '0' as int)
  }

  /**
   * `parseInt(s, 10)`: leading whitespace is skipped, one optional sign is read, then the longest
   * run of decimal digits; with no digit the answer is NaN.
   */
  function ParseInt(s: string): Option<int> {
    var t := Text.TrimStart(s);
    if |t| > 0 && t[0] == '-' then Negate(ParseDigits(t[1..]))
    else if |t| > 0 && t[0] == '+' then ParseDigits(t[1..])
    else ParseDigits(t)
  }

  /** The value of the leading digit run of `body`, or NaN when there is none. */
  function ParseDigits(body: string): Option<int> {
    var n := DigitRun(body);
    if n == 0 then None else Some(DigitsValue(body[..n]))
  }

  function Negate(v: Option<int>): Option<int> {
    match v
    case None => None
    case Some(x) => Some(0 - x)
  }

  lemma {:induction false} DigitsOfNat(n: nat)
    ensures DigitsValue(NatToString(n)) == n
    decreases n
  {
    if n >= 10 {
      var s := NatToString(n);
      DigitsOfNat(n / 10);
      assert s == NatToString(n / 10) + [DigitChar(n % 10)];
      assert s[..|s| - 1] == NatToString(n / 10);
      assert s[|s| - 1] as int - '0' as int == n % 10;
    }
  }

  lemma DigitRunAll(s: string)
    requires forall i :: 0 <= i < |s| ==> IsDigit(s[i])
    ensures DigitRun(s) == |s|
    decreases |s|
  {
    if |s| > 0 {
      DigitRunAll(s[1..]);
    }
  }

  /** A digit run followed by a non-digit ends where the digits do. */
  lemma {:induction false} DigitRunThenStop(ds: string, rest: string)
    requires forall i :: 0 <= i < |ds| ==> IsDigit(ds[i])
    requires rest == [] || !IsDigit(rest[0])
    ensures DigitRun(ds + rest) == |ds|
    decreases |ds|
  {
    if |ds| > 0 {
      assert (ds + rest)[1..] == ds[1..] + rest;
      DigitRunThenStop(ds[1..], rest);
    } else {
      assert ds + rest == rest;
    }
  }

  /** Digits followed by a non-digit read as their value. */
  lemma DigitsThen(ds: string, rest: string)
    requires |ds| > 0 && forall i :: 0 <= i < |ds| ==> IsDigit(ds[i])
    requires rest == [] || !IsDigit(rest[0])
    ensures ParseDigits(ds + rest) == Some(DigitsValue(ds))
  {
    DigitRunThenStop(ds, rest);
    assert (ds + rest)[..|ds|] == ds;
  }

  /** Unsigned digits followed by a non-digit: `parseInt` reads their value. */
  lemma ParseDigitsThen(ds: string, rest: string)
    requires |ds| > 0 && forall i :: 0 <= i < |ds| ==> IsDigit(ds[i])
    requires rest == [] || !IsDigit(rest[0])
    ensures ParseInt(ds + rest) == Some(DigitsValue(ds))
  {
    var s := ds + rest;
    assert s[0] == ds[0] && IsDigit(s[0]);
    Text.TrimStartKeeps(s);
    DigitsThen(ds, rest);
  }

  /** After a leading minus sign, `parseInt` negates what the rest reads as. */
  lemma ParseMinus(body: string)
    ensures ParseInt(['-'] + body) == Negate(ParseDigits(body))
  {
    var s := ['-'] + body;
    assert s[0] == '-' && s[1..] == body by { Text.ConcatFront(['-'], body); assert [] + body == body; }
    Text.TrimStartKeeps(s);
  }

  /** A minus sign, digits, then a non-digit: `parseInt` reads the negated value. */
  lemma ParseMinusDigitsThen(ds: string, rest: string)
    requires |ds| > 0 && forall i :: 0 <= i < |ds| ==> IsDigit(ds[i])
    requires rest == [] || !IsDigit(rest[0])
    ensures ParseInt(['-'] + (ds + rest)) == Negate(Some(DigitsValue(ds)))
  {
    ParseMinus(ds + rest);
    DigitsThen(ds, rest);
  }

  /**
   * `parseInt` stops at the first character after the digits: `String(n)` followed by any text that
   * does not start with a digit still reads back as `n`.
   */
  lemma {:induction false} ParseIntOfPrefix(n: int, rest: string)
    requires rest == [] || !IsDigit(rest[0])
    ensures ParseInt(IntToString(n) + rest) == Some(n)
  {
    if n < 0 {
      var ds := NatToString(-n);
      assert IntToString(n) + rest == ['-'] + (ds + rest) by {}
      assert ParseInt(['-'] + (ds + rest)) == Negate(Some(DigitsValue(ds))) by { ParseMinusDigitsThen(ds, rest); }
      assert DigitsValue(ds) == -n by { DigitsOfNat(-n); }
      assert Negate(Some(-n)) == Some(n);
    } else {
      var ds := NatToString(n);
      assert IntToString(n) == ds;
      assert ParseInt(ds + rest) == Some(DigitsValue(ds)) by { ParseDigitsThen(ds, rest); }
      assert DigitsValue(ds) == n by { DigitsOfNat(n); }
    }
  }

  /** A text that starts with neither whitespace, a sign nor a digit reads as NaN. */
  lemma NoLeadingDigit(s: string)
    requires |s| > 0 && !IsDigit(s[0]) && !Text.IsWhite(s[0]) && s[0] != '-' && s[0] != '+'
    ensures ParseInt(s).None?
  {
    var t := Text.TrimStart(s);
    assert t == s by { Text.TrimStartKeeps(s); }
    assert !(|t| > 0 && t[0] == '-') && !(|t| > 0 && t[0] == '+');
    assert ParseInt(s) == ParseDigits(t);
    assert DigitRun(s) == 0;
  }

  /** What `String(n)` writes, `parseInt` reads back unchanged. */
  lemma ParseIntOfString(n: int)
    ensures ParseInt(IntToString(n)) == Some(n)
  {
    ParseIntOfPrefix(n, []);
    assert IntToString(n) + [] == IntToString(n);
  }
}

=== FILE: plan.dfy ===
/**
 * The plan document: one text field that declares a task's subtasks on a line
 * `子任务：A → B → C` and records completion by a ✅ written in front of a name, on that line or
 * on later lines. This module reads it: the declared names (`parseSubtasks`, in the dispatchers'
 * and in the test's extended form), the completed names (`parseCompletedSubtasks`), the resume
 * point (`findFirstIncompleteSubtask`) and the resume list (declared minus completed); and it
 * writes it: a declaration line from marked entries, and the re-plan text.
 */
module PlanCodec {
  import opened Maybe
  import opened Text

  const DoneMark: char := '\U{2705}'      // ✅
  const CurrentMark: char := '\U{1F4CD}'  // 📍
  const PendingMark: char := '\U{25CB}'   // ○
  const Arrow: char := '\U{2192}'         // →
  const FullColon: char := '\U{FF1A}'     // ：
  const DeclMarker: string := "子任务"
  /** What the dispatcher writes between two names: ` → `. */
  const Delimiter: string := [' ', Arrow, ' ']

  /** Glyphs stripped from the front of a declared name: ✅ in both dispatchers ... */
  const DispatcherMarks: set<char> := {DoneMark}
  /** ... and ✅, 📍 or ○ in the extended parser of the replan tests. */
  const ExtendedMarks: set<char> := {DoneMark, CurrentMark, PendingMark}

  // ---------------------------------------------------------------------------------------------
  // Declared subtasks

  /** The plan's lines, after a stored literal `\n` has been turned into a line break. */
  function Lines(plan: string): seq<string> {
    Split(UnescapeNewlines(plan), '\n')
  }

  /** A trimmed line that declares the subtasks: it starts with 子任务 and has a colon of either width. */
  predicate IsDeclLine(t: string) {
    DeclMarker <= t && (FullColon in t || ':' in t)
  }

  predicate NoDeclLine(plan: string) {
    forall i :: 0 <= i < |Lines(plan)| ==> !IsDeclLine(Trim(Lines(plan)[i]))
  }

  /**
   * `split(sep, 2)[1]`: the text between the first and the second separator, the full-width colon
   * taking precedence over the ASCII one.
   */
  function DeclBody(t: string): string
    requires FullColon in t || ':' in t
  {
    if FullColon in t then Split(t, FullColon)[1] else Split(t, ':')[1]
  }

  /** The body of `子任务：body` is `body`, when it holds no second full-width colon. */
  lemma DeclBodyAfterMarker(body: string)
    requires FullColon !in body
    ensures FullColon in DeclMarker + [FullColon] + body
    ensures DeclBody(DeclMarker + [FullColon] + body) == body
  {
    var t := DeclMarker + [FullColon] + body;
    assert t[|DeclMarker|] == FullColon;
    SplitAtFirst(DeclMarker, FullColon, body);
    SplitNoSeparator(body, FullColon);
  }

  function StripMark(s: string, marks: set<char>): string {
    if |s| > 0 && s[0] in marks then s[1..] else s
  }

  /** `n.trim().replace(/^✅/, '').trim()` (or `^(✅|📍|○)` in the extended form). */
  function CleanToken(tok: string, marks: set<char>): (r: string)
    ensures Trimmed(r)
  {
    Trim(StripMark(Trim(tok), marks))
  }

  /** Clean every token and drop the empty ones (`.filter(Boolean)`). */
  function CleanTokens(toks: seq<string>, marks: set<char>): (r: seq<string>)
    ensures forall i :: 0 <= i < |r| ==> r[i] != "" && Trimmed(r[i])
    decreases |toks|
  {
    if |toks| == 0 then []
    else
      var c := CleanToken(toks[0], marks);
      var rest := CleanTokens(toks[1..], marks);
      if c == "" then rest else [c] + rest
  }

  /** One step of `CleanTokens`, for reading a concrete declaration token by token. */
  lemma CleanTokensCons(t: string, rest: seq<string>, marks: set<char>)
    ensures CleanTokens([t] + rest, marks) ==
            (if CleanToken(t, marks) == "" then [] else [CleanToken(t, marks)]) + CleanTokens(rest, marks)
  {
    assert ([t] + rest)[1..] == rest;
  }

  function Tokens(t: string, marks: set<char>): (r: seq<string>)
    requires FullColon in t || ':' in t
    ensures forall i :: 0 <= i < |r| ==> r[i] != "" && Trimmed(r[i])
  {
    CleanTokens(Split(DeclBody(t), Arrow), marks)
  }

  function DeclaredFromLines(lines: seq<string>, marks: set<char>): (r: seq<string>)
    ensures forall i :: 0 <= i < |r| ==> r[i] != "" && Trimmed(r[i])
    ensures (forall i :: 0 <= i < |lines| ==> !IsDeclLine(Trim(lines[i]))) ==> r == []
    decreases |lines|
  {
    if |lines| == 0 then []
    else
      var t := Trim(lines[0]);
      if IsDeclLine(t) then Tokens(t, marks)
      else
        var r := DeclaredFromLines(lines[1..], marks);
        assert (forall i :: 0 <= i < |lines| ==> !IsDeclLine(Trim(lines[i]))) ==>
                 forall i :: 0 <= i < |lines[1..]| ==> !IsDeclLine(Trim(lines[1..][i]));
        r
  }

  /** Only the first declaration line counts: the lines before it are skipped, the lines after it ignored. */
  lemma {:induction false} DeclaredFirstLine(lines: seq<string>, k: nat, marks: set<char>)
    requires k < |lines| && IsDeclLine(Trim(lines[k]))
    requires forall j :: 0 <= j < k ==> !IsDeclLine(Trim(lines[j]))
    ensures DeclaredFromLines(lines, marks) == Tokens(Trim(lines[k]), marks)
    decreases k
  {
    if k > 0 {
      assert !IsDeclLine(Trim(lines[0]));
      assert lines[1..][k - 1] == lines[k];
      DeclaredFirstLine(lines[1..], k - 1, marks);
    }
  }

  /**
   * `parseSubtasks(planText)`: the cleaned, non-empty tokens of the first declaration line, or
   * nothing when the plan is empty or declares no subtasks.
   */
  function ParseDeclared(plan: string, marks: set<char>): (r: seq<string>)
    ensures forall i :: 0 <= i < |r| ==> r[i] != "" && Trimmed(r[i])
    ensures plan == "" || NoDeclLine(plan) ==> r == []
  {
    if plan == "" then [] else DeclaredFromLines(Lines(plan), marks)
  }

  /** Cleaning a token only removes characters. */
  lemma CleanTokenAvoids(tok: string, marks: set<char>, x: char)
    requires x !in tok
    ensures x !in CleanToken(tok, marks)
  {
    if x in CleanToken(tok, marks) {
      TrimChars(StripMark(Trim(tok), marks), x);
      assert x in Trim(tok);
      TrimChars(tok, x);
    }
  }

  lemma {:induction false} CleanTokensAvoid(toks: seq<string>, marks: set<char>, x: char)
    requires forall j :: 0 <= j < |toks| ==> x !in toks[j]
    ensures forall i :: 0 <= i < |CleanTokens(toks, marks)| ==> x !in CleanTokens(toks, marks)[i]
    decreases |toks|
  {
    if |toks| > 0 {
      CleanTokenAvoids(toks[0], marks, x);
      CleanTokensAvoid(toks[1..], marks, x);
    }
  }

  lemma TokensAvoid(t: string, marks: set<char>, x: char)
    requires FullColon in t || ':' in t
    requires x !in t
    ensures forall i :: 0 <= i < |Tokens(t, marks)| ==> x !in Tokens(t, marks)[i]
  {
    var body := DeclBody(t);
    assert x !in body by {
      if x in body {
        SplitPieceChars(t, if FullColon in t then FullColon else ':', 1, x);
      }
    }
    var toks := Split(body, Arrow);
    forall j | 0 <= j < |toks|
      ensures x !in toks[j]
    {
      if x in toks[j] {
        SplitPieceChars(body, Arrow, j, x);
      }
    }
    CleanTokensAvoid(toks, marks, x);
  }

  lemma {:induction false} DeclaredAvoid(lines: seq<string>, marks: set<char>, x: char)
    requires forall j :: 0 <= j < |lines| ==> x !in lines[j]
    ensures forall i :: 0 <= i < |DeclaredFromLines(lines, marks)| ==> x !in DeclaredFromLines(lines, marks)[i]
    decreases |lines|
  {
    if |lines| > 0 {
      var t := Trim(lines[0]);
      if IsDeclLine(t) {
        if x in t {
          TrimChars(lines[0], x);
        }
        TokensAvoid(t, marks, x);
      } else {
        DeclaredAvoid(lines[1..], marks, x);
      }
    }
  }

  /** A declared name never spans a line break. */
  lemma DeclaredOneLine(plan: string, marks: set<char>)
    ensures forall i :: 0 <= i < |ParseDeclared(plan, marks)| ==> '\n' !in ParseDeclared(plan, marks)[i]
  {
    if plan != "" {
      DeclaredAvoid(Lines(plan), marks, '\n');
    }
  }

  /** A plan that is one trimmed declaration line declares that line's tokens. */
  lemma SingleDeclLine(t: string, marks: set<char>)
    requires '\\' !in t && '\n' !in t && Trimmed(t) && IsDeclLine(t)
    ensures ParseDeclared(t, marks) == Tokens(t, marks)
  {
    UnescapeNoBackslash(t);
    SplitNoSeparator(t, '\n');
    TrimOfTrimmed(t);
    assert DeclaredFromLines([t], marks) == Tokens(t, marks);
  }

  /** The dispatchers' `parseSubtasks` (strips a leading ✅ only). */
  function ParseSubtasks(plan: string): seq<string> {
    ParseDeclared(plan, DispatcherMarks)
  }

  /** The replan tests' `parseSubtasks` (strips a leading ✅, 📍 or ○). */
  function ParseSubtasksExtended(plan: string): seq<string> {
    ParseDeclared(plan, ExtendedMarks)
  }

  // ---------------------------------------------------------------------------------------------
  // Completed subtasks

  /** The four characters the class `[^→✅○📍]` names. */
  const StopChars: set<char> := {Arrow, DoneMark, PendingMark, CurrentMark}

  /**
   * Whether `c`, written in UTF-16, has a code unit in common with `📍` (U+D83D U+DCCD). The class
   * carries no `u` flag, so it refuses those two units one by one: every character from U+1F400 to
   * U+1F7FF starts with U+D83D, and every astral character whose low ten bits are 0xCD ends with U+DCCD.
   */
  predicate SharesSurrogate(c: char) {
    var v := c as int;
    (0x1F400 <= v < 0x1F800) || (v >= 0x10000 && v % 0x400 == 0xCD)
  }

  /** Whether `[^→✅○📍]` refuses the character `c`. */
  predicate Stops(c: char) {
    c in StopChars || SharesSurrogate(c)
  }

  function RunLength(s: string): (n: nat)
    ensures n <= |s|
    decreases |s|
  {
    if |s| > 0 && !Stops(s[0]) then 1 + RunLength(s[1..]) else 0
  }

  /** The run is the longest prefix of characters the class accepts. */
  lemma {:induction false} RunLengthStops(s: string)
    ensures forall k :: 0 <= k < RunLength(s) ==> !Stops(s[k])
    ensures RunLength(s) < |s| ==> Stops(s[RunLength(s)])
    decreases |s|
  {
    if |s| > 0 && !Stops(s[0]) {
      RunLengthStops(s[1..]);
      assert forall k :: 1 <= k < RunLength(s) ==> s[k] == s[1..][k - 1];
    }
  }

  /**
   * The names the global match `/✅([^→✅○📍]+)/g` finds in `s`: each ✅ followed by at least one
   * ordinary character yields the longest such run, trimmed, when that is not empty.
   */
  function Completions(s: string): (r: seq<string>)
    ensures forall i :: 0 <= i < |r| ==> r[i] != "" && Trimmed(r[i])
    decreases |s|
  {
    if |s| == 0 then []
    else if s[0] == DoneMark && RunLength(s[1..]) > 0 then
      var t := s[1..];
      var name := Trim(t[..RunLength(t)]);
      (if name == "" then [] else [name]) + Completions(t[RunLength(t)..])
    else Completions(s[1..])
  }

  /** What one run contributes: its trimmed text, unless that is empty. */
  function Found(run: string): (r: seq<string>)
    ensures |r| <= 1
  {
    if Trim(run) == "" then [] else [Trim(run)]
  }

  /** A ✅ followed by a run reports the run and goes on after it. */
  lemma CompletionsMarked(s: string)
    requires |s| > 0 && s[0] == DoneMark && RunLength(s[1..]) > 0
    ensures Completions(s) == Found(s[1..][..RunLength(s[1..])]) + Completions(s[1..][RunLength(s[1..])..])
  {
  }

  /** Any other first character is passed over. */
  lemma CompletionsUnmarked(s: string)
    requires |s| > 0 && !(s[0] == DoneMark && RunLength(s[1..]) > 0)
    ensures Completions(s) == Completions(s[1..])
  {
  }

  /** Without a ✅ there is nothing to report. */
  lemma {:induction false} NoMarkNoCompletions(s: string)
    requires DoneMark !in s
    ensures Completions(s) == []
    decreases |s|
  {
    if |s| > 0 {
      assert s[0] in s;
      assert forall c :: c in s[1..] ==> c in s;
      NoMarkNoCompletions(s[1..]);
    }
  }

  lemma RunAvoidsStops(t: string, c: char)
    requires c in Trim(t[..RunLength(t)])
    ensures !Stops(c)
  {
    var run := t[..RunLength(t)];
    RunLengthStops(t);
    TrimChars(run, c);
    var k :| 0 <= k < |run| && run[k] == c;
  }

  /** A completed name never contains an arrow, one of the three marks, or a character sharing a unit with `📍`. */
  lemma {:induction false} CompletionsAvoidStops(s: string, i: nat, c: char)
    requires i < |Completions(s)| && c in Completions(s)[i]
    ensures !Stops(c)
    decreases |s|
  {
    var t := s[1..];
    if s[0] == DoneMark && RunLength(t) > 0 {
      var name := Trim(t[..RunLength(t)]);
      if name != "" && i == 0 {
        RunAvoidsStops(t, c);
      } else {
        CompletionsAvoidStops(t[RunLength(t)..], if name == "" then i else i - 1, c);
      }
    } else {
      CompletionsAvoidStops(t, i, c);
    }
  }

  function CompletedFromLines(lines: seq<string>): seq<string>
    decreases |lines|
  {
    if |lines| == 0 then []
    else
      var t := Trim(lines[0]);
      (if DoneMark in t then Completions(t) else []) + CompletedFromLines(lines[1..])
  }

  /**
   * `parseCompletedSubtasks(planText)`: on every line, every name written right after a ✅, in
   * order; nothing for an empty plan or one without a ✅.
   */
  function ParseCompletedSubtasks(plan: string): (r: seq<string>)
    ensures plan == "" || DoneMark !in plan ==> r == []
  {
    if plan == "" then []
    else
      NoMarkNoLines(plan);
      CompletedFromLines(Lines(plan))
  }

  /** A plan that is one trimmed line completes what that line marks. */
  lemma SingleLineCompleted(t: string)
    requires '\\' !in t && '\n' !in t && Trimmed(t)
    ensures ParseCompletedSubtasks(t) == Completions(t)
  {
    if t != "" {
      UnescapeNoBackslash(t);
      SplitNoSeparator(t, '\n');
      TrimOfTrimmed(t);
      if DoneMark !in t {
        NoMarkNoCompletions(t);
      }
      assert CompletedFromLines([t]) == Completions(t);
    }
  }

  lemma {:induction false} NoMarkNoCompletedLines(lines: seq<string>)
    requires forall i :: 0 <= i < |lines| ==> DoneMark !in lines[i]
    ensures CompletedFromLines(lines) == []
    decreases |lines|
  {
    if |lines| > 0 {
      if DoneMark in Trim(lines[0]) {
        TrimChars(lines[0], DoneMark);
      }
      NoMarkNoCompletedLines(lines[1..]);
    }
  }

  lemma NoMarkNoLines(plan: string)
    ensures DoneMark !in plan ==> CompletedFromLines(Lines(plan)) == []
  {
    if DoneMark !in plan {
      var u := UnescapeNewlines(plan);
      assert DoneMark !in u;
      forall i | 0 <= i < |Lines(plan)| ensures DoneMark !in Lines(plan)[i] {
        if DoneMark in Lines(plan)[i] {
          SplitPieceChars(u, '\n', i, DoneMark);
        }
      }
      NoMarkNoCompletedLines(Lines(plan));
    }
  }

  // ---------------------------------------------------------------------------------------------
  // Resume point and resume list

  function FirstIncompleteIndex(plan: string, names: seq<string>): (r: Option<nat>)
    ensures r.None? <==> forall j :: 0 <= j < |names| ==> Contains(plan, [DoneMark] + names[j])
    ensures r.Some? ==> r.value < |names| && !Contains(plan, [DoneMark] + names[r.value])
    ensures r.Some? ==> forall j :: 0 <= j < r.value ==> Contains(plan, [DoneMark] + names[j])
    decreases |names|
  {
    if |names| == 0 then None
    else if !Contains(plan, [DoneMark] + names[0]) then Some(0)
    else
      match FirstIncompleteIndex(plan, names[1..])
      case None => None
      case Some(i) => Some(i + 1)
  }

  /**
   * `findFirstIncompleteSubtask(planText)`: the first declared name whose ✅-prefixed form does
   * not occur anywhere in the plan; none when every declared name does, or none is declared.
   */
  function FindFirstIncompleteSubtask(plan: string): (r: Option<string>)
    ensures r.None? <==> forall s :: s in ParseSubtasks(plan) ==> Contains(plan, [DoneMark] + s)
    ensures r.Some? ==> r.value in ParseSubtasks(plan) && !Contains(plan, [DoneMark] + r.value)
    ensures r.Some? ==> exists i :: 0 <= i < |ParseSubtasks(plan)| && ParseSubtasks(plan)[i] == r.value &&
                          forall j :: 0 <= j < i ==> Contains(plan, [DoneMark] + ParseSubtasks(plan)[j])
  {
    var names := ParseSubtasks(plan);
    match FirstIncompleteIndex(plan, names)
    case None => None
    case Some(i) => Some(names[i])
  }

  /** `declared.filter(s => !completed.includes(s))`. */
  function Remaining(declared: seq<string>, completed: seq<string>): (r: seq<string>)
    ensures forall s :: s in r <==> s in declared && s !in completed
    ensures |r| <= |declared|
    decreases |declared|
  {
    if |declared| == 0 then []
    else (if declared[0] in completed then [] else [declared[0]]) + Remaining(declared[1..], completed)
  }

  lemma {:induction false} RemainingAppend(xs: seq<string>, ys: seq<string>, completed: seq<string>)
    ensures Remaining(xs + ys, completed) == Remaining(xs, completed) + Remaining(ys, completed)
    decreases |xs|
  {
    if |xs| > 0 {
      var head := if xs[0] in completed then [] else [xs[0]];
      ConcatFront(xs, ys);
      RemainingAppend(xs[1..], ys, completed);
      AppendAssoc(head, Remaining(xs[1..], completed), Remaining(ys, completed));
    } else {
      assert xs + ys == ys;
    }
  }

  /** Nothing completed is removed from the list when none of it is completed. */
  lemma {:induction false} RemainingKeeps(xs: seq<string>, completed: seq<string>)
    requires forall i :: 0 <= i < |xs| ==> xs[i] !in completed
    ensures Remaining(xs, completed) == xs
    decreases |xs|
  {
    if |xs| > 0 {
      RemainingKeeps(xs[1..], completed);
      assert [xs[0]] + xs[1..] == xs;
    }
  }

  /** Everything is removed when everything is completed. */
  lemma {:induction false} RemainingDrops(xs: seq<string>, completed: seq<string>)
    requires forall i :: 0 <= i < |xs| ==> xs[i] in completed
    ensures Remaining(xs, completed) == []
    decreases |xs|
  {
    if |xs| > 0 {
      RemainingDrops(xs[1..], completed);
    }
  }

  /** The subtasks a resumed run still executes, in declaration order. */
  function ToExecute(plan: string): seq<string> {
    Remaining(ParseSubtasksExtended(plan), ParseCompletedSubtasks(plan))
  }
}

=== FILE: plan_examples.dfy ===
/**
 * The plans of the replan tests, read with the general laws: a resume after one completed
 * subtask, a plan whose subtasks are all done, a plan stored with a literal backslash-n. The goal
 * line in front of the declaration is left general: any line that declares nothing.
 */
module PlanExamples {
  import opened Text
  import opened PlanCodec
  import opened PlanWrite

  lemma LettersValid()
    ensures ValidName("A") && ValidName("B") && ValidName("C")
  {
    assert Trimmed("A") && Trimmed("B") && Trimmed("C");
  }

  lemma ResumeLine()
    ensures "子任务：\U{2705}A \U{2192} B \U{2192} C" == DeclLine(ResumeEntries(["A"], ["B", "C"]))
  {
  }

  /** `…\n子任务：✅A → B → C`: A is done, and B then C are still to run. */
  lemma ResumeSkipsCompleted(goal: string)
    requires NoDeclLine(goal) && DoneMark !in goal
    ensures var plan := goal + "\n" + "子任务：\U{2705}A \U{2192} B \U{2192} C";
            && ParseSubtasks(plan) == ["A", "B", "C"]
            && ParseCompletedSubtasks(plan) == ["A"]
            && ToExecute(plan) == ["B", "C"]
  {
    ResumeLine();
    ResumeFromLine(goal, "子任务：\U{2705}A \U{2192} B \U{2192} C");
  }

  /** A, B and C are valid names, and a goal line without a ✅ completes none of B and C. */
  lemma ResumeReady(goal: string)
    requires DoneMark !in goal
    ensures var done, pending := ["A"], ["B", "C"];
            && ParseCompletedSubtasks(goal) == []
            && (forall i :: 0 <= i < |done| ==> ValidName(done[i]))
            && (forall i :: 0 <= i < |pending| ==> ValidName(pending[i]))
            && (forall i :: 0 <= i < |pending| ==> pending[i] !in done && pending[i] !in ParseCompletedSubtasks(goal))
  {
    LettersValid();
  }

  lemma ResumeFromLine(goal: string, line: string)
    requires NoDeclLine(goal) && DoneMark !in goal
    requires line == DeclLine(ResumeEntries(["A"], ["B", "C"]))
    ensures var plan := goal + "\n" + line;
            && ParseSubtasks(plan) == ["A", "B", "C"]
            && ParseCompletedSubtasks(plan) == ["A"]
            && ToExecute(plan) == ["B", "C"]
  {
    ResumeReady(goal);
    ResumeRunsPending(goal, ["A"], ["B", "C"]);
  }

  lemma AllDoneLine()
    ensures "子任务：\U{2705}A \U{2192} \U{2705}B \U{2192} \U{2705}C" == DeclLine(ResumeEntries(["A", "B", "C"], []))
  {
  }

  /** `✅ 全部完成\n子任务：✅A → ✅B → ✅C`: nothing is left to run, whatever the first line marks. */
  lemma AllDoneRunsNothing(head: string)
    requires NoDeclLine(head)
    ensures var plan := head + "\n" + "子任务：\U{2705}A \U{2192} \U{2705}B \U{2192} \U{2705}C";
            && ParseCompletedSubtasks(plan) == ParseCompletedSubtasks(head) + ["A", "B", "C"]
            && ToExecute(plan) == []
  {
    AllDoneLine();
    ResumeRunsPending(head, ["A", "B", "C"], []);
  }

  lemma TwoLine()
    ensures "子任务：A \U{2192} B" == DeclLine(ResumeEntries([], ["A", "B"]))
  {
  }

  /** `…\n子任务：A → B`: a fresh plan with nothing done declares and runs A then B. */
  lemma FreshPlanRunsAll(goal: string)
    requires NoDeclLine(goal) && DoneMark !in goal
    ensures var plan := goal + "\n" + "子任务：A \U{2192} B";
            && ParseSubtasks(plan) == ["A", "B"]
            && ToExecute(plan) == ["A", "B"]
  {
    TwoLine();
    ResumeRunsPending(goal, [], ["A", "B"]);
  }

  /** The same plan stored with a literal backslash-n in place of the line break declares the same. */
  lemma LiteralNewlineDeclares(goal: string)
    requires NoDeclLine(goal) && DoneMark !in goal
    ensures ParseSubtasks(goal + "\\n" + "子任务：A \U{2192} B") == ["A", "B"]
  {
    EscapedNewlineDeclares(goal, "子任务：A \U{2192} B", DispatcherMarks);
    FreshPlanRunsAll(goal);
  }

  /** `🔧` (U+1F527) starts with the same UTF-16 unit as `📍`, which the completion class refuses. */
  const Wrench: char := '\U{1F527}'

  /** The line of the example below. */
  const WrenchLine: string := "子任务：\U{2705}修复\U{1F527} \U{2192} B"

  /** After the ✅ the run stops at the wrench, so only `修复` is found. */
  lemma WrenchAfterMark()
    ensures Completions(WrenchLine[4..]) == ["修复"]
  {
    var t := WrenchLine[5..];
    assert t == "修复" + [Wrench] + " \U{2192} B";
    assert SharesSurrogate(Wrench);
    assert RunLength(t[2..]) == 0;
    assert RunLength(t) == 2;
    assert t[..2] == "修复";
    TrimOfTrimmed("修复");
    NoMarkNoCompletions(t[2..]);
    assert WrenchLine[4] == DoneMark && WrenchLine[4..][1..] == t;
    CompletionsMarked(WrenchLine[4..]);
  }

  lemma WrenchCompletions()
    ensures Completions(WrenchLine) == ["修复"]
  {
    WrenchAfterMark();
    var i := 3;
    while i > 0
      invariant 0 <= i <= 3
      invariant Completions(WrenchLine[i + 1..]) == ["修复"]
    {
      assert WrenchLine[i] != DoneMark;
      CompletionsUnmarked(WrenchLine[i..]);
      assert WrenchLine[i..][1..] == WrenchLine[i + 1..];
      i := i - 1;
    }
    assert WrenchLine[0] != DoneMark;
    CompletionsUnmarked(WrenchLine);
  }

  /** The text after the colon. */
  const WrenchBody: string := "\U{2705}修复\U{1F527} \U{2192} B"

  lemma WrenchDeclBody()
    ensures FullColon in WrenchLine && DeclBody(WrenchLine) == WrenchBody
  {
    assert WrenchLine == DeclMarker + [FullColon] + WrenchBody;
    assert FullColon !in WrenchBody;
    DeclBodyAfterMarker(WrenchBody);
  }

  lemma WrenchSplit()
    ensures Split(WrenchBody, Arrow) == ["\U{2705}修复\U{1F527} ", " B"]
  {
    var first := "\U{2705}修复\U{1F527} ";
    assert WrenchBody == first + [Arrow] + " B";
    SplitAtFirst(first, Arrow, " B");
    SplitNoSeparator(" B", Arrow);
  }

  lemma WrenchFirstToken()
    ensures CleanToken("\U{2705}修复\U{1F527} ", ExtendedMarks) == "修复\U{1F527}"
  {
    var first := "\U{2705}修复\U{1F527}";
    assert Trimmed(first);
    TrimPadded("", first, " ");
    assert "" + first + " " == "\U{2705}修复\U{1F527} ";
    assert StripMark(first, ExtendedMarks) == first[1..];
    assert Trimmed(first[1..]);
    TrimOfTrimmed(first[1..]);
  }

  lemma WrenchSecondToken()
    ensures CleanToken(" B", ExtendedMarks) == "B"
  {
    TrimPadded(" ", "B", "");
    assert " " + "B" + "" == " B";
    TrimOfTrimmed("B");
  }

  lemma WrenchTokens()
    ensures FullColon in WrenchLine && Tokens(WrenchLine, ExtendedMarks) == ["修复\U{1F527}", "B"]
  {
    WrenchDeclBody();
    WrenchSplit();
    WrenchFirstToken();
    WrenchSecondToken();
    CleanTokensCons(" B", [], ExtendedMarks);
    CleanTokensCons("\U{2705}修复\U{1F527} ", [" B"], ExtendedMarks);
  }

  lemma WrenchOneLine()
    ensures ParseDeclared(WrenchLine, ExtendedMarks) == Tokens(WrenchLine, ExtendedMarks)
  {
    assert WrenchLine[..3] == DeclMarker;
    assert Trimmed(WrenchLine);
    SingleDeclLine(WrenchLine, ExtendedMarks);
  }

  lemma WrenchDeclared()
    ensures ParseSubtasksExtended(WrenchLine) == ["修复\U{1F527}", "B"]
  {
    WrenchTokens();
    WrenchOneLine();
  }

  lemma WrenchCompleted()
    ensures ParseCompletedSubtasks(WrenchLine) == ["修复"]
  {
    assert Trimmed(WrenchLine);
    SingleLineCompleted(WrenchLine);
    WrenchCompletions();
  }

  lemma WrenchRemaining()
    ensures Remaining(["修复\U{1F527}", "B"], ["修复"]) == ["修复\U{1F527}", "B"]
  {
    assert "修复\U{1F527}" != "修复";
    RemainingKeeps(["修复\U{1F527}", "B"], ["修复"]);
  }

  /**
   * `子任务：✅修复🔧 → B`: the completion pattern stops at the first half of `🔧`, so the done
   * subtask reads as `修复`, which is no declared name, and `修复🔧` is run again.
   */
  lemma WrenchNameRunsAgain()
    ensures ParseSubtasksExtended(WrenchLine) == ["修复\U{1F527}", "B"]
    ensures ParseCompletedSubtasks(WrenchLine) == ["修复"]
    ensures ToExecute(WrenchLine) == ["修复\U{1F527}", "B"]
  {
    WrenchDeclared();
    WrenchCompleted();
    WrenchRemaining();
  }
}

=== FILE: plan_mark.dfy ===
/**
 * Marking a subtask complete: the one-line rewrite of the plan text in `markSubtaskDone`, the
 * completion count computed after it, and the fields each dispatcher writes back.
 */
module PlanMark {
  import opened Maybe
  import opened Text
  import opened PlanCodec
  import Numbers
  import Fields

  // ---------------------------------------------------------------------------------------------
  // `String.prototype.replace` with a string pattern

  /** The first occurrence of `pat` in `s` replaced by `rep`, taken literally. */
  function ReplaceFirst(s: string, pat: string, rep: string): (r: string)
    ensures !Contains(s, pat) ==> r == s
    ensures Contains(s, pat) ==> |r| == |s| - |pat| + |rep|
  {
    match IndexOf(s, pat)
    case None => s
    case Some(k) => s[..k] + rep + s[k + |pat|..]
  }

  /** Where `pat` first occurs, the replacement splices `rep` in and keeps both sides. */
  lemma ReplaceFirstAt(s: string, pat: string, rep: string, k: nat)
    requires OccursAt(s, pat, k)
    requires forall j :: 0 <= j < k ==> !OccursAt(s, pat, j)
    ensures ReplaceFirst(s, pat, rep) == s[..k] + rep + s[k + |pat|..]
  {
    assert IndexOf(s, pat) == Some(k);
  }

  /**
   * The replacement template as `replace` reads it when the pattern is a string: `$$` is a dollar
   * sign, `$&` the matched text, `` $` `` the text before the match, `$'` the text after it; any
   * other character, and a `$` starting none of these pairs, stands for itself.
   */
  function Substitute(t: string, before: string, matched: string, after: string): (r: string)
    decreases |t|
  {
    if |t| == 0 then ""
    else if t[0] == '$' && |t| >= 2 && t[1] == '$' then "$" + Substitute(t[2..], before, matched, after)
    else if t[0] == '$' && |t| >= 2 && t[1] == '&' then matched + Substitute(t[2..], before, matched, after)
    else if t[0] == '$' && |t| >= 2 && t[1] == '`' then before + Substitute(t[2..], before, matched, after)
    else if t[0] == '$' && |t| >= 2 && t[1] == '\'' then after + Substitute(t[2..], before, matched, after)
    else [t[0]] + Substitute(t[1..], before, matched, after)
  }

  /** A template without a dollar sign is copied unchanged. */
  lemma {:induction false} SubstituteLiteral(t: string, before: string, matched: string, after: string)
    requires '$' !in t
    ensures Substitute(t, before, matched, after) == t
    decreases |t|
  {
    if |t| > 0 {
      assert '$' !in t[1..];
      SubstituteLiteral(t[1..], before, matched, after);
      assert [t[0]] + t[1..] == t;
    }
  }

  /** `s.replace(pat, template)` as the engine runs it, with the template's `$` patterns expanded. */
  function ReplaceFirstAsWritten(s: string, pat: string, t: string): (r: string)
    ensures !Contains(s, pat) ==> r == s
  {
    match IndexOf(s, pat)
    case None => s
    case Some(k) => s[..k] + Substitute(t, s[..k], pat, s[k + |pat|..]) + s[k + |pat|..]
  }

  /** Without a dollar sign in the template the engine's replacement is the literal one. */
  lemma ReplaceAgrees(s: string, pat: string, t: string)
    requires '$' !in t
    ensures ReplaceFirstAsWritten(s, pat, t) == ReplaceFirst(s, pat, t)
  {
    match IndexOf(s, pat)
    case None =>
    case Some(k) => SubstituteLiteral(t, s[..k], pat, s[k + |pat|..]);
  }

  // ---------------------------------------------------------------------------------------------
  // The mark-complete rewrite

  const DoubleDone: string := [DoneMark, DoneMark]

  /**
   * The rewrite as written: the first occurrence of the name becomes `✅name` through `replace`,
   * whose template `✅${name}` is subject to `$` expansion, then the first `✅✅` becomes `✅`.
   */
  function MarkRewriteAsWritten(plan: string, name: string): (r: string)
    ensures !Contains(plan, name) && !Contains(plan, DoubleDone) ==> r == plan
  {
    ReplaceFirst(ReplaceFirstAsWritten(plan, name, [DoneMark] + name), DoubleDone, [DoneMark])
  }

  /** The rewrite as intended: the name is prefixed with `✅` literally, then `✅✅` collapses once. */
  function MarkRewrite(plan: string, name: string): (r: string)
    ensures !Contains(plan, name) && !Contains(plan, DoubleDone) ==> r == plan
  {
    ReplaceFirst(ReplaceFirst(plan, name, [DoneMark] + name), DoubleDone, [DoneMark])
  }

  /** The two agree on every name without a dollar sign. */
  lemma MarkRewriteAgrees(plan: string, name: string)
    requires '$' !in name
    ensures MarkRewriteAsWritten(plan, name) == MarkRewrite(plan, name)
  {
    ReplaceAgrees(plan, name, [DoneMark] + name);
  }

  /** Two `✅` glyphs side by side at `i`. */
  predicate Adjacent(s: string, i: int) {
    0 <= i && i + 1 < |s| && s[i] == DoneMark && s[i + 1] == DoneMark
  }

  lemma DoubleDoneAt(s: string, i: int)
    ensures OccursAt(s, DoubleDone, i) <==> Adjacent(s, i)
  {
    if Adjacent(s, i) {
      assert s[i..i + 2] == DoubleDone;
    }
  }

  /** A text contains `✅✅` exactly when two `✅` glyphs stand side by side somewhere in it. */
  lemma NoDoubleDone(s: string)
    ensures !Contains(s, DoubleDone) <==> forall i :: 0 <= i < |s| ==> !Adjacent(s, i)
  {
    if Contains(s, DoubleDone) {
      DoubleDoneAt(s, IndexOf(s, DoubleDone).value);
    }
    forall i | 0 <= i < |s| && Adjacent(s, i)
      ensures Contains(s, DoubleDone)
    {
      DoubleDoneAt(s, i);
      ContainsAt(s, DoubleDone, i);
    }
  }

  /** The plan of the example below: one declared subtask, named `$$`. */
  const DollarPlan: string := "子任务：$$"

  /** The declaration's one token is `$$`. */
  lemma DollarTokens()
    ensures FullColon in DollarPlan && Tokens(DollarPlan, DispatcherMarks) == ["$$"]
  {
    assert DeclBody(DollarPlan) == "$$" by {
      assert DollarPlan == DeclMarker + [FullColon] + "$$";
      DeclBodyAfterMarker("$$");
    }
    assert Split("$$", Arrow) == ["$$"] by { SplitNoSeparator("$$", Arrow); }
    assert CleanToken("$$", DispatcherMarks) == "$$" by {
      assert Trimmed("$$");
      TrimOfTrimmed("$$");
      assert StripMark("$$", DispatcherMarks) == "$$";
    }
    CleanTokensCons("$$", [], DispatcherMarks);
  }

  /** The plan is a single declaration line. */
  lemma DollarOneLine()
    ensures IsDeclLine(DollarPlan)
    ensures ParseDeclared(DollarPlan, DispatcherMarks) == Tokens(DollarPlan, DispatcherMarks)
  {
    var t := DollarPlan;
    assert t == DeclMarker + [FullColon] + "$$";
    assert DeclMarker <= t && FullColon in t;
    assert '\\' !in t && '\n' !in t;
    assert Trimmed(t);
    SingleDeclLine(t, DispatcherMarks);
  }

  /** The plan declares exactly the subtask `$$`. */
  lemma DollarDeclared()
    ensures ParseSubtasks(DollarPlan) == ["$$"]
  {
    DollarTokens();
    DollarOneLine();
  }

  /** The engine's rewrite: the template `✅$$` expands to `✅$`, and there is no `✅✅` to collapse. */
  lemma DollarAsWritten()
    ensures MarkRewriteAsWritten(DollarPlan, "$$") == "子任务：\U{2705}$"
  {
    var s := DollarPlan;
    forall k | 0 <= k < 4
      ensures !OccursAt(s, "$$", k)
    {
      assert s[k] != '$';
      assert k + 2 <= |s| ==> s[k..k + 2][0] == s[k];
    }
    assert OccursAt(s, "$$", 4);
    assert IndexOf(s, "$$") == Some(4);
    assert Substitute([DoneMark] + "$$", s[..4], "$$", s[6..]) == [DoneMark, '$'];
    var once := "子任务：\U{2705}$";
    assert ReplaceFirstAsWritten(s, "$$", [DoneMark] + "$$") == once;
    NoDoubleDone(once);
  }

  /** The literal rewrite: `✅` goes in front of `$$`. */
  lemma DollarLiteral()
    ensures MarkRewrite(DollarPlan, "$$") == "子任务：\U{2705}$$"
  {
    var s := DollarPlan;
    forall k | 0 <= k < 4
      ensures !OccursAt(s, "$$", k)
    {
      assert s[k] != '$';
      assert k + 2 <= |s| ==> s[k..k + 2][0] == s[k];
    }
    assert OccursAt(s, "$$", 4);
    ReplaceFirstAt(s, "$$", [DoneMark] + "$$", 4);
    var once := "子任务：\U{2705}$$";
    assert s[..4] + ([DoneMark] + "$$") + s[6..] == once;
    assert forall i :: 0 <= i < |once| ==> !Adjacent(once, i);
    NoDoubleDone(once);
  }

  /** `子任务：✅$` holds no `✅$$`: its only `✅` is followed by one character. */
  lemma DollarNotDone()
    ensures !Contains("子任务：\U{2705}$", [DoneMark] + "$$")
  {
    var s := "子任务：\U{2705}$";
    var pat := [DoneMark] + "$$";
    forall k | 0 <= k && k + 3 <= |s|
      ensures !OccursAt(s, pat, k)
    {
      assert s[k..k + 3][0] == s[k] && s[k] != DoneMark;
    }
  }

  /**
   * As written, the subtask `$$` of the plan `子任务：$$` is rewritten to `✅$`, so after marking it
   * done none of the one declared subtask reads as done; the literal rewrite makes it one of one.
   */
  lemma DollarNameLost()
    ensures ParseSubtasks(DollarPlan) == ["$$"]
    ensures MarkRewriteAsWritten(DollarPlan, "$$") == "子任务：\U{2705}$"
    ensures CountDone(MarkRewriteAsWritten(DollarPlan, "$$"), ParseSubtasks(DollarPlan)) == 0
    ensures CountDone(MarkRewrite(DollarPlan, "$$"), ParseSubtasks(DollarPlan)) == 1
  {
    DollarDeclared();
    DollarAsWritten();
    assert CountDone("子任务：\U{2705}$", ["$$"]) == 0 by { DollarNotDone(); }
    DollarLiteral();
    assert CountDone("子任务：\U{2705}$$", ["$$"]) == 1 by {
      ContainsAt("子任务：\U{2705}$$", [DoneMark] + "$$", 4);
    }
  }

  /** Collapsing one `✅✅` away from an occurrence of `✅name` keeps an occurrence of it. */
  lemma CollapseKeeps(s: string, name: string, k: nat, j: nat)
    requires DoneMark !in name && |name| > 0
    requires OccursAt(s, [DoneMark] + name, k)
    requires OccursAt(s, DoubleDone, j)
    ensures Contains(s[..j] + [DoneMark] + s[j + 2..], [DoneMark] + name)
  {
    var t := [DoneMark] + name;
    var r := s[..j] + [DoneMark] + s[j + 2..];
    DoubleDoneAt(s, j);
    assert forall i :: k < i < k + |t| ==> s[i] == name[i - k - 1];
    if j + 2 <= k {
      assert r[k - 1..k - 1 + |t|] == s[k..k + |t|];
      ContainsAt(r, t, k - 1);
    } else if j == k - 1 {
      assert |s[..j]| == k - 1 && r[k - 1] == DoneMark;
      assert forall i :: k <= i < k - 1 + |t| ==> r[i] == s[i + 1];
      assert forall i :: 0 <= i < |t| ==> r[k - 1 + i] == t[i];
      assert r[k - 1..k - 1 + |t|] == t;
      ContainsAt(r, t, k - 1);
    } else {
      assert j >= k + |t|;
      assert r[k..k + |t|] == s[k..k + |t|];
      ContainsAt(r, t, k);
    }
  }

  /** After the rewrite, a name that occurs in the plan and holds no `✅` occurs as `✅name`. */
  lemma MarkRewriteMarks(plan: string, name: string)
    requires DoneMark !in name && |name| > 0
    requires Contains(plan, name)
    ensures Contains(MarkRewrite(plan, name), [DoneMark] + name)
  {
    var k := IndexOf(plan, name).value;
    var t := [DoneMark] + name;
    var once := plan[..k] + t + plan[k + |name|..];
    assert ReplaceFirst(plan, name, t) == once;
    assert once[k..k + |t|] == t;
    if IndexOf(once, DoubleDone).None? {
      ContainsAt(once, t, k);
    } else {
      var j := IndexOf(once, DoubleDone).value;
      CollapseKeeps(once, name, k, j);
    }
  }

  /**
   * The rewrite leaves the plan unchanged when the name's first occurrence already carries the
   * `✅` prefix and no `✅✅` occurs before it.
   */
  lemma MarkRewriteIdempotent(plan: string, name: string, k: nat)
    requires IndexOf(plan, name) == Some(k)
    requires k >= 1 && plan[k - 1] == DoneMark
    requires forall j :: 0 <= j < k - 1 ==> !Adjacent(plan, j)
    ensures MarkRewrite(plan, name) == plan
  {
    assert OccursAt(plan, name, k);
    var t := [DoneMark] + name;
    var once := plan[..k] + t + plan[k + |name|..];
    assert ReplaceFirst(plan, name, t) == once;
    assert once[k - 1..k + 1] == DoubleDone;
    PrefixNoDouble(plan, once, k);
    ReplaceFirstAt(once, DoubleDone, [DoneMark], k - 1);
    assert once[..k - 1] + [DoneMark] == plan[..k];
    assert once[k + 1..] == name + plan[k + |name|..];
    assert plan == plan[..k] + name + plan[k + |name|..];
  }

  /** Text that agrees with the plan on its first `k` characters has no `✅✅` there either. */
  lemma PrefixNoDouble(plan: string, once: string, k: nat)
    requires k <= |plan| && k <= |once| && once[..k] == plan[..k]
    requires forall j :: 0 <= j < k - 1 ==> !Adjacent(plan, j)
    ensures forall j :: 0 <= j < k - 1 ==> !OccursAt(once, DoubleDone, j)
  {
    forall j | 0 <= j < k - 1
      ensures !OccursAt(once, DoubleDone, j)
    {
      DoubleDoneAt(once, j);
      assert !Adjacent(plan, j);
      assert once[j] == once[..k][j] == plan[..k][j] == plan[j];
      assert once[j + 1] == once[..k][j + 1] == plan[..k][j + 1] == plan[j + 1];
    }
  }

  /** In the marked text the name first occurs right behind the `✅` put in front of it. */
  lemma NameFirstAfterMark(plan: string, name: string, k: nat, once: string)
    requires DoneMark !in name && |name| > 0
    requires IndexOf(plan, name) == Some(k)
    requires once == plan[..k] + [DoneMark] + name + plan[k + |name|..]
    ensures IndexOf(once, name) == Some(k + 1)
  {
    assert OccursAt(plan, name, k);
    assert once[..k] == plan[..k];
    assert once[k] == DoneMark;
    assert once[k + 1..k + 1 + |name|] == name;
    forall j | 0 <= j < k + 1
      ensures !OccursAt(once, name, j)
    {
      if j + |name| <= k {
        assert once[j..j + |name|] == plan[j..j + |name|];
        assert !OccursAt(plan, name, j);
      } else if j + |name| <= |once| {
        assert once[j..j + |name|][k - j] == DoneMark;
        assert name[k - j] != DoneMark;
      }
    }
    var r := IndexOf(once, name);
    assert OccursAt(once, name, k + 1);
    assert r.Some? && r.value >= k + 1;
    assert !(r.value > k + 1);
  }

  /** The marked text holds no `✅✅` when the plan held none and the name was not yet marked there. */
  lemma MarkedHasNoDouble(plan: string, name: string, k: nat, once: string)
    requires DoneMark !in name && |name| > 0
    requires OccursAt(plan, name, k)
    requires !Contains(plan, DoubleDone)
    requires k == 0 || plan[k - 1] != DoneMark
    requires once == plan[..k] + [DoneMark] + name + plan[k + |name|..]
    ensures !Contains(once, DoubleDone)
  {
    NoDoubleDone(plan);
    assert forall i :: 0 <= i < k ==> once[i] == plan[i];
    assert forall i :: k < i <= k + |name| ==> once[i] == name[i - k - 1];
    assert forall i :: k + |name| < i < |once| ==> once[i] == plan[i - 1];
    forall i | 0 <= i < |once|
      ensures !Adjacent(once, i)
    {
      if i + 1 < k {
        assert !Adjacent(plan, i);
      } else if k + |name| < i {
        assert !Adjacent(plan, i - 1);
      }
    }
    NoDoubleDone(once);
  }

  /** Marking the same name twice is the same as marking it once, in a plan holding no `✅✅`. */
  lemma MarkRewriteTwice(plan: string, name: string)
    requires DoneMark !in name && |name| > 0
    requires Contains(plan, name)
    requires !Contains(plan, DoubleDone)
    ensures MarkRewrite(MarkRewrite(plan, name), name) == MarkRewrite(plan, name)
  {
    var k := IndexOf(plan, name).value;
    NoDoubleDone(plan);
    if k >= 1 && plan[k - 1] == DoneMark {
      MarkRewriteIdempotent(plan, name, k);
    } else {
      var once := plan[..k] + [DoneMark] + name + plan[k + |name|..];
      assert ReplaceFirst(plan, name, [DoneMark] + name) == once;
      MarkedHasNoDouble(plan, name, k, once);
      assert MarkRewrite(plan, name) == once;
      NameFirstAfterMark(plan, name, k, once);
      NoDoubleDone(once);
      MarkRewriteIdempotent(once, name, k + 1);
    }
  }

  // ---------------------------------------------------------------------------------------------
  // Counting completed subtasks after the rewrite

  /** `names.filter(s => plan.includes('✅' + s)).length`. */
  function CountDone(plan: string, names: seq<string>): (n: nat)
    ensures n <= |names|
    ensures n == |names| <==> forall i :: 0 <= i < |names| ==> Contains(plan, [DoneMark] + names[i])
    decreases |names|
  {
    if |names| == 0 then 0
    else (if Contains(plan, [DoneMark] + names[0]) then 1 else 0) + CountDone(plan, names[1..])
  }

  // ---------------------------------------------------------------------------------------------
  // markSubtaskDone

  /** The two dispatchers: `bt-dispatch` keeps the plan in `任务规划`, `bm-dispatch` in `任务进展`. */
  datatype Variant = Bt | Bm

  function PlanField(v: Variant): string {
    match v
    case Bt => "任务规划"
    case Bm => "任务进展"
  }

  const StatusDone: string := "\U{2705} 已完成"
  const PhaseAllDone: string := "\U{2705} 全部完成"

  /**
   * What `markSubtaskDone` writes back: the rewritten plan, the new status, phase and summary when
   * it writes them, and how many of the declared subtasks now read as done.
   */
  datatype Completion = Completion(
    plan: string,
    status: Option<string>,
    phase: Option<string>,
    summary: Option<string>,
    doneCount: nat,
    total: nat,
    allDone: bool)

  /** The summary written when the last subtask completes: `全部 N 个子任务已完成`. */
  function AllDoneSummary(total: nat): (r: string)
    ensures "全部 " <= r
    ensures r[|"全部 "|..] == Numbers.IntToString(total) + AllDoneTail
  {
    "全部 " + Numbers.IntToString(total) + AllDoneTail
  }

  const AllDoneTail: string := " 个子任务已完成"

  /** The number in the summary reads back as the number of subtasks, and the text closes the sentence. */
  lemma AllDoneSummaryReadsBack(total: nat)
    ensures var r := AllDoneSummary(total);
            && Numbers.ParseInt(r[|"全部 "|..]) == Some(total)
            && |r| >= |AllDoneTail| && r[|r| - |AllDoneTail|..] == AllDoneTail
  {
    var num := Numbers.IntToString(total);
    assert (num + AllDoneTail)[|num|..] == AllDoneTail;
    Numbers.ParseIntOfPrefix(total, AllDoneTail);
  }

  /**
   * `markSubtaskDone(cfg, recordId, name, summary)` on the record it fetched: nothing when there is
   * no record. The subtasks are those declared before the rewrite; the task is complete when each
   * of them reads as `✅name` afterwards, which holds trivially when none is declared. The plan is
   * rewritten with the literal rewrite, which is the engine's for every name without `$`.
   */
  function MarkSubtaskDone(v: Variant, rec: Option<Fields.Record>, name: string): (r: Option<Completion>)
    ensures r.None? <==> rec.None?
    ensures r.Some? ==>
      var plan := Fields.Fv(rec.value.fields, PlanField(v));
      var c := r.value;
      && c.plan == MarkRewrite(plan, name)
      && ('$' !in name ==> c.plan == MarkRewriteAsWritten(plan, name))
      && c.total == |ParseSubtasks(plan)|
      && c.doneCount <= c.total
      && c.doneCount == CountDone(c.plan, ParseSubtasks(plan))
      && (c.allDone <==> c.doneCount == c.total)
      && (c.allDone <==> forall s :: s in ParseSubtasks(plan) ==> Contains(c.plan, [DoneMark] + s))
      && (c.allDone <==> c.status == Some(StatusDone))
      && (c.allDone <==> c.summary.Some?)
      && (c.allDone ==> c.summary == Some(AllDoneSummary(c.total)))
  {
    match rec
    case None => None
    case Some(record) =>
      var plan := Fields.Fv(record.fields, PlanField(v));
      var subtasks := ParseSubtasks(plan);
      var marked := MarkRewrite(plan, name);
      assert '$' !in name ==> marked == MarkRewriteAsWritten(plan, name) by {
        if '$' !in name {
          MarkRewriteAgrees(plan, name);
        }
      }
      var done := CountDone(marked, subtasks);
      var allDone := done == |subtasks|;
      var phase :=
        if v == Bm then None
        else if allDone then Some(PhaseAllDone)
        else match FirstIncompleteIndex(marked, subtasks)
          case None => Some(PhaseAllDone)
          case Some(i) => Some([CurrentMark] + subtasks[i]);
      Some(Completion(marked, if allDone then Some(StatusDone) else None, phase,
                      if allDone then Some(AllDoneSummary(|subtasks|)) else None,
                      done, |subtasks|, allDone))
  }

  /**
   * In `bt-dispatch` an unfinished task's phase names the first declared subtask still without its
   * `✅`; `bm-dispatch` writes no phase.
   */
  lemma NextPhase(v: Variant, rec: Fields.Record, name: string)
    ensures var c := MarkSubtaskDone(v, Some(rec), name).value;
            var subtasks := ParseSubtasks(Fields.Fv(rec.fields, PlanField(v)));
            && (v == Bm ==> c.phase.None?)
            && (v == Bt && c.allDone ==> c.phase == Some(PhaseAllDone))
            && (v == Bt && !c.allDone ==>
                  exists i :: 0 <= i < |subtasks| && c.phase == Some([CurrentMark] + subtasks[i])
                    && !Contains(c.plan, [DoneMark] + subtasks[i])
                    && forall j :: 0 <= j < i ==> Contains(c.plan, [DoneMark] + subtasks[j]))
  {
    var plan := Fields.Fv(rec.fields, PlanField(v));
    var subtasks := ParseSubtasks(plan);
    var c := MarkSubtaskDone(v, Some(rec), name).value;
    if v == Bt && !c.allDone {
      var i := FirstIncompleteIndex(c.plan, subtasks).value;
      assert c.phase == Some([CurrentMark] + subtasks[i]);
    }
  }
}

=== FILE: plan_write.dfy ===
/**
 * Writing the plan: a declaration line built from marked entries, and the text the re-plan step
 * appends. The laws here say that what is written reads back as intended: the declared names come
 * back in order with their marks removed, and the names written with a ✅ are exactly the ones
 * reported completed.
 */
module PlanWrite {
  import opened Text
  import opened PlanCodec

  /** How an entry of a declaration line is marked. */
  datatype Mark = Bare | Done | Current | Pending

  /** One `→`-separated entry: a name with its mark, or nothing at all (an empty token). */
  datatype Entry = Blank | Named(mark: Mark, name: string)

  function MarkText(m: Mark): (r: string)
    ensures m == Bare <==> r == ""
    ensures m != Bare ==> |r| == 1 && r[0] in ExtendedMarks
  {
    match m
    case Bare => ""
    case Done => [DoneMark]
    case Current => [CurrentMark]
    case Pending => [PendingMark]
  }

  function EntryText(e: Entry): string {
    match e
    case Blank => ""
    case Named(m, n) => MarkText(m) + n
  }

  function EntryTexts(es: seq<Entry>): (r: seq<string>)
    ensures |r| == |es| && forall i :: 0 <= i < |es| ==> r[i] == EntryText(es[i])
  {
    seq(|es|, i requires 0 <= i < |es| => EntryText(es[i]))
  }

  /** `子任务：` followed by the entries joined with ` → `. */
  function DeclLine(es: seq<Entry>): string {
    DeclMarker + [FullColon] + Join(EntryTexts(es), Delimiter)
  }

  /** The names of the entries, in order. */
  function DeclaredNames(es: seq<Entry>): seq<string>
    decreases |es|
  {
    if |es| == 0 then []
    else (if es[0].Named? then [es[0].name] else []) + DeclaredNames(es[1..])
  }

  /** The names of the entries written with ✅, in order. */
  function DoneNames(es: seq<Entry>): seq<string>
    decreases |es|
  {
    if |es| == 0 then []
    else (if es[0].Named? && es[0].mark == Done then [es[0].name] else []) + DoneNames(es[1..])
  }

  /** Characters that carry structure in a plan: the arrow, the full-width colon, line breaks. */
  const Structural: set<char> := {Arrow, FullColon, '\n', '\\'}

  /**
   * A name the plan can carry unchanged: not empty, trimmed, no structural character, no mark, and
   * no character that the completion pattern would cut in half (see `SharesSurrogate`).
   */
  predicate ValidName(n: string) {
    n != "" && Trimmed(n) && forall c :: c in n ==> c !in Structural && c !in ExtendedMarks && !SharesSurrogate(c)
  }

  /** The entry's name is valid and its mark is one the parser strips (or there is none). */
  predicate ValidEntry(e: Entry, marks: set<char>) {
    e.Named? ==> ValidName(e.name) && (e.mark == Bare || MarkText(e.mark)[0] in marks)
  }

  predicate ValidEntries(es: seq<Entry>, marks: set<char>) {
    forall i :: 0 <= i < |es| ==> ValidEntry(es[i], marks)
  }

  // ---------------------------------------------------------------------------------------------
  // Characters of an entry

  lemma EntryTextAvoids(e: Entry, marks: set<char>, x: char)
    requires ValidEntry(e, marks) && x in Structural
    ensures x !in EntryText(e)
  {
  }

  lemma EntriesAvoid(es: seq<Entry>, marks: set<char>, x: char)
    requires ValidEntries(es, marks) && x in Structural && x !in Delimiter
    ensures x !in Join(EntryTexts(es), Delimiter)
  {
    forall i | 0 <= i < |es| ensures x !in EntryTexts(es)[i] {
      EntryTextAvoids(es[i], marks, x);
    }
    JoinAvoids(EntryTexts(es), Delimiter, x);
  }

  lemma EntryTextTrimmed(e: Entry, marks: set<char>)
    requires ValidEntry(e, marks)
    ensures Trimmed(EntryText(e))
  {
    if e.Named? && e.mark != Bare {
      var t := EntryText(e);
      assert t[0] == MarkText(e.mark)[0];
      assert t[|t| - 1] == e.name[|e.name| - 1];
    }
  }

  // ---------------------------------------------------------------------------------------------
  // Declared names read back

  /** The pieces `split('→')` cuts a ` → `-join into, the first one carrying `lead` in front. */
  function Spaced(lead: string, xs: seq<string>): (r: seq<string>)
    requires |xs| >= 1
    ensures |r| == |xs|
    decreases |xs|
  {
    if |xs| == 1 then [lead + xs[0]] else [lead + xs[0] + " "] + Spaced(" ", xs[1..])
  }

  lemma {:induction false} SplitDelimited(lead: string, xs: seq<string>)
    requires |xs| >= 1 && Arrow !in lead
    requires forall i :: 0 <= i < |xs| ==> Arrow !in xs[i]
    ensures Split(lead + Join(xs, Delimiter), Arrow) == Spaced(lead, xs)
    decreases |xs|
  {
    if |xs| == 1 {
      SplitNoSeparator(lead + xs[0], Arrow);
    } else {
      var a := lead + xs[0] + " ";
      var b := " " + Join(xs[1..], Delimiter);
      assert lead + Join(xs, Delimiter) == a + [Arrow] + b;
      SplitAtFirst(a, Arrow, b);
      SplitDelimited(" ", xs[1..]);
    }
  }

  /** A token made of an entry padded with whitespace cleans to the entry's name, or to nothing. */
  lemma CleanEntry(e: Entry, w1: string, w2: string, marks: set<char>)
    requires ValidEntry(e, marks) && marks <= ExtendedMarks
    requires AllWhite(w1) && AllWhite(w2)
    ensures CleanToken(w1 + EntryText(e) + w2, marks) == (if e.Named? then e.name else "")
  {
    EntryTextTrimmed(e, marks);
    TrimPadded(w1, EntryText(e), w2);
    if e.Named? {
      var n := e.name;
      assert n[0] in n;
      if e.mark == Bare {
        assert StripMark(n, marks) == n;
      } else {
        assert (MarkText(e.mark) + n)[1..] == n;
      }
      TrimOfTrimmed(n);
    }
  }

  lemma {:induction false} CleanSpaced(lead: string, es: seq<Entry>, marks: set<char>)
    requires |es| >= 1 && AllWhite(lead)
    requires ValidEntries(es, marks) && marks <= ExtendedMarks
    ensures CleanTokens(Spaced(lead, EntryTexts(es)), marks) == DeclaredNames(es)
    decreases |es|
  {
    var xs := EntryTexts(es);
    assert ValidEntry(es[0], marks);
    if |es| == 1 {
      assert lead + xs[0] == lead + EntryText(es[0]) + "";
      CleanEntry(es[0], lead, "", marks);
      CleanTokensCons(lead + xs[0], [], marks);
      assert Spaced(lead, xs) == [lead + xs[0]] + [];
      assert es[1..] == [];
    } else {
      CleanEntry(es[0], lead, " ", marks);
      assert xs[1..] == EntryTexts(es[1..]);
      CleanSpaced(" ", es[1..], marks);
      CleanTokensCons(lead + xs[0] + " ", Spaced(" ", xs[1..]), marks);
    }
  }

  // ---------------------------------------------------------------------------------------------
  // Completed names read back

  lemma {:induction false} CompletionsSkip(a: string, b: string)
    requires DoneMark !in a
    ensures Completions(a + b) == Completions(b)
    decreases |a|
  {
    if |a| > 0 {
      assert (a + b)[1..] == a[1..] + b;
      CompletionsSkip(a[1..], b);
    } else {
      assert a + b == b;
    }
  }

  lemma {:induction false} RunLengthPrefix(x: string, y: string)
    requires |x| > 0 && Stops(x[|x| - 1])
    ensures RunLength(x + y) == RunLength(x)
    decreases |x|
  {
    if !Stops(x[0]) {
      assert (x + y)[1..] == x[1..] + y;
      RunLengthPrefix(x[1..], y);
    }
  }

  lemma {:induction false} RunLengthClean(x: string, y: string)
    requires forall k :: 0 <= k < |x| ==> !Stops(x[k])
    requires |y| == 0 || Stops(y[0])
    ensures RunLength(x + y) == |x|
    decreases |x|
  {
    if |x| > 0 {
      assert (x + y)[1..] == x[1..] + y;
      RunLengthClean(x[1..], y);
    } else {
      assert x + y == y;
    }
  }

  /** The scan restarts after a stop character other than ✅, so it reads the two sides apart. */
  lemma {:induction false} CompletionsConcat(a: string, b: string)
    requires |a| > 0 ==> Stops(a[|a| - 1]) && a[|a| - 1] != DoneMark
    ensures Completions(a + b) == Completions(a) + Completions(b)
    decreases |a|
  {
    if |a| == 0 {
      assert a + b == b;
    } else if |a| == 1 {
      assert Completions(a) == [] by {
        CompletionsUnmarked(a);
      }
      assert Completions(a + b) == Completions(b) by {
        assert (a + b)[1..] == b;
        CompletionsUnmarked(a + b);
      }
    } else if a[0] == DoneMark && RunLength(a[1..]) > 0 {
      var t := a[1..];
      var n := RunLength(t);
      assert n < |t| by {
        RunLengthStops(t);
        assert t[|t| - 1] == a[|a| - 1];
      }
      CompletionsConcat(t[n..], b);
      ConcatMarkedStep(a, b);
    } else {
      CompletionsConcat(a[1..], b);
      ConcatUnmarkedStep(a, b);
    }
  }

  /** Behind a leading character, `a + b` has the same run as `a`, and after it the rest of `a` then `b`. */
  lemma RunOfConcat(a: string, b: string)
    requires |a| > 1 && Stops(a[|a| - 1])
    ensures var t, tb := a[1..], (a + b)[1..];
            && tb == t + b
            && RunLength(tb) == RunLength(t)
            && tb[..RunLength(tb)] == t[..RunLength(t)]
            && tb[RunLength(tb)..] == t[RunLength(t)..] + b
  {
    var t, tb := a[1..], (a + b)[1..];
    assert tb == t + b;
    assert t[|t| - 1] == a[|a| - 1];
    RunLengthPrefix(t, b);
  }

  /** One ✅ run read off the front of `a`, given the law for what follows it. */
  lemma ConcatMarkedStep(a: string, b: string)
    requires |a| > 1 && Stops(a[|a| - 1]) && a[0] == DoneMark && RunLength(a[1..]) > 0
    requires var t := a[1..];
             && RunLength(t) <= |t|
             && Completions(t[RunLength(t)..] + b) == Completions(t[RunLength(t)..]) + Completions(b)
    ensures Completions(a + b) == Completions(a) + Completions(b)
  {
    var t := a[1..];
    var n := RunLength(t);
    RunOfConcat(a, b);
    assert (a + b)[0] == DoneMark;
    CompletionsMarked(a);
    CompletionsMarked(a + b);
    AppendAssoc(Found(t[..n]), Completions(t[n..]), Completions(b));
  }

  /** One character that starts no run read off the front of `a`, given the law for the rest. */
  lemma ConcatUnmarkedStep(a: string, b: string)
    requires |a| > 1 && Stops(a[|a| - 1]) && !(a[0] == DoneMark && RunLength(a[1..]) > 0)
    requires Completions(a[1..] + b) == Completions(a[1..]) + Completions(b)
    ensures Completions(a + b) == Completions(a) + Completions(b)
  {
    RunOfConcat(a, b);
    assert (a + b)[0] == a[0];
    CompletionsUnmarked(a);
    CompletionsUnmarked(a + b);
  }

  lemma NameAvoidsStops(n: string)
    requires ValidName(n)
    ensures forall k :: 0 <= k < |n| ==> !Stops(n[k])
  {
    forall k | 0 <= k < |n| ensures !Stops(n[k]) {
      assert n[k] in n;
    }
  }

  lemma CompletionsOfDoneName(n: string)
    requires ValidName(n)
    ensures Completions([DoneMark] + n) == [n]
  {
    var s := [DoneMark] + n;
    var t := s[1..];
    assert t == n;
    NameAvoidsStops(n);
    RunLengthClean(n, "");
    assert n + "" == n;
    assert t[..|n|] == n && t[|n|..] == "";
    TrimOfTrimmed(n);
  }

  lemma CompletionsOfDoneNameArrow(n: string)
    requires ValidName(n)
    ensures Completions([DoneMark] + n + [' ', Arrow]) == [n]
  {
    var s := [DoneMark] + n + [' ', Arrow];
    var t := s[1..];
    assert t == (n + " ") + [Arrow];
    NameAvoidsStops(n);
    RunLengthClean(n + " ", [Arrow]);
    assert t[..|n| + 1] == "" + n + " ";
    TrimPadded("", n, " ");
    assert t[|n| + 1..] == [Arrow];
    assert Completions([Arrow]) == Completions([]);
  }

  /** One entry, followed by nothing or by ` →`: a ✅ entry is read back, any other is not. */
  lemma CompletionsOfEntry(e: Entry, tail: string, marks: set<char>)
    requires ValidEntry(e, marks)
    requires tail == "" || tail == [' ', Arrow]
    ensures Completions(EntryText(e) + tail) ==
              (if e.Named? && e.mark == Done then [e.name] else [])
  {
    var s := EntryText(e) + tail;
    if e.Named? && e.mark == Done {
      if tail == "" {
        assert s == [DoneMark] + e.name;
        CompletionsOfDoneName(e.name);
      } else {
        assert s == [DoneMark] + e.name + [' ', Arrow];
        CompletionsOfDoneNameArrow(e.name);
      }
    } else {
      if e.Named? {
        assert DoneMark !in MarkText(e.mark);
        assert DoneMark !in e.name;
      }
      assert DoneMark !in s;
      CompletionsSkip(s, "");
      assert s + "" == s;
    }
  }

  lemma {:induction false} CompletionsJoin(es: seq<Entry>, marks: set<char>)
    requires |es| >= 1 && ValidEntries(es, marks)
    ensures Completions(Join(EntryTexts(es), Delimiter)) == DoneNames(es)
    decreases |es|
  {
    var xs := EntryTexts(es);
    assert ValidEntry(es[0], marks);
    if |es| == 1 {
      CompletionsOfEntry(es[0], "", marks);
      assert xs[0] + "" == xs[0];
      assert es[1..] == [];
    } else {
      var a := xs[0] + [' ', Arrow];
      var rest := Join(xs[1..], Delimiter);
      assert Join(xs, Delimiter) == a + (" " + rest);
      CompletionsConcat(a, " " + rest);
      CompletionsOfEntry(es[0], [' ', Arrow], marks);
      CompletionsSkip(" ", rest);
      assert xs[1..] == EntryTexts(es[1..]);
      CompletionsJoin(es[1..], marks);
    }
  }

  // ---------------------------------------------------------------------------------------------
  // The declaration line read back

  lemma DeclLineAvoids(es: seq<Entry>, marks: set<char>)
    requires ValidEntries(es, marks)
    ensures '\\' !in DeclLine(es) && '\n' !in DeclLine(es)
    ensures FullColon !in Join(EntryTexts(es), Delimiter)
  {
    EntriesAvoid(es, marks, '\\');
    EntriesAvoid(es, marks, '\n');
    EntriesAvoid(es, marks, FullColon);
  }

  lemma DeclLineTrimmed(es: seq<Entry>, marks: set<char>)
    requires |es| >= 1 && es[|es| - 1].Named? && ValidEntries(es, marks)
    ensures Trim(DeclLine(es)) == DeclLine(es)
  {
    var body := Join(EntryTexts(es), Delimiter);
    var line := DeclLine(es);
    var last := es[|es| - 1];
    assert ValidEntry(last, marks);
    EntryTextTrimmed(last, marks);
    assert EntryText(last) != "";
    JoinLastChar(EntryTexts(es), Delimiter);
    assert line[|line| - 1] == body[|body| - 1];
    assert line[0] == '子';
    TrimOfTrimmed(line);
  }

  lemma DeclLineIsOneLine(es: seq<Entry>, marks: set<char>)
    requires |es| >= 1 && es[|es| - 1].Named? && ValidEntries(es, marks)
    ensures Lines(DeclLine(es)) == [DeclLine(es)]
    ensures Trim(DeclLine(es)) == DeclLine(es)
    ensures IsDeclLine(DeclLine(es))
    ensures DeclBody(DeclLine(es)) == Join(EntryTexts(es), Delimiter)
  {
    var body := Join(EntryTexts(es), Delimiter);
    var line := DeclLine(es);
    DeclLineAvoids(es, marks);
    UnescapeNoBackslash(line);
    SplitNoSeparator(line, '\n');
    DeclLineTrimmed(es, marks);
    DeclBodyAfterMarker(body);
  }

  /** A one-line, trimmed plan: its completed names are those its scan finds. */
  lemma OneLineCompleted(line: string)
    requires line != "" && Lines(line) == [line] && Trim(line) == line
    ensures ParseCompletedSubtasks(line) == Completions(line)
  {
    if DoneMark !in line {
      CompletionsSkip(line, "");
      assert line + "" == line;
    }
    assert CompletedFromLines([line]) == (if DoneMark in line then Completions(line) else []) + [];
  }

  /** A declaration line written from valid entries parses back to their names, in order. */
  lemma DeclLineDeclared(es: seq<Entry>, marks: set<char>)
    requires |es| >= 1 && es[|es| - 1].Named? && ValidEntries(es, marks) && marks <= ExtendedMarks
    ensures ParseDeclared(DeclLine(es), marks) == DeclaredNames(es)
  {
    var xs := EntryTexts(es);
    DeclLineIsOneLine(es, marks);
    forall i | 0 <= i < |xs| ensures Arrow !in xs[i] {
      EntryTextAvoids(es[i], marks, Arrow);
    }
    SplitDelimited("", xs);
    assert "" + Join(xs, Delimiter) == Join(xs, Delimiter);
    CleanSpaced("", es, marks);
    assert DeclaredFromLines([DeclLine(es)], marks) == Tokens(DeclLine(es), marks);
  }

  /** The scan finds nothing in `子任务：`. */
  lemma CompletionsAfterHead(body: string)
    ensures Completions(DeclMarker + [FullColon] + body) == Completions(body)
  {
    var head := DeclMarker + [FullColon];
    assert DoneMark !in head;
    CompletionsSkip(head, body);
  }

  lemma DeclLineScan(es: seq<Entry>, marks: set<char>)
    requires |es| >= 1 && ValidEntries(es, marks)
    ensures Completions(DeclLine(es)) == DoneNames(es)
  {
    CompletionsAfterHead(Join(EntryTexts(es), Delimiter));
    CompletionsJoin(es, marks);
  }

  /** The completed names of a declaration line are exactly its ✅ entries. */
  lemma DeclLineCompleted(es: seq<Entry>, marks: set<char>)
    requires |es| >= 1 && es[|es| - 1].Named? && ValidEntries(es, marks)
    ensures ParseCompletedSubtasks(DeclLine(es)) == DoneNames(es)
  {
    DeclLineIsOneLine(es, marks);
    OneLineCompleted(DeclLine(es));
    DeclLineScan(es, marks);
  }

  // ---------------------------------------------------------------------------------------------
  // A plan with lines in front of the declaration

  lemma LinesAroundNewline(a: string, b: string)
    ensures Lines(a + "\n" + b) == Lines(a) + Lines(b)
  {
    UnescapeAroundNewline(a, b);
    SplitConcat(UnescapeNewlines(a), '\n', UnescapeNewlines(b));
  }

  /** A stored backslash-n splits lines exactly like a line break. */
  lemma LinesAroundEscape(a: string, b: string)
    ensures Lines(a + "\\n" + b) == Lines(a + "\n" + b)
  {
    UnescapeAroundEscape(a, b);
    UnescapeAroundNewline(a, b);
  }

  /** A plan stored with a literal backslash-n declares what it declares with a line break. */
  lemma EscapedNewlineDeclares(a: string, b: string, marks: set<char>)
    ensures ParseDeclared(a + "\\n" + b, marks) == ParseDeclared(a + "\n" + b, marks)
  {
    LinesAroundEscape(a, b);
    ParseDeclaredLines(a + "\\n" + b, marks);
    ParseDeclaredLines(a + "\n" + b, marks);
  }

  lemma ParseDeclaredLines(plan: string, marks: set<char>)
    ensures ParseDeclared(plan, marks) == DeclaredFromLines(Lines(plan), marks)
  {
    if plan == "" {
      assert Lines(plan) == [""];
      assert !IsDeclLine(Trim(""));
    }
  }

  lemma ParseCompletedLines(plan: string)
    ensures ParseCompletedSubtasks(plan) == CompletedFromLines(Lines(plan))
  {
    if plan == "" {
      assert Lines(plan) == [""];
    }
  }

  lemma {:induction false} DeclaredSkipsLines(xs: seq<string>, ys: seq<string>, marks: set<char>)
    requires forall i :: 0 <= i < |xs| ==> !IsDeclLine(Trim(xs[i]))
    ensures DeclaredFromLines(xs + ys, marks) == DeclaredFromLines(ys, marks)
    decreases |xs|
  {
    if |xs| > 0 {
      assert (xs + ys)[0] == xs[0];
      assert (xs + ys)[1..] == xs[1..] + ys;
      DeclaredSkipsLines(xs[1..], ys, marks);
    } else {
      assert xs + ys == ys;
    }
  }

  lemma {:induction false} CompletedLinesAppend(xs: seq<string>, ys: seq<string>)
    ensures CompletedFromLines(xs + ys) == CompletedFromLines(xs) + CompletedFromLines(ys)
    decreases |xs|
  {
    if |xs| > 0 {
      assert (xs + ys)[0] == xs[0];
      assert (xs + ys)[1..] == xs[1..] + ys;
      CompletedLinesAppend(xs[1..], ys);
    } else {
      assert xs + ys == ys;
    }
  }

  /** Lines in front that declare nothing do not change the declared subtasks. */
  lemma DeclaredAfterPreamble(pre: string, rest: string, marks: set<char>)
    requires NoDeclLine(pre)
    ensures ParseDeclared(pre + "\n" + rest, marks) == ParseDeclared(rest, marks)
  {
    LinesAroundNewline(pre, rest);
    ParseDeclaredLines(pre + "\n" + rest, marks);
    ParseDeclaredLines(rest, marks);
    DeclaredSkipsLines(Lines(pre), Lines(rest), marks);
  }

  /** Completed names are collected line by line, so the two sides of a line break add up. */
  lemma CompletedAroundNewline(pre: string, rest: string)
    ensures ParseCompletedSubtasks(pre + "\n" + rest) ==
              ParseCompletedSubtasks(pre) + ParseCompletedSubtasks(rest)
  {
    LinesAroundNewline(pre, rest);
    ParseCompletedLines(pre + "\n" + rest);
    ParseCompletedLines(pre);
    ParseCompletedLines(rest);
    CompletedLinesAppend(Lines(pre), Lines(rest));
  }

  // ---------------------------------------------------------------------------------------------
  // Re-planning

  function DoneTexts(names: seq<string>): (r: seq<string>)
    ensures |r| == |names| && forall i :: 0 <= i < |names| ==> r[i] == [DoneMark] + names[i]
  {
    seq(|names|, i requires 0 <= i < |names| => [DoneMark] + names[i])
  }

  /**
   * The plan text stored after a re-plan: the new plan, then one declaration line that lists the
   * completed subtasks with ✅ and after them the new ones.
   */
  function ReplanText(plan: string, completed: seq<string>, added: seq<string>): string {
    plan + "\n" + DeclMarker + [FullColon] + Join(DoneTexts(completed), Delimiter) + Delimiter + Join(added, Delimiter)
  }

  function Entries(mark: Mark, names: seq<string>): (r: seq<Entry>)
    ensures |r| == |names| && forall i :: 0 <= i < |names| ==> r[i] == Named(mark, names[i])
  {
    seq(|names|, i requires 0 <= i < |names| => Named(mark, names[i]))
  }

  /** The entries of the re-plan line; with nothing completed its first token is empty. */
  function ReplanEntries(completed: seq<string>, added: seq<string>): seq<Entry> {
    (if |completed| == 0 then [Blank] else Entries(Done, completed)) + Entries(Bare, added)
  }

  lemma {:induction false} NamesAppend(xs: seq<Entry>, ys: seq<Entry>)
    ensures DeclaredNames(xs + ys) == DeclaredNames(xs) + DeclaredNames(ys)
    ensures DoneNames(xs + ys) == DoneNames(xs) + DoneNames(ys)
    decreases |xs|
  {
    if |xs| > 0 {
      assert (xs + ys)[0] == xs[0];
      assert (xs + ys)[1..] == xs[1..] + ys;
      NamesAppend(xs[1..], ys);
    } else {
      assert xs + ys == ys;
    }
  }

  lemma {:induction false} NamesOfEntries(mark: Mark, names: seq<string>)
    ensures DeclaredNames(Entries(mark, names)) == names
    ensures DoneNames(Entries(mark, names)) == if mark == Done then names else []
    decreases |names|
  {
    if |names| > 0 {
      assert Entries(mark, names)[1..] == Entries(mark, names[1..]);
      NamesOfEntries(mark, names[1..]);
    }
  }

  lemma EntryTextsOfEntries(names: seq<string>)
    ensures EntryTexts(Entries(Bare, names)) == names
    ensures EntryTexts(Entries(Done, names)) == DoneTexts(names)
  {
    forall i | 0 <= i < |names| ensures EntryTexts(Entries(Bare, names))[i] == names[i] {
      assert EntryText(Named(Bare, names[i])) == "" + names[i];
    }
  }

  lemma EntryTextsAppend(xs: seq<Entry>, ys: seq<Entry>)
    ensures EntryTexts(xs + ys) == EntryTexts(xs) + EntryTexts(ys)
  {
  }

  /** The re-plan line joins the ✅ names and the new names into one ` → `-join. */
  lemma ReplanJoin(completed: seq<string>, added: seq<string>)
    requires |added| > 0
    ensures Join(EntryTexts(ReplanEntries(completed, added)), Delimiter) ==
              Join(DoneTexts(completed), Delimiter) + Delimiter + Join(added, Delimiter)
  {
    var head := if |completed| == 0 then [Blank] else Entries(Done, completed);
    var headTexts := if |completed| == 0 then [""] else DoneTexts(completed);
    EntryTextsOfEntries(completed);
    EntryTextsOfEntries(added);
    assert EntryTexts(head) == headTexts;
    EntryTextsAppend(head, Entries(Bare, added));
    JoinAppend(headTexts, added, Delimiter);
    assert Join(headTexts, Delimiter) == Join(DoneTexts(completed), Delimiter);
  }

  lemma ReplanLine(plan: string, completed: seq<string>, added: seq<string>)
    requires |added| > 0
    ensures ReplanText(plan, completed, added) == plan + "\n" + DeclLine(ReplanEntries(completed, added))
  {
    ReplanJoin(completed, added);
    var c := Join(DoneTexts(completed), Delimiter);
    var a := Join(added, Delimiter);
    assert DeclLine(ReplanEntries(completed, added)) == DeclMarker + [FullColon] + (c + Delimiter + a);
  }

  lemma ReplanNames(completed: seq<string>, added: seq<string>)
    ensures DeclaredNames(ReplanEntries(completed, added)) == completed + added
    ensures DoneNames(ReplanEntries(completed, added)) == completed
  {
    var head := if |completed| == 0 then [Blank] else Entries(Done, completed);
    NamesAppend(head, Entries(Bare, added));
    NamesOfEntries(Done, completed);
    NamesOfEntries(Bare, added);
    assert DeclaredNames([Blank]) == [] && DoneNames([Blank]) == [];
  }

  lemma ReplanValid(completed: seq<string>, added: seq<string>, marks: set<char>)
    requires DoneMark in marks
    requires forall i :: 0 <= i < |completed| ==> ValidName(completed[i])
    requires forall i :: 0 <= i < |added| ==> ValidName(added[i])
    requires |added| > 0
    ensures var es := ReplanEntries(completed, added); |es| >= 1 && es[|es| - 1].Named? && ValidEntries(es, marks)
  {
  }

  /**
   * Re-planning keeps the completed work: the stored text declares the completed subtasks followed
   * by the new ones, and reports the completed ones (after whatever the new plan itself marks).
   */
  lemma ReplanRoundTrip(plan: string, completed: seq<string>, added: seq<string>, marks: set<char>)
    requires NoDeclLine(plan)
    requires |added| > 0
    requires forall i :: 0 <= i < |completed| ==> ValidName(completed[i])
    requires forall i :: 0 <= i < |added| ==> ValidName(added[i])
    requires DoneMark in marks && marks <= ExtendedMarks
    ensures ParseDeclared(ReplanText(plan, completed, added), marks) == completed + added
    ensures ParseCompletedSubtasks(ReplanText(plan, completed, added)) ==
              ParseCompletedSubtasks(plan) + completed
  {
    var es := ReplanEntries(completed, added);
    ReplanLine(plan, completed, added);
    ReplanValid(completed, added, marks);
    ReplanNames(completed, added);
    DeclaredAfterPreamble(plan, DeclLine(es), marks);
    DeclLineDeclared(es, marks);
    CompletedAroundNewline(plan, DeclLine(es));
    DeclLineCompleted(es, marks);
  }

  /**
   * After a re-plan, a resumed run executes exactly the new subtasks that are neither among the
   * completed ones nor marked done by the new plan's own text.
   */
  lemma ReplanResumes(plan: string, completed: seq<string>, added: seq<string>)
    requires NoDeclLine(plan)
    requires |added| > 0
    requires forall i :: 0 <= i < |completed| ==> ValidName(completed[i])
    requires forall i :: 0 <= i < |added| ==> ValidName(added[i])
    ensures forall n :: n in ToExecute(ReplanText(plan, completed, added)) <==>
              n in added && n !in completed && n !in ParseCompletedSubtasks(plan)
  {
    ReplanRoundTrip(plan, completed, added, ExtendedMarks);
  }

  function ResumeEntries(done: seq<string>, pending: seq<string>): seq<Entry> {
    Entries(Done, done) + Entries(Bare, pending)
  }

  lemma ResumeEntriesRead(done: seq<string>, pending: seq<string>)
    requires |done| + |pending| > 0
    requires forall i :: 0 <= i < |done| ==> ValidName(done[i])
    requires forall i :: 0 <= i < |pending| ==> ValidName(pending[i])
    ensures var es := ResumeEntries(done, pending);
            && |es| >= 1 && es[|es| - 1].Named?
            && ValidEntries(es, DispatcherMarks) && ValidEntries(es, ExtendedMarks)
            && DeclaredNames(es) == done + pending && DoneNames(es) == done
  {
    NamesAppend(Entries(Done, done), Entries(Bare, pending));
    NamesOfEntries(Done, done);
    NamesOfEntries(Bare, pending);
  }

  /** A plan whose declaration line comes after lines that declare nothing reads as that line. */
  lemma PreambleAndLine(pre: string, es: seq<Entry>)
    requires NoDeclLine(pre)
    requires |es| >= 1 && es[|es| - 1].Named?
    requires ValidEntries(es, DispatcherMarks) && ValidEntries(es, ExtendedMarks)
    ensures ParseSubtasks(pre + "\n" + DeclLine(es)) == DeclaredNames(es)
    ensures ParseSubtasksExtended(pre + "\n" + DeclLine(es)) == DeclaredNames(es)
    ensures ParseCompletedSubtasks(pre + "\n" + DeclLine(es)) == ParseCompletedSubtasks(pre) + DoneNames(es)
  {
    DeclaredAfterPreamble(pre, DeclLine(es), DispatcherMarks);
    DeclaredAfterPreamble(pre, DeclLine(es), ExtendedMarks);
    DeclLineDeclared(es, DispatcherMarks);
    DeclLineDeclared(es, ExtendedMarks);
    CompletedAroundNewline(pre, DeclLine(es));
    DeclLineCompleted(es, ExtendedMarks);
  }

  lemma RemainingOfResume(done: seq<string>, pending: seq<string>, completed: seq<string>)
    requires forall i :: 0 <= i < |done| ==> done[i] in completed
    requires forall i :: 0 <= i < |pending| ==> pending[i] !in completed
    ensures Remaining(done + pending, completed) == pending
  {
    RemainingAppend(done, pending, completed);
    RemainingDrops(done, completed);
    RemainingKeeps(pending, completed);
  }

  /**
   * Resuming: a plan whose declaration line lists the done subtasks with ✅ and then the pending
   * ones runs exactly the pending ones, in order, provided nothing marks them done elsewhere.
   */
  lemma ResumeRunsPending(pre: string, done: seq<string>, pending: seq<string>)
    requires NoDeclLine(pre)
    requires |done| + |pending| > 0
    requires forall i :: 0 <= i < |done| ==> ValidName(done[i])
    requires forall i :: 0 <= i < |pending| ==> ValidName(pending[i])
    requires forall i :: 0 <= i < |pending| ==> pending[i] !in done && pending[i] !in ParseCompletedSubtasks(pre)
    ensures var plan := pre + "\n" + DeclLine(ResumeEntries(done, pending));
            && ParseSubtasks(plan) == done + pending
            && ParseSubtasksExtended(plan) == done + pending
            && ParseCompletedSubtasks(plan) == ParseCompletedSubtasks(pre) + done
            && ToExecute(plan) == pending
  {
    var es := ResumeEntries(done, pending);
    var plan := pre + "\n" + DeclLine(es);
    ResumeEntriesRead(done, pending);
    PreambleAndLine(pre, es);
    RemainingOfResume(done, pending, ParseCompletedSubtasks(plan));
  }
}

=== FILE: prompt.dfy ===
/**
 * Assembling the prompt for one run (`buildPrompt`), once the task record and its latest log
 * records are at hand: the progress list, the current subtask's description, the file paths named
 * by resource logs, and the sections each dispatcher puts together.
 */
module Prompt {
  import opened Maybe
  import opened Text
  import opened PlanCodec
  import Fields
  import PlanMark

  // ---------------------------------------------------------------------------------------------
  // Progress

  const LeftArrow: char := '\U{2190}'  // ←

  /** One subtask's progress line: done, the one being run, or still open. */
  function ProgressLine(plan: string, s: string, current: string): (line: string)
    ensures Contains(plan, [DoneMark] + s) ==> line == [DoneMark, ' '] + s
    ensures !Contains(plan, [DoneMark] + s) && current != "" && s == current ==>
      line == [CurrentMark, ' '] + s + [' ', LeftArrow] + " 当前"
    ensures !Contains(plan, [DoneMark] + s) && (current == "" || s != current) ==> line == [PendingMark, ' '] + s
    ensures '\n' !in s ==> '\n' !in line
  {
    if Contains(plan, [DoneMark] + s) then [DoneMark, ' '] + s
    else if current != "" && s == current then [CurrentMark, ' '] + s + [' ', LeftArrow] + " 当前"
    else [PendingMark, ' '] + s
  }

  /** The progress lines, one per declared subtask, in declaration order. */
  function ProgressLines(plan: string, current: string): (lines: seq<string>)
    ensures |lines| == |ParseSubtasks(plan)|
    ensures forall i :: 0 <= i < |lines| ==> lines[i] == ProgressLine(plan, ParseSubtasks(plan)[i], current)
  {
    var subtasks := ParseSubtasks(plan);
    seq(|subtasks|, i requires 0 <= i < |subtasks| => ProgressLine(plan, subtasks[i], current))
  }

  /** `progressLines`: the lines joined by line breaks, empty when nothing is declared. */
  function ProgressText(plan: string, current: string): (r: string)
    ensures r == "" <==> ParseSubtasks(plan) == []
  {
    var lines := ProgressLines(plan, current);
    if |lines| == 0 then ""
    else
      JoinStarts(lines, "\n");
      Join(lines, "\n")
  }

  /** Reading the progress text back line by line gives one line per declared subtask, in order. */
  lemma ProgressReadsBack(plan: string, current: string)
    requires ParseSubtasks(plan) != []
    ensures Split(ProgressText(plan, current), '\n') == ProgressLines(plan, current)
    ensures |Split(ProgressText(plan, current), '\n')| == |ParseSubtasks(plan)|
  {
    DeclaredOneLine(plan, DispatcherMarks);
    SplitJoin(ProgressLines(plan, current), '\n');
  }

  /** A join starts with its first piece. */
  lemma JoinStarts(xs: seq<string>, sep: string)
    requires |xs| > 0
    ensures xs[0] <= Join(xs, sep)
  {
  }

  /** A join ends with its last piece, after the join of the others and one separator. */
  lemma JoinEnds(xs: seq<string>, sep: string)
    requires |xs| > 0
    ensures Join(xs, sep) == (if |xs| == 1 then "" else Join(xs[..|xs| - 1], sep) + sep) + xs[|xs| - 1]
  {
    if |xs| > 1 {
      var front, last := xs[..|xs| - 1], [xs[|xs| - 1]];
      assert front + last == xs;
      JoinAppend(front, last, sep);
    }
  }

  /** A join of two or more pieces opens with the first and a separator and closes with a separator and the last. */
  lemma JoinBounds(xs: seq<string>, sep: string)
    requires |xs| >= 2
    ensures xs[0] + sep <= Join(xs, sep)
    ensures |sep + xs[|xs| - 1]| <= |Join(xs, sep)|
    ensures Join(xs, sep)[|Join(xs, sep)| - |sep + xs[|xs| - 1]|..] == sep + xs[|xs| - 1]
  {
    var j := Join(xs, sep);
    assert j == xs[0] + sep + Join(xs[1..], sep);
    JoinEnds(xs, sep);
    var front := Join(xs[..|xs| - 1], sep);
    assert j == front + (sep + xs[|xs| - 1]);
  }

  // ---------------------------------------------------------------------------------------------
  // The current subtask's description

  /** `line.split(sep).slice(1).join(sep)` is everything after the first separator. */
  lemma AfterFirstSeparator(line: string, sep: char, k: nat)
    requires k < |line| && line[k] == sep && sep !in line[..k]
    ensures Join(Split(line, sep)[1..], [sep]) == line[k + 1..]
  {
    assert line == line[..k] + [sep] + line[k + 1..];
    SplitAtFirst(line[..k], sep, line[k + 1..]);
    JoinSplit(line[k + 1..], sep);
  }

  /**
   * The description of subtask `name` on the first line that mentions it and holds a colon: the text
   * after the first colon (the full-width one if there is one), trimmed; dropped when empty or when
   * it starts with `✅` or `📍`. Later lines are not consulted.
   */
  function DescriptionIn(lines: seq<string>, name: string): (r: string)
    ensures r != "" ==> Trimmed(r) && r[0] != DoneMark && r[0] != CurrentMark
    decreases |lines|
  {
    if |lines| == 0 then ""
    else
      var line := lines[0];
      if Contains(line, name) && (FullColon in line || ':' in line) then
        var sep := if FullColon in line then FullColon else ':';
        var after := Trim(Join(Split(line, sep)[1..], [sep]));
        if after != "" && after[0] != DoneMark && after[0] != CurrentMark then after else ""
      else DescriptionIn(lines[1..], name)
  }

  function SubtaskDescription(plan: string, name: string): string {
    if plan == "" then "" else DescriptionIn(Lines(plan), name)
  }

  /** The line that decides: what follows its first colon, trimmed, unless that reads as a marked name. */
  lemma DescriptionOfLine(lines: seq<string>, name: string, i: nat, sep: char, k: nat)
    requires i < |lines| && Contains(lines[i], name)
    requires forall j :: 0 <= j < i ==> !(Contains(lines[j], name) && (FullColon in lines[j] || ':' in lines[j]))
    requires sep == FullColon || (sep == ':' && FullColon !in lines[i])
    requires k < |lines[i]| && lines[i][k] == sep && sep !in lines[i][..k]
    ensures var after := Trim(lines[i][k + 1..]);
            DescriptionIn(lines, name) ==
              if after != "" && after[0] != DoneMark && after[0] != CurrentMark then after else ""
    decreases i
  {
    if i == 0 {
      AfterFirstSeparator(lines[0], sep, k);
    } else {
      assert lines[1..][i - 1] == lines[i];
      DescriptionOfLine(lines[1..], name, i - 1, sep, k);
    }
  }

  // ---------------------------------------------------------------------------------------------
  // Log records and the file paths they name

  datatype LogEntry = LogEntry(kind: string, content: string)

  function ReadLog(r: Fields.Record): LogEntry {
    LogEntry(Fields.Fv(r.fields, "类型"), Fields.Fv(r.fields, "内容"))
  }

  /** The log records read, those without content dropped, in the order the search returned them. */
  function KeptLogs(records: seq<Fields.Record>): (es: seq<LogEntry>)
    ensures forall i :: 0 <= i < |es| ==> es[i].content != ""
    ensures |es| <= |records|
    decreases |records|
  {
    if |records| == 0 then []
    else
      var e := ReadLog(records[0]);
      (if e.content != "" then [e] else []) + KeptLogs(records[1..])
  }

  /** One log record is kept exactly when it has content. */
  lemma KeptLogsOne(r: Fields.Record)
    ensures KeptLogs([r]) == if ReadLog(r).content != "" then [ReadLog(r)] else []
  {
    assert [r][1..] == [];
  }

  /** Filtering keeps the reading order: the logs of two runs of records are kept run by run. */
  lemma {:induction false} KeptLogsAppend(xs: seq<Fields.Record>, ys: seq<Fields.Record>)
    ensures KeptLogs(xs + ys) == KeptLogs(xs) + KeptLogs(ys)
    decreases |xs|
  {
    if |xs| > 0 {
      var e := ReadLog(xs[0]);
      var head := if e.content != "" then [e] else [];
      assert (xs + ys)[0] == xs[0] && (xs + ys)[1..] == xs[1..] + ys by { ConcatFront(xs, ys); }
      KeptLogsAppend(xs[1..], ys);
      AppendAssoc(head, KeptLogs(xs[1..]), KeptLogs(ys));
    } else {
      assert xs + ys == ys;
    }
  }

  function LogLine(e: LogEntry): string {
    "- [" + e.kind + "] " + e.content
  }

  function LogText(es: seq<LogEntry>): string {
    Join(seq(|es|, i requires 0 <= i < |es| => LogLine(es[i])), "\n")
  }

  /** A log whose lower-cased type mentions a resource. */
  predicate IsResource(e: LogEntry) {
    Contains(Lower(e.kind), "resource") || Contains(Lower(e.kind), "资源")
  }

  /** Where `文件` or `file`, in any letter case, ends when it starts at `p`. */
  function KeywordEnd(c: string, p: nat): (r: Option<nat>)
    ensures r.Some? ==> p < r.value <= |c|
  {
    if p + 2 <= |c| && c[p..p + 2] == "文件" then Some(p + 2)
    else if p + 4 <= |c| && Lower(c[p..p + 4]) == "file" then Some(p + 4)
    else None
  }

  /** Number of non-whitespace characters from `a` on. */
  function NonWhiteRun(c: string, a: nat): (n: nat)
    requires a <= |c|
    ensures a + n <= |c|
    ensures forall i :: a <= i < a + n ==> !IsWhite(c[i])
    ensures a + n < |c| ==> IsWhite(c[a + n])
    decreases |c| - a
  {
    if a == |c| || IsWhite(c[a]) then 0 else 1 + NonWhiteRun(c, a + 1)
  }

  /** `/(?:文件|file)[：:]\s*(\S+)/i` tried at position `p`: the captured path. */
  function PathAt(c: string, p: nat): (r: Option<string>)
    ensures r.Some? ==> r.value != "" && forall i :: 0 <= i < |r.value| ==> !IsWhite(r.value[i])
  {
    match KeywordEnd(c, p)
    case None => None
    case Some(q) => PathAfter(c, q)
  }

  /** The rest of the expression once the keyword ends at `q`: a colon, whitespace, the path. */
  function PathAfter(c: string, q: nat): (r: Option<string>)
    ensures r.Some? ==> r.value != "" && forall i :: 0 <= i < |r.value| ==> !IsWhite(r.value[i])
  {
    if q < |c| && (c[q] == FullColon || c[q] == ':') then
      var a := SkipWhite(c, q + 1);
      if a < |c| then Some(c[a..a + NonWhiteRun(c, a)]) else None
    else None
  }

  /** The leftmost match of the path expression in `c`, searching from `p`. */
  function FilePath(c: string, p: nat): (r: Option<string>)
    ensures r.Some? ==> r.value != "" && forall i :: 0 <= i < |r.value| ==> !IsWhite(r.value[i])
    decreases |c| - p
  {
    if p >= |c| then None
    else match PathAt(c, p)
      case Some(x) => Some(x)
      case None => FilePath(c, p + 1)
  }

  /** The search finds the leftmost position where the expression matches, and nothing when none does. */
  lemma {:induction false} FilePathIsLeftmost(c: string, p: nat)
    ensures FilePath(c, p).None? <==> forall i :: p <= i < |c| ==> PathAt(c, i).None?
    ensures FilePath(c, p).Some? ==>
      exists i :: p <= i < |c| && PathAt(c, i) == FilePath(c, p) && forall k :: p <= k < i ==> PathAt(c, k).None?
    decreases |c| - p
  {
    if p < |c| {
      var here := PathAt(c, p);
      if here.Some? {
        assert FilePath(c, p) == here;
      } else {
        assert FilePath(c, p) == FilePath(c, p + 1);
        FilePathIsLeftmost(c, p + 1);
        if FilePath(c, p + 1).Some? {
          var i :| p + 1 <= i < |c| && PathAt(c, i) == FilePath(c, p + 1)
                   && forall k :: p + 1 <= k < i ==> PathAt(c, k).None?;
          assert forall k :: p <= k < i ==> PathAt(c, k).None?;
        }
      }
    }
  }

  /** `previousFiles`: the path each resource log names, in log order. */
  function FilePaths(es: seq<LogEntry>): (r: seq<string>)
    ensures |r| <= |es|
    ensures forall i :: 0 <= i < |r| ==> r[i] != ""
    decreases |es|
  {
    if |es| == 0 then []
    else
      var rest := FilePaths(es[1..]);
      if IsResource(es[0]) then
        match FilePath(es[0].content, 0)
        case Some(x) => [x] + rest
        case None => rest
      else rest
  }

  /** Paths are collected only from resource logs: any other log contributes nothing. */
  lemma {:induction false} FilePathsOnlyResources(es: seq<LogEntry>)
    requires forall i :: 0 <= i < |es| ==> !IsResource(es[i])
    ensures FilePaths(es) == []
    decreases |es|
  {
    if |es| > 0 {
      FilePathsOnlyResources(es[1..]);
    }
  }

  /** The paths of two runs of logs are the paths of the first followed by those of the second. */
  lemma {:induction false} FilePathsAppend(xs: seq<LogEntry>, ys: seq<LogEntry>)
    ensures FilePaths(xs + ys) == FilePaths(xs) + FilePaths(ys)
    decreases |xs|
  {
    if |xs| > 0 {
      assert (xs + ys)[0] == xs[0];
      assert (xs + ys)[1..] == xs[1..] + ys;
      FilePathsAppend(xs[1..], ys);
    } else {
      assert xs + ys == ys;
    }
  }

  lemma SkipWhiteOver(s: string, i: nat, w: nat)
    requires i + w <= |s|
    requires forall j :: i <= j < i + w ==> IsWhite(s[j])
    requires i + w < |s| ==> !IsWhite(s[i + w])
    ensures SkipWhite(s, i) == i + w
  {
  }

  /** Where the parts of keyword + colon + whitespace + path + rest sit in the text. */
  lemma KeywordLayout(k: string, colon: char, w: string, path: string, post: string)
    ensures var c := k + [colon] + w + path + post;
            var p := |k| + 1 + |w|;
            && |c| == p + |path| + |post|
            && c[0..|k|] == k && c[|k|] == colon
            && (forall j :: |k| + 1 <= j < p ==> c[j] == w[j - |k| - 1])
            && (forall j :: p <= j < p + |path| ==> c[j] == path[j - p])
            && c[p..p + |path|] == path
            && (p + |path| < |c| ==> c[p + |path|] == post[0])
  {
  }

  /** Either spelling of the keyword, found at the start of the text, ends where the spelling does. */
  lemma KeywordAtStart(k: string, c: string)
    requires k == "文件" || Lower(k) == "file"
    requires k <= c
    ensures KeywordEnd(c, 0) == Some(|k|)
  {
    if k != "文件" {
      assert LowerChar(k[0]) == 'f';
      assert c[0] == k[0];
      assert c[0..4] == k;
    } else {
      assert c[0..2] == k;
    }
  }

  /** `文件：path` or `file:path`, in any letter case, followed by whitespace or the end names `path`. */
  lemma PathAfterKeyword(k: string, colon: char, w: string, path: string, post: string)
    requires k == "文件" || Lower(k) == "file"
    requires colon == FullColon || colon == ':'
    requires AllWhite(w)
    requires path != "" && forall i :: 0 <= i < |path| ==> !IsWhite(path[i])
    requires post == "" || IsWhite(post[0])
    ensures FilePath(k + [colon] + w + path + post, 0) == Some(path)
  {
    var c := k + [colon] + w + path + post;
    assert k <= c by { KeywordLayout(k, colon, w, path, post); }
    assert PathAt(c, 0) == PathAfter(c, |k|) by { KeywordAtStart(k, c); }
    ColonThenPath(k, colon, w, path, post);
  }

  /** After the keyword, a colon, whitespace and a path followed by whitespace or the end give the path. */
  lemma ColonThenPath(k: string, colon: char, w: string, path: string, post: string)
    requires colon == FullColon || colon == ':'
    requires AllWhite(w)
    requires path != "" && forall i :: 0 <= i < |path| ==> !IsWhite(path[i])
    requires post == "" || IsWhite(post[0])
    ensures PathAfter(k + [colon] + w + path + post, |k|) == Some(path)
  {
    var c := k + [colon] + w + path + post;
    var a := |k| + 1 + |w|;
    KeywordLayout(k, colon, w, path, post);
    assert SkipWhite(c, |k| + 1) == a by { SkipWhiteOver(c, |k| + 1, |w|); }
    assert NonWhiteRun(c, a) == |path| by { NonWhiteRunExact(c, a, |path|); }
  }

  /** Text put in front of `c` moves where a keyword ends by its length, and changes nothing else. */
  lemma KeywordEndShift(pre: string, c: string, j: nat)
    ensures KeywordEnd(pre + c, |pre| + j)
            == (match KeywordEnd(c, j) case None => None case Some(q) => Some(|pre| + q))
  {
    var d := pre + c;
    var p := |pre| + j;
    if j + 2 <= |c| {
      assert d[p..p + 2] == c[j..j + 2] by { SliceShift(pre, c, j, j + 2); }
    }
    if j + 4 <= |c| {
      assert d[p..p + 4] == c[j..j + 4] by { SliceShift(pre, c, j, j + 4); }
    }
  }

  lemma SliceShift(pre: string, c: string, a: nat, b: nat)
    requires a <= b <= |c|
    ensures (pre + c)[|pre| + a..|pre| + b] == c[a..b]
  {
  }

  lemma {:induction false} SkipWhiteShift(pre: string, c: string, i: nat)
    requires i <= |c|
    ensures SkipWhite(pre + c, |pre| + i) == |pre| + SkipWhite(c, i)
    decreases |c| - i
  {
    if i < |c| {
      assert (pre + c)[|pre| + i] == c[i];
      SkipWhiteShift(pre, c, i + 1);
    }
  }

  lemma {:induction false} NonWhiteRunShift(pre: string, c: string, a: nat)
    requires a <= |c|
    ensures NonWhiteRun(pre + c, |pre| + a) == NonWhiteRun(c, a)
    decreases |c| - a
  {
    if a < |c| {
      assert (pre + c)[|pre| + a] == c[a];
      NonWhiteRunShift(pre, c, a + 1);
    }
  }

  /** What follows a keyword reads the same after any text is put in front. */
  lemma PathAfterShift(pre: string, c: string, q: nat)
    ensures PathAfter(pre + c, |pre| + q) == PathAfter(c, q)
  {
    if q < |c| {
      assert (pre + c)[|pre| + q] == c[q];
      SkipWhiteShift(pre, c, q + 1);
      var a := SkipWhite(c, q + 1);
      if a < |c| {
        NonWhiteRunShift(pre, c, a);
        SliceShift(pre, c, a, a + NonWhiteRun(c, a));
      }
    }
  }

  /** The path expression tried inside `c` gives the same answer after any text is put in front. */
  lemma PathAtShift(pre: string, c: string, j: nat)
    ensures PathAt(pre + c, |pre| + j) == PathAt(c, j)
  {
    KeywordEndShift(pre, c, j);
    match KeywordEnd(c, j)
    case None =>
      assert KeywordEnd(pre + c, |pre| + j).None?;
    case Some(q) =>
      assert KeywordEnd(pre + c, |pre| + j) == Some(|pre| + q);
      assert PathAt(pre + c, |pre| + j) == PathAfter(pre + c, |pre| + q);
      PathAfterShift(pre, c, q);
  }

  /**
   * The search is for the leftmost match: text in front that holds no match of its own does not
   * change the path found.
   */
  lemma FilePathAfterLead(pre: string, c: string)
    requires forall i :: 0 <= i < |pre| ==> PathAt(pre + c, i).None?
    ensures FilePath(pre + c, 0) == FilePath(c, 0)
  {
    FilePathSkips(pre + c, 0, |pre|);
    FilePathShift(pre, c, 0);
  }

  /** Positions without a match are passed over. */
  lemma {:induction false} FilePathSkips(c: string, p: nat, q: nat)
    requires p <= q <= |c|
    requires forall i :: p <= i < q ==> PathAt(c, i).None?
    ensures FilePath(c, p) == FilePath(c, q)
    decreases q - p
  {
    if p < q {
      FilePathSkips(c, p + 1, q);
    }
  }

  lemma {:induction false} FilePathShift(pre: string, c: string, j: nat)
    requires j <= |c|
    ensures FilePath(pre + c, |pre| + j) == FilePath(c, j)
    decreases |c| - j
  {
    if j < |c| {
      PathAtShift(pre, c, j);
      FilePathShift(pre, c, j + 1);
    }
  }

  lemma {:induction false} NonWhiteRunExact(c: string, a: nat, n: nat)
    requires a + n <= |c|
    requires forall i :: a <= i < a + n ==> !IsWhite(c[i])
    requires a + n < |c| ==> IsWhite(c[a + n])
    ensures NonWhiteRun(c, a) == n
    decreases n
  {
    if n > 0 {
      NonWhiteRunExact(c, a + 1, n - 1);
    }
  }

  // ---------------------------------------------------------------------------------------------
  // Sections

  /** A section of the prompt: `## heading` on its own line, then the body. */
  datatype Section = Section(heading: string, body: string)

  function Render(s: Section): string {
    "## " + s.heading + "\n" + s.body
  }

  const GoalHeading: string := "任务目标"
  const InstructionHeading: string := "原始指令"
  const PlanHeading: string := "整体规划"
  const ProgressHeading: string := "当前进度"
  const SubtaskHeading: string := "当前子任务"
  const LogHeading: string := "关键发现和决策（从日志表）"
  const FilesHeading: string := "产出物路径"

  /** The fixed closing section: the JSON the run must answer with, per outcome. */
  const OutputFormat: Section := Section("输出格式", Join([
    "完成后输出 JSON：{\"status\":\"done\",\"summary\":\"一句话摘要\",\"files\":[\"产出文件路径\"]}",
    "遇到阻塞：{\"status\":\"blocked\",\"reason\":\"原因\"}",
    "失败：{\"status\":\"error\",\"message\":\"错误信息\"}"], "\n"))

  function When(c: bool, s: Section): (r: seq<Section>)
    ensures c ==> r == [s]
    ensures !c ==> r == []
  {
    if c then [s] else []
  }

  /** What `buildPrompt` reads from the task record and its logs. */
  datatype Inputs = Inputs(
    name: string,
    instruction: string,
    plan: string,
    status: string,       // `当前阶段` in bt-dispatch; the plan field itself in bm-dispatch
    logs: seq<LogEntry>)

  function ReadInputs(v: PlanMark.Variant, fields: Fields.Fields, records: seq<Fields.Record>): Inputs {
    var plan := Fields.Fv(fields, PlanMark.PlanField(v));
    Inputs(Fields.Fv(fields, "任务名称"), Fields.Fv(fields, "原始指令"), plan,
           if v == PlanMark.Bt then Fields.Fv(fields, "当前阶段") else plan,
           KeptLogs(records))
  }

  function SubtaskBody(v: PlanMark.Variant, plan: string, subtask: string): string {
    var desc := SubtaskDescription(plan, subtask);
    var head := "名称：" + subtask + (if desc != "" then "\n要求：" + desc else "");
    if v == PlanMark.Bt then head
    else head + "\n\n\U{26A0}\U{FE0F} 重要：只执行当前子任务「" + subtask + "」，不要做其他子任务。完成后立即写结果文件。"
  }

  /** The progress section: the rendered list, or failing that the status text, or nothing. */
  function ProgressSection(inp: Inputs, subtask: string): (r: seq<Section>)
    ensures |r| <= 1
    ensures ParseSubtasks(inp.plan) != [] ==> r == [Section(ProgressHeading, ProgressText(inp.plan, subtask))]
  {
    var text := ProgressText(inp.plan, subtask);
    if text != "" then [Section(ProgressHeading, text)]
    else When(inp.status != "", Section(ProgressHeading, inp.status))
  }

  /** The sections between the goal and the log sections. */
  function Middle(v: PlanMark.Variant, inp: Inputs, subtask: string): seq<Section> {
    var instruction := When(inp.instruction != "", Section(InstructionHeading, inp.instruction));
    var plan := When(inp.plan != "", Section(PlanHeading, inp.plan));
    var current := When(subtask != "", Section(SubtaskHeading, SubtaskBody(v, inp.plan, subtask)));
    if v == PlanMark.Bt then instruction + plan + ProgressSection(inp, subtask) + current
    else if subtask != "" then When(ProgressText(inp.plan, subtask) != "",
                                    Section(ProgressHeading, ProgressText(inp.plan, subtask))) + current
    else instruction + plan + ProgressSection(inp, subtask)
  }

  /** The sections of `buildPrompt` in order; `subtask` is empty in whole-task mode. */
  function Sections(v: PlanMark.Variant, inp: Inputs, subtask: string): (r: seq<Section>)
    ensures |r| >= 2
    ensures r[0] == Section(GoalHeading, inp.name)
    ensures r[|r| - 1] == OutputFormat
  {
    var files := FilePaths(inp.logs);
    [Section(GoalHeading, inp.name)] + Middle(v, inp, subtask)
      + When(inp.logs != [], Section(LogHeading, LogText(inp.logs)))
      + When(files != [], Section(FilesHeading, Join(files, "\n")))
      + [OutputFormat]
  }

  predicate HasHeading(ss: seq<Section>, h: string) {
    exists i :: 0 <= i < |ss| && ss[i].heading == h
  }

  lemma HasHeadingAppend(a: seq<Section>, b: seq<Section>, h: string)
    ensures HasHeading(a + b, h) <==> HasHeading(a, h) || HasHeading(b, h)
  {
    if HasHeading(a + b, h) {
      var i :| 0 <= i < |a + b| && (a + b)[i].heading == h;
      if i >= |a| {
        assert b[i - |a|].heading == h;
      }
    }
    if HasHeading(a, h) {
      var i :| 0 <= i < |a| && a[i].heading == h;
      assert (a + b)[i].heading == h;
    }
    if HasHeading(b, h) {
      var i :| 0 <= i < |b| && b[i].heading == h;
      assert (a + b)[|a| + i].heading == h;
    }
  }

  lemma WhenHeading(c: bool, s: Section, h: string)
    ensures HasHeading(When(c, s), h) <==> c && s.heading == h
  {
    if c && s.heading == h {
      assert When(c, s)[0].heading == h;
    }
  }

  /** The headings present in each stretch of a prompt, spelled out for the lemma below. */
  lemma MiddleHeadings(v: PlanMark.Variant, inp: Inputs, subtask: string, h: string)
    requires h == InstructionHeading || h == PlanHeading || h == SubtaskHeading
    ensures var r := Sections(v, inp, subtask);
            HasHeading(r, h) <==> HasHeading(Middle(v, inp, subtask), h)
  {
    var files := FilePaths(inp.logs);
    var goal := [Section(GoalHeading, inp.name)];
    var logs := When(inp.logs != [], Section(LogHeading, LogText(inp.logs)));
    var paths := When(files != [], Section(FilesHeading, Join(files, "\n")));
    var mid := Middle(v, inp, subtask);
    assert Sections(v, inp, subtask) == goal + mid + logs + paths + [OutputFormat];
    assert GoalHeading[0] != h[0] && LogHeading[0] != h[0] && FilesHeading[0] != h[0];
    assert OutputFormat.heading[0] != h[0];
    WhenHeading(inp.logs != [], Section(LogHeading, LogText(inp.logs)), h);
    WhenHeading(files != [], Section(FilesHeading, Join(files, "\n")), h);
    assert !HasHeading(goal, h) && !HasHeading([OutputFormat], h);
    HasHeadingAppend(goal, mid, h);
    HasHeadingAppend(goal + mid, logs, h);
    HasHeadingAppend(goal + mid + logs, paths, h);
    HasHeadingAppend(goal + mid + logs + paths, [OutputFormat], h);
  }

  /** Whether one of the three scoped headings appears, by variant and mode. */
  lemma SectionHeading(v: PlanMark.Variant, inp: Inputs, subtask: string, h: string)
    requires h == InstructionHeading || h == PlanHeading || h == SubtaskHeading
    ensures HasHeading(Sections(v, inp, subtask), h) <==>
      || (h == InstructionHeading && inp.instruction != "" && (v == PlanMark.Bt || subtask == ""))
      || (h == PlanHeading && inp.plan != "" && (v == PlanMark.Bt || subtask == ""))
      || (h == SubtaskHeading && subtask != "")
  {
    var instruction := When(inp.instruction != "", Section(InstructionHeading, inp.instruction));
    var plan := When(inp.plan != "", Section(PlanHeading, inp.plan));
    var current := When(subtask != "", Section(SubtaskHeading, SubtaskBody(v, inp.plan, subtask)));
    var progress := ProgressSection(inp, subtask);
    var listed := When(ProgressText(inp.plan, subtask) != "",
                       Section(ProgressHeading, ProgressText(inp.plan, subtask)));
    assert InstructionHeading[0] != PlanHeading[0] && InstructionHeading[0] != SubtaskHeading[0];
    assert PlanHeading[0] != SubtaskHeading[0];
    assert ProgressHeading != h by {
      if h == SubtaskHeading {
        assert ProgressHeading[2] != h[2];
      } else {
        assert ProgressHeading[0] != h[0];
      }
    }
    MiddleHeadings(v, inp, subtask, h);
    WhenHeading(inp.instruction != "", Section(InstructionHeading, inp.instruction), h);
    WhenHeading(inp.plan != "", Section(PlanHeading, inp.plan), h);
    WhenHeading(subtask != "", Section(SubtaskHeading, SubtaskBody(v, inp.plan, subtask)), h);
    WhenHeading(ProgressText(inp.plan, subtask) != "", Section(ProgressHeading, ProgressText(inp.plan, subtask)), h);
    WhenHeading(inp.status != "", Section(ProgressHeading, inp.status), h);
    assert !HasHeading(progress, h);
    var mid := Middle(v, inp, subtask);
    if v == PlanMark.Bt {
      assert mid == instruction + plan + progress + current;
      HasHeadingAppend(instruction, plan, h);
      HasHeadingAppend(instruction + plan, progress, h);
      HasHeadingAppend(instruction + plan + progress, current, h);
    } else if subtask == "" {
      assert mid == instruction + plan + progress;
      HasHeadingAppend(instruction, plan, h);
      HasHeadingAppend(instruction + plan, progress, h);
    } else {
      assert mid == listed + current;
      HasHeadingAppend(listed, current, h);
    }
  }

  /**
   * In bm-dispatch's subtask mode neither the raw instruction nor the whole plan is shown; in
   * whole-task mode, and always in bt-dispatch, each is shown exactly when it is non-empty; the
   * subtask section is there exactly when a subtask is being run.
   */
  lemma ScopeOfSections(v: PlanMark.Variant, inp: Inputs, subtask: string)
    ensures var r := Sections(v, inp, subtask);
            && (v == PlanMark.Bm && subtask != "" ==>
                  !HasHeading(r, InstructionHeading) && !HasHeading(r, PlanHeading))
            && (v == PlanMark.Bt || subtask == "" ==>
                  (HasHeading(r, InstructionHeading) <==> inp.instruction != "")
                  && (HasHeading(r, PlanHeading) <==> inp.plan != ""))
            && (HasHeading(r, SubtaskHeading) <==> subtask != "")
  {
    SectionHeading(v, inp, subtask, InstructionHeading);
    SectionHeading(v, inp, subtask, PlanHeading);
    SectionHeading(v, inp, subtask, SubtaskHeading);
  }

  /** Each section rendered, in order. */
  function Rendered(ss: seq<Section>): (r: seq<string>)
    ensures |r| == |ss|
    ensures forall i :: 0 <= i < |ss| ==> r[i] == Render(ss[i])
  {
    seq(|ss|, i requires 0 <= i < |ss| => Render(ss[i]))
  }

  /** Rendering a run of sections renders each part of it. */
  lemma RenderedSlices(ss: seq<Section>, i: nat)
    requires i <= |ss|
    ensures Rendered(ss)[..i] == Rendered(ss[..i]) && Rendered(ss)[i..] == Rendered(ss[i..])
  {
  }

  /** `parts.join('\n\n')` over the rendered sections. */
  function Assemble(ss: seq<Section>): string {
    Join(Rendered(ss), "\n\n")
  }

  /**
   * Cutting a section list anywhere cuts the assembled text at a blank line: the sections before
   * the cut and those after it are assembled separately and joined by one `\n\n`.
   */
  lemma AssembleSplitsAt(ss: seq<Section>, i: nat)
    requires 0 < i < |ss|
    ensures Assemble(ss) == Assemble(ss[..i]) + "\n\n" + Assemble(ss[i..])
  {
    var parts := Rendered(ss);
    var sep := "\n\n";
    assert Join(parts, sep) == Join(parts[..i], sep) + sep + Join(parts[i..], sep) by {
      assert parts[..i] + parts[i..] == parts;
      JoinAppend(parts[..i], parts[i..], sep);
    }
    RenderedSlices(ss, i);
  }

  /** A single section is assembled as its rendering alone. */
  lemma AssembleOne(s: Section)
    ensures Assemble([s]) == Render(s)
  {
    assert Rendered([s]) == [Render(s)];
  }

  /**
   * `buildPrompt`: the sections rendered and separated by blank lines. The goal section opens the
   * prompt and a blank line follows it; a blank line precedes the closing output-format section.
   */
  function BuildPrompt(v: PlanMark.Variant, inp: Inputs, subtask: string): (r: string)
    ensures r == Assemble(Sections(v, inp, subtask))
    ensures Render(Section(GoalHeading, inp.name)) + "\n\n" <= r
    ensures var tail := "\n\n" + Render(OutputFormat);
            |tail| <= |r| && r[|r| - |tail|..] == tail
  {
    var ss := Sections(v, inp, subtask);
    var parts := Rendered(ss);
    assert parts[0] == Render(Section(GoalHeading, inp.name)) && parts[|parts| - 1] == Render(OutputFormat);
    JoinBounds(parts, "\n\n");
    Assemble(ss)
  }
}

=== FILE: selector.dfy ===
/**
 * Choosing the next task (`fetchNextTask`): the candidates the table search returned are sorted by
 * priority rank, then status rank, then sequence number, and the first one is taken.
 */
module Selector {
  import opened Maybe
  import Numbers
  import Fields

  /** Priority labels; a smaller rank runs first. */
  const PriorityRank: map<string, int> := map[
    "\U{1F534} 紧急" := 0,
    "\U{1F7E1} 重要" := 1,
    "\U{1F7E2} 普通" := 2]

  /** Status labels: a task in progress runs before a paused one, which runs before a new one. */
  const StatusRank: map<string, int> := map[
    "\U{1F504} 进行中" := 0,
    "\U{23F8}\U{FE0F} 已暂停" := 1,
    "\U{1F550} 待开始" := 2]

  /** The rank an unknown tag gets. */
  const UnknownRank: int := 9

  /** The sequence number a task without one gets. */
  const DefaultSequence: string := "999"

  /** `RANK[tag] ?? 9`. */
  function Rank(ranks: map<string, int>, tag: string): (r: int)
    ensures tag in ranks ==> r == ranks[tag]
    ensures tag !in ranks ==> r == UnknownRank
  {
    if tag in ranks then ranks[tag] else UnknownRank
  }

  /** What the comparator reads of a record; `seq` is `None` where `parseInt` gives NaN. */
  datatype Key = Key(priority: int, status: int, order: Option<int>)

  function SequenceText(fields: Fields.Fields): (t: string)
    ensures t != ""
  {
    var t := Fields.Fv(fields, "执行序号");
    if t == "" then DefaultSequence else t
  }

  function KeyOf(r: Fields.Record): Key {
    Key(Rank(PriorityRank, Fields.Fv(r.fields, "优先级")),
        Rank(StatusRank, Fields.Fv(r.fields, "状态")),
        Numbers.ParseInt(SequenceText(r.fields)))
  }

  /**
   * The comparator's value: the difference of the first key that differs. A NaN difference counts
   * as zero, which is how `Array.prototype.sort` reads a NaN comparison.
   */
  function Compare(a: Key, b: Key): int {
    if a.priority != b.priority then a.priority - b.priority
    else if a.status != b.status then a.status - b.status
    else match (a.order, b.order)
      case (Some(x), Some(y)) => x - y
      case _ => 0
  }

  predicate Numeric(k: Key) {
    k.order.Some?
  }

  /** The order the comparator means: lexicographic on (priority, status, sequence). */
  predicate LexLess(a: Key, b: Key)
    requires Numeric(a) && Numeric(b)
  {
    a.priority < b.priority
    || (a.priority == b.priority && a.status < b.status)
    || (a.priority == b.priority && a.status == b.status && a.order.value < b.order.value)
  }

  /** On numeric keys the comparator's sign is exactly the lexicographic order. */
  lemma CompareIsLex(a: Key, b: Key)
    requires Numeric(a) && Numeric(b)
    ensures Compare(a, b) < 0 <==> LexLess(a, b)
    ensures Compare(a, b) == 0 <==> a == b
    ensures Compare(a, b) > 0 <==> LexLess(b, a)
  {
  }

  predicate AllNumeric(keys: seq<Key>) {
    forall i :: 0 <= i < |keys| ==> Numeric(keys[i])
  }

  /**
   * The position a stable sort puts first: scanning left to right, a later candidate replaces the
   * current one only when it compares strictly smaller.
   */
  method FirstIndex(keys: seq<Key>) returns (best: nat)
    requires |keys| > 0
    ensures best < |keys|
    ensures AllNumeric(keys) ==>
      (forall j :: 0 <= j < |keys| ==> !LexLess(keys[j], keys[best]))
      && (forall j :: 0 <= j < best ==> LexLess(keys[best], keys[j]))
  {
    best := 0;
    var i := 1;
    while i < |keys|
      invariant 1 <= i <= |keys| && best < i
      invariant AllNumeric(keys) ==>
        (forall j :: 0 <= j < i ==> !LexLess(keys[j], keys[best]))
        && (forall j :: 0 <= j < best ==> LexLess(keys[best], keys[j]))
    {
      if AllNumeric(keys) {
        CompareIsLex(keys[i], keys[best]);
      }
      if Compare(keys[i], keys[best]) < 0 {
        best := i;
      }
      i := i + 1;
    }
  }

  /**
   * `fetchNextTask` after the search, as the position of the record it returns: nothing when there
   * is no candidate; otherwise, whenever every sequence number parses, a candidate whose key is
   * minimal and the earliest of those.
   */
  method SelectNext(candidates: seq<Fields.Record>) returns (pick: Option<nat>)
    ensures pick.None? <==> |candidates| == 0
    ensures pick.Some? ==> pick.value < |candidates|
    ensures pick.Some? && (forall j :: 0 <= j < |candidates| ==> Numeric(KeyOf(candidates[j]))) ==>
      (forall j :: 0 <= j < |candidates| ==> !LexLess(KeyOf(candidates[j]), KeyOf(candidates[pick.value])))
      && (forall j :: 0 <= j < pick.value ==> LexLess(KeyOf(candidates[pick.value]), KeyOf(candidates[j])))
  {
    if |candidates| == 0 {
      return None;
    }
    var keys := seq(|candidates|, i requires 0 <= i < |candidates| => KeyOf(candidates[i]));
    var best := FirstIndex(keys);
    assert forall j :: 0 <= j < |candidates| ==> keys[j] == KeyOf(candidates[j]);
    pick := Some(best);
  }

  /** A record whose sequence cell is empty or missing sorts as sequence number 999. */
  lemma MissingSequence(r: Fields.Record)
    requires Fields.Fv(r.fields, "执行序号") == ""
    ensures KeyOf(r).order == Some(999)
  {
    Numbers.ParseIntOfString(999);
    assert Numbers.IntToString(999) == DefaultSequence;
  }

  /** Unknown labels rank after every known one. */
  lemma UnknownRanksLast(ranks: map<string, int>, known: string, tag: string)
    requires ranks == PriorityRank || ranks == StatusRank
    requires known in ranks && tag !in ranks
    ensures Rank(ranks, known) < Rank(ranks, tag)
  {
  }
}

=== FILE: text.dfy ===
/**
 * The JavaScript string primitives the dispatcher is built from: `trim`, `includes`/`indexOf`,
 * `split` on a one-character separator, `Array.prototype.join`, `toLowerCase` (the part of it that
 * can matter to the keyword tests), `slice(0, n)`, and the `replace(/\\n/g, '\n')` that turns the
 * two characters backslash-n into a newline. Strings are sequences of Unicode scalar values.
 */
module Text {
  import opened Maybe

  // ---------------------------------------------------------------------------------------------
  // Whitespace and trim

  /** JavaScript's WhiteSpace and LineTerminator code points: what `trim()` strips and `\s` matches. */
  predicate IsWhite(c: char) {
    || c == '\t' || c == '\n' || c == '\U{000B}' || c == '\U{000C}' || c == '\r' || c == ' '
    || c == '\U{00A0}' || c == '\U{1680}' || ('\U{2000}' <= c <= '\U{200A}')
    || c == '\U{2028}' || c == '\U{2029}' || c == '\U{202F}' || c == '\U{205F}'
    || c == '\U{3000}' || c == '\U{FEFF}'
  }

  predicate AllWhite(s: string) {
    forall i :: 0 <= i < |s| ==> IsWhite(s[i])
  }

  /** Neither end of `s` is whitespace: `s.trim() === s`. */
  predicate Trimmed(s: string) {
    |s| == 0 || (!IsWhite(s[0]) && !IsWhite(s[|s| - 1]))
  }

  /** The first index at or after `i` that does not hold whitespace, or `|s|`. */
  function SkipWhite(s: string, i: nat): (k: nat)
    requires i <= |s|
    ensures i <= k <= |s|
    ensures forall m :: i <= m < k ==> IsWhite(s[m])
    ensures k < |s| ==> !IsWhite(s[k])
    decreases |s| - i
  {
    if i < |s| && IsWhite(s[i]) then SkipWhite(s, i + 1) else i
  }

  /** The index just past the last character before `j` that is not whitespace, or 0. */
  function SkipWhiteBack(s: string, j: nat): (k: nat)
    requires j <= |s|
    ensures k <= j
    ensures forall m :: k <= m < j ==> IsWhite(s[m])
    ensures k > 0 ==> !IsWhite(s[k - 1])
    decreases j
  {
    if j > 0 && IsWhite(s[j - 1]) then SkipWhiteBack(s, j - 1) else j
  }

  /** `s.trimStart()`. */
  function TrimStart(s: string): (r: string)
    ensures |r| <= |s|
    ensures |r| > 0 ==> !IsWhite(r[0])
  {
    s[SkipWhite(s, 0)..]
  }

  /** A text that does not start with whitespace is its own `trimStart()`. */
  lemma TrimStartKeeps(s: string)
    requires |s| > 0 && !IsWhite(s[0])
    ensures TrimStart(s) == s
  {
    assert SkipWhite(s, 0) == 0;
  }

  /** `s.trim()`: the longest infix of `s` with no whitespace at either end. */
  function Trim(s: string): (r: string)
    ensures Trimmed(r)
    ensures |r| <= |s|
  {
    var a := SkipWhite(s, 0);
    if a == |s| then ""
    else
      var b := SkipWhiteBack(s, |s|);
      assert a < b;
      s[a..b]
  }

  /** `trim` only removes characters. */
  lemma TrimChars(s: string, c: char)
    requires c in Trim(s)
    ensures c in s
  {
    var a := SkipWhite(s, 0);
    var b := SkipWhiteBack(s, |s|);
    var r := Trim(s);
    var k :| 0 <= k < |r| && r[k] == c;
    assert r[k] == s[a + k];
  }

  lemma TrimStartSkips(w: string, y: string)
    requires AllWhite(w)
    requires |y| == 0 || !IsWhite(y[0])
    ensures TrimStart(w + y) == y
  {
    var s := w + y;
    var k := SkipWhite(s, 0);
    assert forall m :: 0 <= m < |w| ==> s[m] == w[m];
    assert |y| > 0 ==> s[|w|] == y[0];
    assert k == |w|;
    assert s[|w|..] == y;
  }

  /** Whitespace around an already-trimmed string is exactly what `trim` removes. */
  lemma TrimPadded(w1: string, x: string, w2: string)
    requires AllWhite(w1) && AllWhite(w2) && Trimmed(x)
    ensures Trim(w1 + x + w2) == x
  {
    var s := w1 + x + w2;
    var a := SkipWhite(s, 0);
    var b := SkipWhiteBack(s, |s|);
    assert forall m :: 0 <= m < |w1| ==> s[m] == w1[m];
    assert forall m :: |w1| + |x| <= m < |s| ==> s[m] == w2[m - |w1| - |x|];
    if |x| == 0 {
      assert forall m :: |w1| <= m < |s| ==> IsWhite(s[m]);
      assert a == |s|;
    } else {
      assert s[|w1|] == x[0] && s[|w1| + |x| - 1] == x[|x| - 1];
      assert a == |w1|;
      assert b == |w1| + |x|;
      assert s[a..b] == x;
    }
  }

  lemma TrimOfTrimmed(x: string)
    requires Trimmed(x)
    ensures Trim(x) == x
  {
    assert "" + x + "" == x;
    TrimPadded("", x, "");
  }

  // ---------------------------------------------------------------------------------------------
  // Substring search

  predicate OccursAt(s: string, t: string, k: int) {
    0 <= k && k + |t| <= |s| && s[k..k + |t|] == t
  }

  function IndexFrom(s: string, t: string, i: nat): (r: Option<nat>)
    ensures r.Some? ==> i <= r.value && OccursAt(s, t, r.value)
    ensures forall k :: i <= k && (r.None? || k < r.value) ==> !OccursAt(s, t, k)
    decreases |s| - i
  {
    if i + |t| > |s| then None
    else if s[i..i + |t|] == t then Some(i)
    else IndexFrom(s, t, i + 1)
  }

  /** `s.indexOf(t)`, with `None` for -1: the first position where `t` occurs. */
  function IndexOf(s: string, t: string): (r: Option<nat>)
    ensures r.Some? ==> OccursAt(s, t, r.value)
    ensures forall k :: 0 <= k && (r.None? || k < r.value) ==> !OccursAt(s, t, k)
  {
    IndexFrom(s, t, 0)
  }

  /** `s.includes(t)`. */
  predicate Contains(s: string, t: string) {
    IndexOf(s, t).Some?
  }

  lemma ContainsAt(s: string, t: string, k: int)
    requires OccursAt(s, t, k)
    ensures Contains(s, t)
  {
  }

  lemma AppendAssoc<T>(x: seq<T>, y: seq<T>, z: seq<T>)
    ensures x + (y + z) == (x + y) + z
  {
  }

  /** The front of a concatenation with a non-empty left side is the front of that side. */
  lemma ConcatFront<T>(x: seq<T>, y: seq<T>)
    requires |x| > 0
    ensures (x + y)[0] == x[0] && (x + y)[1..] == x[1..] + y
  {
  }

  lemma NotContainsFirst(s: string, t: string)
    requires |t| > 0 && t[0] !in s
    ensures !Contains(s, t)
  {
  }

  // ---------------------------------------------------------------------------------------------
  // split / join

  /** `s.split(d)` for a one-character separator `d`: always at least one piece. */
  function Split(s: string, d: char): (r: seq<string>)
    ensures |r| >= 1
    ensures forall i :: 0 <= i < |r| ==> d !in r[i]
    ensures d in s ==> |r| >= 2
    decreases |s|
  {
    if |s| == 0 then [""]
    else
      var rest := Split(s[1..], d);
      if s[0] == d then [""] + rest
      else [[s[0]] + rest[0]] + rest[1..]
  }

  /** `xs.join(sep)`. */
  function Join(xs: seq<string>, sep: string): string
    decreases |xs|
  {
    if |xs| == 0 then "" else if |xs| == 1 then xs[0] else xs[0] + sep + Join(xs[1..], sep)
  }

  lemma {:induction false} SplitPieceChars(s: string, d: char, i: nat, c: char)
    requires i < |Split(s, d)| && c in Split(s, d)[i]
    ensures c in s
    decreases |s|
  {
    var rest := Split(s[1..], d);
    if s[0] == d {
      SplitPieceChars(s[1..], d, i - 1, c);
    } else if i == 0 {
      if c != s[0] {
        SplitPieceChars(s[1..], d, 0, c);
      }
    } else {
      SplitPieceChars(s[1..], d, i, c);
    }
  }

  lemma {:induction false} SplitNoSeparator(s: string, d: char)
    requires d !in s
    ensures Split(s, d) == [s]
    decreases |s|
  {
    if |s| > 0 {
      assert s[0] in s;
      assert forall c :: c in s[1..] ==> c in s;
      SplitNoSeparator(s[1..], d);
      assert [s[0]] + s[1..] == s;
    }
  }

  /** Splitting at the first separator. */
  lemma SplitAtFirst(a: string, d: char, b: string)
    requires d !in a
    ensures Split(a + [d] + b, d) == [a] + Split(b, d)
    decreases |a|
  {
    if |a| > 0 {
      assert (a + [d] + b)[1..] == a[1..] + [d] + b;
      SplitAtFirst(a[1..], d, b);
      assert [a[0]] + a[1..] == a;
    } else {
      assert a + [d] + b == [d] + b;
    }
  }

  /** Splitting a concatenation at a separator splits each side independently. */
  lemma {:induction false} SplitConcat(a: string, d: char, b: string)
    ensures Split(a + [d] + b, d) == Split(a, d) + Split(b, d)
    decreases |a|
  {
    if |a| == 0 {
      assert a + [d] + b == [d] + b;
      assert ([d] + b)[1..] == b;
    } else {
      assert (a + [d] + b)[1..] == a[1..] + [d] + b;
      SplitConcat(a[1..], d, b);
    }
  }

  lemma {:induction false} JoinAppend(xs: seq<string>, ys: seq<string>, sep: string)
    requires |xs| > 0 && |ys| > 0
    ensures Join(xs + ys, sep) == Join(xs, sep) + sep + Join(ys, sep)
    decreases |xs|
  {
    var zs := xs + ys;
    assert zs[0] == xs[0] && zs[1..] == xs[1..] + ys by { ConcatFront(xs, ys); }
    assert Join(zs, sep) == xs[0] + sep + Join(xs[1..] + ys, sep);
    if |xs| == 1 {
      assert xs[1..] + ys == ys;
    } else {
      JoinAppend(xs[1..], ys, sep);
      var a, b := Join(xs[1..], sep), Join(ys, sep);
      assert xs[0] + sep + (a + sep + b) == (xs[0] + sep + a) + sep + b;
    }
  }

  /** A character found in neither the pieces nor the separator is not in their join. */
  lemma {:induction false} JoinAvoids(xs: seq<string>, sep: string, x: char)
    requires x !in sep
    requires forall i :: 0 <= i < |xs| ==> x !in xs[i]
    ensures x !in Join(xs, sep)
    decreases |xs|
  {
    if |xs| > 1 {
      JoinAvoids(xs[1..], sep, x);
    }
  }

  /** A join ends where its last piece ends. */
  lemma {:induction false} JoinLastChar(xs: seq<string>, sep: string)
    requires |xs| > 0 && |xs[|xs| - 1]| > 0
    ensures |Join(xs, sep)| > 0
    ensures Join(xs, sep)[|Join(xs, sep)| - 1] == xs[|xs| - 1][|xs[|xs| - 1]| - 1]
    decreases |xs|
  {
    if |xs| > 1 {
      JoinLastChar(xs[1..], sep);
    }
  }

  /** `split` undoes `join` when no piece contains the separator. */
  lemma {:induction false} SplitJoin(xs: seq<string>, d: char)
    requires |xs| >= 1
    requires forall i :: 0 <= i < |xs| ==> d !in xs[i]
    ensures Split(Join(xs, [d]), d) == xs
    decreases |xs|
  {
    if |xs| == 1 {
      SplitNoSeparator(xs[0], d);
    } else {
      SplitJoin(xs[1..], d);
      SplitAtFirst(xs[0], d, Join(xs[1..], [d]));
    }
  }

  /** `join` undoes `split`. */
  lemma {:induction false} JoinSplit(s: string, d: char)
    ensures Join(Split(s, d), [d]) == s
    decreases |s|
  {
    if |s| > 0 {
      JoinSplit(s[1..], d);
      var rest := Split(s[1..], d);
      if s[0] != d {
        if |rest| == 1 {
        } else {
          assert ([[s[0]] + rest[0]] + rest[1..])[1..] == rest[1..];
        }
      }
    }
  }

  // ---------------------------------------------------------------------------------------------
  // Literal "\n" in stored text

  /** `s.replace(/\\n/g, '\n')`: every backslash followed by `n` becomes a newline, left to right. */
  function UnescapeNewlines(s: string): (r: string)
    ensures forall c :: c in r ==> c in s || c == '\n'
    decreases |s|
  {
    if |s| >= 2 && s[0] == '\\' && s[1] == 'n' then "\n" + UnescapeNewlines(s[2..])
    else if |s| == 0 then ""
    else [s[0]] + UnescapeNewlines(s[1..])
  }

  lemma UnescapeNoBackslash(s: string)
    requires '\\' !in s
    ensures UnescapeNewlines(s) == s
    decreases |s|
  {
    if |s| > 0 {
      UnescapeNoBackslash(s[1..]);
    }
  }

  /** An escape off the front of `s` reads as a line break. */
  lemma UnescapeEscape(s: string)
    requires |s| >= 2 && s[0] == '\\' && s[1] == 'n'
    ensures UnescapeNewlines(s) == "\n" + UnescapeNewlines(s[2..])
  {
  }

  /** Any other first character of `s` is kept as it is. */
  lemma UnescapeChar(s: string)
    requires |s| > 0 && !(|s| >= 2 && s[0] == '\\' && s[1] == 'n')
    ensures UnescapeNewlines(s) == [s[0]] + UnescapeNewlines(s[1..])
  {
  }

  /** Dropping a prefix of `a` from `a + m + b` drops it from `a` alone. */
  lemma DropAround(a: string, m: string, b: string, k: nat)
    requires k <= |a|
    ensures (a + m + b)[k..] == a[k..] + m + b
    ensures forall i :: 0 <= i < k ==> (a + m + b)[i] == a[i]
  {
  }

  /** `h + (x + m + y) == (h + x) + m + y`. */
  lemma RegroupFront(h: string, x: string, m: string, y: string)
    ensures h + (x + m + y) == (h + x) + m + y
  {
  }

  /** A real newline never takes part in an escape, so unescaping works on each side of one. */
  lemma {:induction false} UnescapeAroundNewline(a: string, b: string)
    ensures UnescapeNewlines(a + "\n" + b) == UnescapeNewlines(a) + "\n" + UnescapeNewlines(b)
    decreases |a|
  {
    var s := a + "\n" + b;
    if |a| == 0 {
      assert s == "\n" + b && s[1..] == b;
      UnescapeChar(s);
    } else if |a| >= 2 && a[0] == '\\' && a[1] == 'n' {
      DropAround(a, "\n", b, 2);
      UnescapeEscape(s);
      UnescapeEscape(a);
      UnescapeAroundNewline(a[2..], b);
      RegroupFront("\n", UnescapeNewlines(a[2..]), "\n", UnescapeNewlines(b));
    } else if |a| == 1 {
      assert s == a + ("\n" + b) && s[1..] == "\n" + b;
      UnescapeChar(s);
      UnescapeChar(a);
      assert ("\n" + b)[1..] == b;
      UnescapeChar("\n" + b);
    } else {
      DropAround(a, "\n", b, 2);
      DropAround(a, "\n", b, 1);
      UnescapeChar(s);
      UnescapeChar(a);
      UnescapeAroundNewline(a[1..], b);
      RegroupFront([a[0]], UnescapeNewlines(a[1..]), "\n", UnescapeNewlines(b));
    }
  }

  /** A stored backslash-n reads exactly like a line break, whatever precedes it. */
  lemma {:induction false} UnescapeAroundEscape(a: string, b: string)
    ensures UnescapeNewlines(a + "\\n" + b) == UnescapeNewlines(a) + "\n" + UnescapeNewlines(b)
    decreases |a|
  {
    var s := a + "\\n" + b;
    if |a| == 0 {
      assert s == "\\n" + b && s[2..] == b;
      UnescapeEscape(s);
    } else if |a| >= 2 && a[0] == '\\' && a[1] == 'n' {
      DropAround(a, "\\n", b, 2);
      UnescapeEscape(s);
      UnescapeEscape(a);
      UnescapeAroundEscape(a[2..], b);
      RegroupFront("\n", UnescapeNewlines(a[2..]), "\n", UnescapeNewlines(b));
    } else if |a| == 1 {
      assert s == a + ("\\n" + b) && s[1..] == "\\n" + b;
      UnescapeChar(s);
      UnescapeChar(a);
      assert ("\\n" + b)[2..] == b;
      UnescapeEscape("\\n" + b);
    } else {
      DropAround(a, "\\n", b, 2);
      DropAround(a, "\\n", b, 1);
      UnescapeChar(s);
      UnescapeChar(a);
      UnescapeAroundEscape(a[1..], b);
      RegroupFront([a[0]], UnescapeNewlines(a[1..]), "\n", UnescapeNewlines(b));
    }
  }

  // ---------------------------------------------------------------------------------------------
  // toLowerCase, slice

  /**
   * The lower-case mapping as far as it can produce the ASCII letters of the keywords the
   * dispatcher looks for: ASCII capitals, and the Kelvin sign, whose lower case is `k`.
   */
  function LowerChar(c: char): char {
    if 'A' <= c <= 'Z' then (c as int + 32) as char
    else if c == '\U{212A}' then 'k'
    else c
  }

  function Lower(s: string): (r: string)
    ensures |r| == |s|
    ensures forall i :: 0 <= i < |s| ==> r[i] == LowerChar(s[i])
  {
    seq(|s|, i requires 0 <= i < |s| => LowerChar(s[i]))
  }

  /** `s.slice(0, n)`. */
  function Take(s: string, n: nat): (r: string)
    ensures |r| <= n && r <= s
    ensures |s| <= n ==> r == s
    ensures |s| > n ==> |r| == n
  {
    if |s| <= n then s else s[..n]
  }
}
